=== FILE: README.md ===
# Market-data downloaders and TradingView exporters, modelled in Dafny

This project models the core of a small market-data toolkit.

Two ingest scripts keep one-minute bar files (`data/<SYMBOL>_1m.csv`) up to date:

- `scripts/polygon_downloader.py` pulls US equity aggregates from the Polygon REST API.
- `scripts/databento_downloader.py` pulls continuous futures bars from Databento.

Both scripts work the same way:

- They read the last stored day of each file and plan an inclusive day range up to today.
- They fetch that range through a rate-limited, retrying and paginating client, or through a loop that narrows the request to the availability boundary.
- They normalise the reply to the canonical columns `caldt, open, high, low, close, volume, vwap, transactions, day`, with New York wall-clock `caldt`.
- They merge the new rows into the file: sort by `caldt`, then drop duplicate timestamps keeping the last.

Two interactive exporters drive a TradingView browser session:

- `tv_downloader/tv_downloader.py` takes window-bounded `--session`/`-start`/`-end` options.
- `scripts/tv_data.py` is the simpler version.

Their core is the menu logic:

- the loop suffix of a command;
- comma selections and their order-preserving deduplication;
- the every-minute loop, which runs on the `:50` second of a minute inside an optional window of the New York day that may wrap past midnight;
- the `p`/`r`/`s` commands;
- the time-of-day parser for window bounds;
- URL canonicalisation, used to recognise an open chart tab.

## Modules

| module | contents |
|---|---|
| `Common` | the `Option` and `Result` wrappers |
| `Text` | the parts of Python's `str` the code relies on |
| `Bars` | the bar record |
| `Calendar` | `date.toordinal`, `%Y-%m-%d` parsing and printing, and the day of an instant |
| `LastDate` | `get_last_data_date` |
| `Planner` | file filter and range planning |
| `Merge` | `append_to_csv` |
| `PolygonNormalize` | `process_data` |
| `DatabentoNormalize` | `process_databento_frame` |
| `PolygonFetch` | rate limiter, retry, pagination, `download_and_merge_data` |
| `DatabentoFetch` | `download_and_process_range`, targets, one step of `main` |
| `Schedule` | window test and next-run search |
| `TimeOfDay` | `parse_time_of_day` |
| `Commands` | loop suffixes and selections |
| `LoopControl` | loop state, `p`/`r`/`s`, schedule options |
| `Urls` | `canonicalize_url` |

## Time and external inputs

- **Ingest time.** Instants and naive New York stamps are whole milliseconds since 0001-01-01T00:00, so day `n` (a `date.toordinal()` number) starts at `(n - 1) * 86400000`.
- **UTC to New York conversion** is a function parameter `toLocal`.
- **Databento timestamp parsing** is a function parameter `parse`.
- **Exporter time.** The exporters work on wall-clock microseconds. `tv_downloader.py` reads New York time (`datetime.now(NEW_YORK_TZ)`); Python adds a `timedelta` to an aware datetime on the wall clock and compares datetimes of one zone by wall time, so wall-clock arithmetic is exact there. `tv_data.py` reads the machine's naive local clock (`datetime.now()`, scripts/tv_data.py:777, 788, 880, 928), which is New York time only on a machine set to that zone.
- **Remote services** are oracles indexed by the number of the call:
  - Polygon's `requests.get`: `server(n, request)`;
  - Databento's `get_range`: `server(n, end)`.
- **Clock readings** (`now`, `after`, `today`) are parameters.
- **Sleeps** advance a modelled monotonic clock by exactly the requested amount.

## Behaviour worth knowing

- **A malformed file stops the whole run.** `main` has no per-file exception handler, so the `RuntimeError` of a malformed last row ends the run; `Planner.MalformedFileStopsRun` shows this.
- **Merging writes the target file in place**, with no temporary file and rename.
- **Databento narrowing repeats.** It retries for as long as the reported availability boundary keeps moving earlier. The first adjustment may even move the end later (`DatabentoFetch.DownloadRange`).
- **Schedule options apply only partly on error.** The `--session`, `-start` and `-end` options of one command take effect one after another. An error in a later option leaves the earlier bounds assigned, and it does not reschedule the loop (`LoopControl.ScheduleWindow`, `LoopControl.ApplySchedule`).
- **`tv_data.py` removes each loop suffix at most once**, so `x-l-l` leaves the choice `x-l` (`Commands.LoopSuffixMayRemain`).
- **The `RuntimeError` of `next_loop_timestamp` cannot occur.** Every window of valid times admits some minute, and 1440 consecutive minutes cover the day (`Schedule.NextLoopTimestampAlwaysFound`).
- **The Polygon `start_date > end_date` guard can never fire** (`Planner.PolygonStartAfterEndUnreachable`).
- **A stale file never catches up on the free tier.** A file whose last day is more than 731 days old is refused by the free-tier guard on every run (`Planner.PolygonStaleFileRefused`).

## Model

| member | source | states |
|---|---|---|
| Text.StripEmptyIffBlank | tv_downloader/tv_downloader.py:481-483 | `strip` leaves nothing exactly when every character is white space |
| Text.Split | scripts/tv_data.py:898 | `split(",")` gives at least one piece, no piece holds the separator, and joining the pieces gives the text back |
| Text.DigitsRoundTrip | tv_downloader/tv_downloader.py:493-499 | a digit string is below ten to the power of its length, and zero-padding its value to its length gives it back |
| Text.FieldIff | tv_downloader/tv_downloader.py:493-499 | a `%H`, `%I` or `%M` field reads `n` exactly when `n` is in range and the text is `n` zero-padded to one or two digits |
| Text.PaddedFieldValue | scripts/polygon_downloader.py:96 | a two-digit zero-padded number reads back as itself |
| Calendar.ParseIsoDate | scripts/polygon_downloader.py:93-98 | a `%Y-%m-%d` parse that succeeds yields a date the `date` constructor accepts |
| Calendar.DayField | scripts/polygon_downloader.py:96 | the `%d` field yields a day number between 1 and 31 |
| Calendar.OrdinalMonotone | scripts/polygon_downloader.py:333-346 | comparing ordinals orders dates as comparing `date` objects does, in both directions, and distinct dates have distinct ordinals |
| Calendar.ParseFormatRoundTrip | scripts/databento_downloader.py:75-80 | a `day` value written as `%Y-%m-%d` reads back as the date it was written from |
| Calendar.DateOfBounds | scripts/polygon_downloader.py:203 | the date of an instant is the one day whose midnight is at or before it and whose next midnight is after it |
| Calendar.MillisOfDayAt | scripts/polygon_downloader.py:199 | an offset within a day added to that day's midnight has that time of day and that date |
| LastDate.DatePart | scripts/polygon_downloader.py:104 | `split(" ", 1)[0]` is a space-free prefix of `caldt`, followed by a space when shorter |
| LastDate.RowDate | scripts/polygon_downloader.py:93-108 | a non-empty `day` decides: success exactly when it parses, with that date's ordinal, else the bad-day error naming it. With `day` empty, a non-empty `caldt` decides the same way through its date part, else the bad-caldt error naming it. With both empty, the missing-columns error |
| LastDate.LastDataDate | scripts/polygon_downloader.py:83-108 | no rows, or an empty final row, give `None`; otherwise the final row's date or its error |
| LastDate.DatabentoLastDataDate | scripts/databento_downloader.py:60-90 | a missing file gives `None`; an existing one is read as Polygon's reader does |
| LastDate.OnlyFinalRowMatters | scripts/polygon_downloader.py:84-91 | earlier rows, well-formed or not, do not change the result |
| LastDate.WrittenDayReadsBack | scripts/databento_downloader.py:72-80 | a final row whose `day` was written from a date resumes from that date |
| LastDate.CaldtFallback | scripts/polygon_downloader.py:100-108 | with `day` empty, a `caldt` of the form `YYYY-MM-DD HH:MM:SS` yields its date |
| Planner.QualifyingNames | scripts/polygon_downloader.py:66-75 | a file qualifies exactly when it is a regular file named by a non-empty run of capitals A-Z followed by `_1m.csv` |
| Planner.QualifyingFiles | scripts/polygon_downloader.py:79-80 | the listing keeps exactly the files of the input that qualify |
| Planner.QualifyingFilesConcat | scripts/polygon_downloader.py:79-80 | filtering a concatenated listing filters each part in place |
| Planner.QualifyingFilesSingle | scripts/polygon_downloader.py:79-80 | a single file is kept exactly when it qualifies |
| Planner.Symbol | scripts/polygon_downloader.py:350 | the symbol followed by `_1m.csv` is the file name |
| Planner.PolygonPlan | scripts/polygon_downloader.py:329-343 | skip exactly when the last day is yesterday or later; otherwise fetch through today, from the day after the last day or 730 days back for an empty file |
| Planner.PolygonStartAfterEndUnreachable | scripts/polygon_downloader.py:346-348 | the `start_date > end_date` skip never happens and every fetched range is non-empty |
| Planner.PolygonStaleFileRefused | scripts/polygon_downloader.py:257-262 | an empty file's first range passes the free-tier guard, but a file more than 731 days stale is planned into a refused range |
| Planner.DatabentoPlan | scripts/databento_downloader.py:265-291 | each skip happens exactly in its case: missing file; last day yesterday or later; configured start, or 2024-01-01 for an empty file, after today. A fetched range ends today and starts at the later of the configured start and the day after the last day (2024-01-01 for an empty file) |
| Planner.DatabentoStartAfterEnd | scripts/databento_downloader.py:279-291 | the start-after-end skip happens only when the configured start, or 2024-01-01 for an empty file, lies after today |
| Planner.PolygonRun | scripts/polygon_downloader.py:325-348 | the plans are those of the qualifying files in order, each the Polygon plan of that file's last day. The run completes exactly when every qualifying file is planned; otherwise its error is that of the first file whose last date fails. No plan is a start-after-end skip |
| Planner.MalformedFileStopsRun | scripts/polygon_downloader.py:329-330 | a qualifying file whose last date raises ends the run with that error, and no later file is planned |
| Merge.SortDedup | scripts/polygon_downloader.py:239 | strictly ascending by `caldt`, the same timestamps as the input, and each row the last input row with its timestamp |
| Merge.AppendToCsv | scripts/polygon_downloader.py:222-242 | the written table is strictly sorted, holds exactly the timestamps of existing plus new rows, and only rows from them |
| Merge.AppendToCsvAdmissible | scripts/polygon_downloader.py:237-239 | the modelled outcome is one of those any sort order may produce |
| Merge.AdmissibleKeys | scripts/databento_downloader.py:111-124 | whatever the sort order, re-merging the same rows adds and loses no timestamp, and an unreadable file keeps only the new timestamps |
| Merge.FreshRowsWin | scripts/polygon_downloader.py:239 | a re-fetched timestamp keeps the last fetched row; any other stored row is the last existing one |
| Merge.MergeIdempotent | scripts/databento_downloader.py:122-127 | merging the same rows into the file the first merge wrote leaves it unchanged |
| Merge.MergeNothing | scripts/polygon_downloader.py:237-242 | merging no rows into a well-formed file rewrites it unchanged |
| PolygonNormalize.UnixEpochIsJanuaryFirst1970 | scripts/polygon_downloader.py:193 | the epoch of `unit="ms"` is 1970-01-01, ordinal 719163 |
| PolygonNormalize.ToBar | scripts/polygon_downloader.py:193-218 | the renamed bar carries the fields of the aggregate, its local stamp, and that stamp's date as `day` |
| PolygonNormalize.ProcessData | scripts/polygon_downloader.py:186-219 | a bar is produced exactly for each aggregate whose local time lies in 04:00-19:59; no records give no rows |
| PolygonNormalize.ProcessDataConcat | scripts/polygon_downloader.py:297-309 | processing the accumulated pages equals concatenating the processed pages |
| PolygonNormalize.SessionBoundsInclusive | scripts/polygon_downloader.py:199 | 04:00:00.000 and 19:59:00.000 are kept; one millisecond outside either end is not |
| DatabentoNormalize.FirstPresent | scripts/databento_downloader.py:139-142 | the first candidate that is a column, or `None` exactly when none is |
| DatabentoNormalize.FirstMissing | scripts/databento_downloader.py:164-175 | the first price column absent in open, high, low, close, volume order (all before it are present), or `None` exactly when all are present |
| DatabentoNormalize.ProcessFrame | scripts/databento_downloader.py:131-177 | an empty frame gives no rows. It fails for no timestamp column exactly when no candidate is present, and for an unparseable timestamp exactly when some row's cell does not parse. A missing price column reported is the first absent one in open, high, low, close, volume order. Otherwise there is one bar per row, with the converted stamp, its date, the price cells, and optional cells present exactly when their column is |
| DatabentoNormalize.TransactionsByPriority | scripts/databento_downloader.py:153-162 | transactions come from `count`, else `n`, else `transactions`; `vwap` from its column |
| PolygonFetch.RateLimitInterval | scripts/polygon_downloader.py:32-33 | no spacing exactly on a paid plan |
| PolygonFetch.RespectRateLimit | scripts/polygon_downloader.py:37-51 | with a positive interval the recorded request time is the clock after the sleep and at least one interval after the previous one; otherwise nothing changes |
| PolygonFetch.RateLimitSpacing | scripts/polygon_downloader.py:37-51 | two requests through the limiter are at least one interval apart whatever happened between |
| PolygonFetch.ApiKeySuffixed | scripts/polygon_downloader.py:141-143 | the result extends the URL and holds `apiKey=`; a keyed URL is unchanged; the joiner is `&` exactly when the URL has a `?` |
| PolygonFetch.ApiKeySuffixIdempotent | scripts/polygon_downloader.py:142-143 | keying a keyed URL changes nothing |
| PolygonFetch.Backoff | scripts/polygon_downloader.py:149-155 | the wait after a 429 is at least one second, the interval, and a parsed `Retry-After`, and is one of those values |
| PolygonFetch.KeyedCursor | scripts/polygon_downloader.py:172-174 | a missing or empty `next_url` is handed back as is; any other is keyed |
| PolygonFetch.Attempts | scripts/polygon_downloader.py:122-183 | at most the allowed attempts; every attempt but the last was a 429 followed by at least its back-off; the final reply decides the batch (results and keyed cursor when delivered, nothing on error or exhaustion) |
| PolygonFetch.PageRequest | scripts/polygon_downloader.py:131-144 | the first page is the aggregates query; later pages follow the keyed cursor |
| PolygonFetch.GetPolygonData | scripts/polygon_downloader.py:111-183 | one call sends between one and five requests |
| PolygonFetch.Flatten | scripts/polygon_downloader.py:297 | every gathered record comes from some batch |
| PolygonFetch.DownloadPages | scripts/polygon_downloader.py:271-302 | pages chain each call's cursor into the next; every page but the last continues; the last stops unless the 500-call cap was hit; records are all pages' results in order |
| PolygonFetch.DownloadAndMerge | scripts/polygon_downloader.py:246-317 | refused exactly when the free-tier guard fails, and then no request is sent. Otherwise the batches are a pagination run against the server from the given session and the records are their results in order. No data exactly when nothing was gathered, empty exactly when processing drops everything, otherwise the processed rows merged into the file |
| PolygonFetch.SentGrows | scripts/polygon_downloader.py:278-291 | a run of calls sends between one and five requests per page |
| DatabentoFetch.ExclusiveEnd | scripts/databento_downloader.py:191 | the request end is midnight after the last requested day |
| DatabentoFetch.KeepRange | scripts/databento_downloader.py:246-249 | a row is kept exactly when its local date lies in the requested range |
| DatabentoFetch.KeepRangeConcat | scripts/databento_downloader.py:246-247 | filtering concatenated rows filters each part in place, so the kept rows stay in frame order, each as often as it occurs |
| DatabentoFetch.KeepRangeSingle | scripts/databento_downloader.py:246-247 | one row is kept exactly when its local date lies in the requested range |
| DatabentoFetch.KeepRangeByStamp | scripts/databento_downloader.py:246 | the date test equals testing the stamp against local midnights |
| DatabentoFetch.DownloadRange | scripts/databento_downloader.py:180-250 | the first end is the exclusive end. Each later end is the boundary the previous call reported, not before the start day, and strictly earlier after the first adjustment. The final reply decides the outcome, and every returned row lies in the range |
| DatabentoFetch.TargetsDisjointFromPolygon | scripts/databento_downloader.py:47-57 | every target ends in `_1m.csv` but none passes the Polygon file filter |
| DatabentoFetch.UpdateFile | scripts/databento_downloader.py:262-310 | a missing file is skipped, a malformed last date raises, and a planned skip is reported as such. A planned range is downloaded by a narrowing run; its error crashes the step, no rows append nothing, and otherwise exactly its rows are merged into the file |
| Schedule.MinutesSinceMidnight | tv_downloader/tv_downloader.py:430-431 | a valid clock time maps into 0..1439 |
| Schedule.MinutesSinceMidnightInjective | tv_downloader/tv_downloader.py:430-431 | distinct clock times have distinct minute numbers |
| Schedule.WrappingWindowIsComplement | tv_downloader/tv_downloader.py:442-447 | a window whose start is after its end admits exactly the minutes not strictly between end and start |
| Schedule.DegenerateWindowsAdmitAll | tv_downloader/tv_downloader.py:435-444 | no bounds, or equal bounds, admit every minute |
| Schedule.WitnessMinute | tv_downloader/tv_downloader.py:434-453 | every window of valid times admits some minute of the day |
| Schedule.FindTick | tv_downloader/tv_downloader.py:472-475 | the first admitted minute of the searched span, or none when no minute in it is admitted |
| Schedule.FirstTickAfter | tv_downloader/tv_downloader.py:468-470 | the first `:50` tick strictly after now |
| Schedule.NextLoopTimestamp | tv_downloader/tv_downloader.py:456-477 | a found run is a `:50` tick after now, in the window, and no earlier tick after now is in the window |
| Schedule.NextLoopTimestampAlwaysFound | tv_downloader/tv_downloader.py:472-477 | for valid bounds a run is always found, within one day, so the `RuntimeError` cannot occur |
| Schedule.NextTick | scripts/tv_data.py:354-358 | the earliest `:50` tick after now, at most one minute ahead |
| Schedule.UnboundedSchedulesAgree | scripts/tv_data.py:354-358 | without a window both exporters pick the same tick |
| TimeOfDay.DropZoneHint | tv_downloader/tv_downloader.py:485-489 | text without a hint is unchanged; a hint is removed |
| TimeOfDay.To24 | tv_downloader/tv_downloader.py:493-497 | `%I` with `%p` gives an hour of the day, pm exactly for hours from 12, the same hour modulo 12 |
| TimeOfDay.Meridiem | tv_downloader/tv_downloader.py:493 | `%p` accepts exactly `am` and `pm`, and reads pm exactly for `pm` |
| TimeOfDay.Parse12WithMinutesIff | tv_downloader/tv_downloader.py:493-499 | `%I:%M%p` reads a time exactly when the text is its 12-hour face and minute, each one or two digits, around a colon, followed by its meridiem |
| TimeOfDay.Parse12Iff | tv_downloader/tv_downloader.py:493-499 | `%I%p` reads a time exactly when it is on the hour and the text is its 12-hour face in one or two digits followed by its meridiem |
| TimeOfDay.Parse24WithMinutesIff | tv_downloader/tv_downloader.py:493-499 | `%H:%M` reads a time exactly when the text is its hour and minute, each one or two digits, around a colon |
| TimeOfDay.Parse24Iff | tv_downloader/tv_downloader.py:493-499 | `%H` reads a time exactly when it is on the hour and the text is its hour in one or two digits |
| TimeOfDay.ParseTimeOfDay | tv_downloader/tv_downloader.py:480-501 | a parsed time is valid; the empty-value error happens exactly for blank input |
| TimeOfDay.NonBlankNotEmptyTime | tv_downloader/tv_downloader.py:481-483 | text starting with a non-space never gives the empty-value error |
| TimeOfDay.FormatHM | tv_downloader/tv_downloader.py:1289 | `%H:%M` text has five characters with a colon in the middle |
| TimeOfDay.Format12 | tv_downloader/tv_downloader.py:493 | `%I:%M%p` text has seven characters with a colon after the hour |
| TimeOfDay.ReadsTyped12WithMinutes | tv_downloader/tv_downloader.py:480-501 | any `%I:%M%p` text, padded or not (`9:55am`, `09:55am`), parses to its time |
| TimeOfDay.ReadsTyped12 | tv_downloader/tv_downloader.py:480-501 | any `%I%p` text (`9pm`, `12am`) parses to its hour |
| TimeOfDay.ReadsTyped24WithMinutes | tv_downloader/tv_downloader.py:480-501 | any `%H:%M` text, padded or not (`9:30`, `09:30`), parses to its time |
| TimeOfDay.ReadsTyped24 | tv_downloader/tv_downloader.py:480-501 | any `%H` text (`21`, `9`) parses to its hour |
| TimeOfDay.ReadsHintedTyped24WithMinutes | tv_downloader/tv_downloader.py:480-501 | `%H:%M` text followed by a zone hint, with or without a space, parses to its time |
| TimeOfDay.FormatHMRoundTrip | tv_downloader/tv_downloader.py:480-501 | a time printed as `%H:%M` parses back to itself |
| TimeOfDay.ZoneHintIgnored | tv_downloader/tv_downloader.py:485-491 | a trailing `ny`, `et`, `est` or `edt`, with or without a space before it, does not change how typed time text parses |
| TimeOfDay.To24OfHour12 | tv_downloader/tv_downloader.py:493-497 | printing an hour on the 12-hour face and reading it back with its meridiem gives the hour |
| TimeOfDay.Format12RoundTrip | tv_downloader/tv_downloader.py:480-501 | a time printed as `%I:%M%p` parses back to itself, so 12am is midnight and 12pm noon |
| TimeOfDay.DocumentedForms | tv_downloader/tv_downloader.py:480-501 | `9:55am` parses to 09:55, `9pm` and `21` to 21:00, `9:30` and `9:30 et` to 09:30 |
| TimeOfDay.PresetParses | tv_downloader/tv_downloader.py:26-30 | a bound in the presets' form parses to the time it names |
| LoopControl.PresetBoundsParse | tv_downloader/tv_downloader.py:26-30 | every bound of every preset parses, and prints back as `%H:%M` to its own text |
| Commands.StripLoopSuffix | tv_downloader/tv_downloader.py:1001-1006 | a suffix is removed exactly when the lower-cased token ends in `-loop` or `-l` with something before it; the stem is then non-empty; otherwise the token is unchanged |
| Commands.StripLoopSuffixSplits | tv_downloader/tv_downloader.py:1001-1006 | the stem and the removed part make up the token, and the removed part is a suffix in some case |
| Commands.StripEach | scripts/tv_data.py:832-835 | one pass leaves a prefix of the text; something was removed only if the text ended in a listed suffix, and nothing changes otherwise |
| Commands.StripEachNone | scripts/tv_data.py:832-835 | a text ending in none of the suffixes comes through unchanged, with nothing removed |
| Commands.StripEachFirstMatch | scripts/tv_data.py:832-835 | the pass skips the suffixes the text does not end with, cuts exactly the first one it does end with, and continues with the later suffixes on the shortened text |
| Commands.StripsOneSuffix | scripts/tv_data.py:832-835 | a selection not ending in a space, `-loop` or `-l`, followed by one loop suffix, loses exactly that suffix |
| Commands.DataLoopChoiceRemovesSuffix | scripts/tv_data.py:826-836 | such a selection followed by ` -loop`, `-loop`, ` -l` or `-l`, in any case, gives exactly the stripped lower-cased selection with the loop flag set |
| Commands.DataLoopMenuExample | scripts/tv_data.py:750 | the menu asks for comma-separated chart numbers with `-loop` appended: `1,2-loop` selects `1,2` and loops |
| Commands.DataLoopFlag | scripts/tv_data.py:828-835 | the loop flag is set exactly when the command ends in `-loop` or `-l` |
| Commands.DataChoice | scripts/tv_data.py:831-836 | the choice is a stripped prefix of the command, the whole command when no suffix was removed (the exact prefix after a suffix: `DataLoopChoiceRemovesSuffix`) |
| Commands.DataLoopChoice | scripts/tv_data.py:826-836 | the flag holds exactly for a `-loop`/`-l` ending; without it the choice is the stripped lower-cased command |
| Commands.LoopFlagIff | scripts/tv_data.py:828-835 | the four suffix tests and the suffix pass together set the flag exactly for a `-loop` or `-l` ending |
| Commands.LoopSuffixMayRemain | scripts/tv_data.py:832-836 | `stem-l-l` leaves the choice `stem-l`, still ending in `-l` |
| Commands.CommaParts | scripts/tv_data.py:898 | the parts are exactly the non-empty stripped comma pieces |
| Commands.NonEmptyConcat | scripts/tv_data.py:898 | keeping the non-empty pieces of a concatenation keeps those of each part, in place |
| Commands.NonEmptySingle | scripts/tv_data.py:898 | a single piece is kept exactly when it is non-empty |
| Commands.SplitPieces | scripts/tv_data.py:898 | text without the separator is one piece; otherwise the first piece ends at the first separator and the rest are the pieces of what follows |
| Commands.CommaPartsConcat | scripts/tv_data.py:898 | the parts are read off left to right: a comma-free first piece contributes itself stripped, when non-empty, followed by the parts of the rest |
| Commands.FirstOccurrencesSpec | scripts/tv_data.py:903-911 | the reference deduplication keeps every element once, drops none, in first-seen order |
| Commands.DedupKnown | scripts/tv_data.py:903-915 | succeeds exactly when every part is a key, then gives each at its first occurrence; otherwise reports the first unknown part |
| Commands.TokenParts | tv_downloader/tv_downloader.py:1324-1328 | the comma parts of the selection tokens are non-empty |
| Commands.TokenPartsConcat | tv_downloader/tv_downloader.py:1324-1328 | the parts of several tokens are the parts of each token in turn |
| Commands.TokenPartsSingle | tv_downloader/tv_downloader.py:1324-1328 | the parts of one token are the comma parts of the token stripped |
| Commands.WithoutRunAll | tv_downloader/tv_downloader.py:1328-1332 | the parts other than `a` in any case, in order |
| Commands.SelectFromTokens | tv_downloader/tv_downloader.py:1320-1362 | run-all exactly when some part is `a` in any case; nothing selected exactly when there are no parts; otherwise the deduplicated known keys or the first unknown part |
| Commands.SelectFromChoice | scripts/tv_data.py:892-915 | run-all exactly for the choice `a`; nothing selected exactly when there are no parts; otherwise the deduplicated known keys or the first unknown part |
| LoopControl.NextRun | tv_downloader/tv_downloader.py:992-999 | the next run is a tick after now and within a day. The downloader's is the earliest tick in the window; the data script's is the earliest tick, at most a minute ahead |
| LoopControl.NextRunUnbounded | scripts/tv_data.py:354-358 | without a window both exporters schedule the same next run |
| LoopControl.StartLoop | tv_downloader/tv_downloader.py:1369-1387 | the selection runs at once; the new loop is unpaused, keeps the selection, is due after the end of that run, and keeps the state consistent |
| LoopControl.RunDue | tv_downloader/tv_downloader.py:1025-1046 | a batch runs exactly when the loop is due. It keeps the selection, pause and window, and reschedules from the clock after the run; otherwise nothing changes |
| LoopControl.RunDueNotDueAgain | tv_downloader/tv_downloader.py:1030-1038 | after a run the loop is not due again at the moment the run ended |
| LoopControl.Pause | tv_downloader/tv_downloader.py:1123-1133 | the loop is paused afterwards exactly when it was paused or there is a loop; nothing else changes |
| LoopControl.Resume | tv_downloader/tv_downloader.py:1134-1145 | a paused loop is unpaused and rescheduled from now with its selection; any other state is unchanged |
| LoopControl.Stop | tv_downloader/tv_downloader.py:1146-1155 | no loop, no pause, no window |
| LoopControl.PauseIdempotent | tv_downloader/tv_downloader.py:1123-1133 | pausing twice is pausing once |
| LoopControl.PauseThenResume | tv_downloader/tv_downloader.py:1123-1145 | pause then resume keeps the selection and reschedules from now |
| LoopControl.StoppedIsInert | tv_downloader/tv_downloader.py:1146-1155 | after a stop, pause, resume and the due check change nothing |
| LoopControl.PausedNeverRuns | tv_downloader/tv_downloader.py:1026 | a paused loop never runs |
| LoopControl.ResumeAgrees | scripts/tv_data.py:872-884 | without a window the two exporters' `r` commands agree |
| LoopControl.ApplySession | tv_downloader/tv_downloader.py:1251-1275 | a blank name fails exactly as missing, an unknown one exactly as unknown, and a preset name succeeds exactly; a preset gives a window with both bounds valid |
| LoopControl.SessionNy | tv_downloader/tv_downloader.py:27 | `ny` in any case and spacing applies 09:25-10:00 |
| LoopControl.SessionLon | tv_downloader/tv_downloader.py:28 | `lon` applies 03:00-11:30 |
| LoopControl.SessionAsia | tv_downloader/tv_downloader.py:29 | `asia` applies 19:00-03:00, admitting exactly the minutes outside 03:01-18:59 |
| LoopControl.ApplyBound | tv_downloader/tv_downloader.py:1277-1289 | the bound is cleared exactly for a cleared word; a parsed bound is valid; the only error is unparseable text |
| LoopControl.ParseBound | tv_downloader/tv_downloader.py:1283-1288 | a non-blank bound either parses to a valid time or is unparseable |
| LoopControl.BoundEchoRoundTrip | tv_downloader/tv_downloader.py:1289 | typing back the echoed `HH:MM` sets the same bound |
| LoopControl.ScheduleWindow | tv_downloader/tv_downloader.py:1251-1307 | no error exactly when every given option applies, and then each bound comes from the last option naming it. After an error the bounds set so far stay: an unknown session changes nothing, and otherwise the start is the one the session and `-start` set, while a failing `-end` keeps the end the session left. The window stays valid and the `RuntimeError` never arises |
| LoopControl.ApplySchedule | tv_downloader/tv_downloader.py:1251-1318 | the window and error are as above. Pause and loop existence are kept. A loop is rescheduled in the new window exactly after a successful change and untouched otherwise, and consistency is preserved |
| LoopControl.StartOverridesSession | tv_downloader/tv_downloader.py:1251-1291 | `--session ny -start T` gives the window T-10:00, and `T = 10:00` admits every minute |
| Urls.Canonicalize | tv_downloader/tv_downloader.py:375-378 | scheme, host and query are kept and the fragment dropped. The path is `/` exactly when it was all slashes; otherwise it is the original without its trailing slashes |
| Urls.CanonicalizeIdempotent | tv_downloader/tv_downloader.py:375-378 | canonicalising twice is canonicalising once |
| Urls.SameTabIff | scripts/tv_data.py:299-302 | two URLs canonicalise alike exactly when scheme, host and query agree and their paths agree once trailing slashes are removed |

## Left out

**I/O, clock and external code**
- All I/O is outside the model: files, CSV text, the browser and Selenium, `select`/`readline`, printing, the status line and ANSI output. The model works on parsed rows and decided commands.
- Clock readings, `time.sleep` and `time.monotonic` are parameters or a modelled clock that a sleep advances exactly.
- Time zones are left out: the UTC to New York conversion (DST, the tz database) is the parameter `toLocal`. `tv_data.py` reads the naive local clock; it is modelled as the same wall-clock line.

**Pandas conversions**
- Timestamps below one millisecond are not kept on the ingest side.
- `pd.to_datetime(..., errors="coerce")` turning a bad `caldt` into `NaT` is not modelled; every stored `caldt` is a valid stamp.
- The `%Y-%m-%d %H:%M:%S` rewrite of `caldt`, which drops seconds' fractions, is not modelled.
- Price and volume cells are opaque text; numeric conversion is not modelled.
- `sort_index` in `process_data` is not modelled: rows stay in input order.
- A Polygon aggregate lacking `t`, `o`, `h`, `l`, `c` or `v` (the KeyError/NaN paths) is not modelled; `vw` and `n` are optional.
- PolygonNormalize.ProcessData: keeps input order instead of sorting by time first. After the merge this matters only for duplicate timestamps within one download.

**Listing order**
- Planner.QualifyingFiles: takes the directory listing as already sorted; the `sorted()` of `find_existing_capitalized_files` (scripts/polygon_downloader.py:80) is not modelled, since directory order is I/O.

**Merge ordering**
- Merge.AppendToCsv: assumes the sort keeps equal timestamps in input order. `sort_values` defaults to an unstable sort; `Merge.Admissible` and `Merge.AdmissibleKeys` state what holds for any order.

**Polygon client**
- A non-finite `Retry-After` (`inf`, `nan`) is not modelled; the header is a number, absent or malformed.
- A JSON body that is not an object is not modelled.
- The `end_date` future warning only prints.
- The `not symbol` guard of `main` is unreachable for qualifying names.

**Databento client**
- The text of the availability error (the regular expression and `fromisoformat`) is abstracted to the `Availability` datatype.
- The local-time interpretation of a naive boundary by `astimezone` is not modelled.

**Text handling**
- `str.lower`, `isalpha`, `isupper` and the `\d` of `strptime` are modelled for ASCII only; Unicode case mappings and digits are not.
- The locale text of `%p` is taken to be `am`/`pm`.
- URL splitting and re-joining (`urlsplit`/`urlunsplit`) are not modelled; a URL is taken already split.

**TradingView menus**
- The option-token loop of `tv_downloader.py` (tv_downloader/tv_downloader.py:1166-1242) is not modelled. It recognises `-start`, `-end`, `-s`, `--session`, bare preset names and loop tokens. The model starts from the options and selection tokens it yields.
- The display state `loop_session_name`, the metrics and menu texts are not modelled.
- The `l` (launch Chrome), `h` and `x` commands are not modelled.
- The debugger-ready check before a selection runs is not modelled.
- Chart export (`run_chart_batch`) is not modelled.

**Not part of this model**
- scripts/polygon_service.py, scripts/databento_download.py and scripts/fix_futures_timezone.py.

=== FILE: bars.dfy ===
/** The canonical minute bar both downloaders write, one row of a `*_1m.csv` file. */
module Bars {
  import opened Common

  /** Columns `caldt, open, high, low, close, volume, vwap, transactions, day`.
      `caldt` is the naive New York wall-clock stamp (milliseconds since 0001-01-01T00:00) and the merge key;
      prices and volume are kept as the opaque cell text; `vwap` and `transactions` are `None` for an
      empty cell; `day` is the ordinal of the local date. */
  datatype Bar = Bar(
    caldt: int,
    open: string,
    high: string,
    low: string,
    close: string,
    volume: string,
    vwap: Option<string>,
    transactions: Option<string>,
    day: int)

  /** The `caldt` values present in a sequence of bars. */
  function Keys(s: seq<Bar>): set<int>
  {
    set b | b in s :: b.caldt
  }

  /** Strictly ascending by `caldt`: sorted and free of duplicate timestamps. */
  predicate StrictlySorted(s: seq<Bar>)
  {
    forall i, j :: 0 <= i < j < |s| ==> s[i].caldt < s[j].caldt
  }
}

=== FILE: calendar.dfy ===
/** Proleptic Gregorian dates as Python's `date.toordinal()` numbers (0001-01-01 is day 1), the
    `%Y-%m-%d` text form both downloaders store in the `day` column, and the day of an instant.
    Instants and naive local stamps are whole milliseconds since 0001-01-01T00:00. */
module Calendar {
  import opened Common
  import opened Text

  datatype Date = Date(year: int, month: int, day: int)

  predicate IsLeap(y: int)
  {
    y % 4 == 0 && (y % 100 != 0 || y % 400 == 0)
  }

  function DaysInMonth(y: int, m: int): (n: int)
    requires 1 <= m <= 12
    ensures 28 <= n <= 31
  {
    if m == 2 then (if IsLeap(y) then 29 else 28)
    else if m == 4 || m == 6 || m == 9 || m == 11 then 30
    else 31
  }

  function DaysInYear(y: int): int
  {
    if IsLeap(y) then 366 else 365
  }

  /** Days in the months of year `y` before month `m`: CPython's `_DAYS_BEFORE_MONTH` table
      plus the leap day once February is past. */
  function DaysBeforeMonth(y: int, m: int): (n: int)
    requires 1 <= m <= 12
    ensures n >= 0
  {
    [0, 31, 59, 90, 120, 151, 181, 212, 243, 273, 304, 334][m - 1] + (if m > 2 && IsLeap(y) then 1 else 0)
  }

  /** Days in the years before year `y`, counted from year 1. */
  function DaysBeforeYear(y: int): int
    requires y >= 1
  {
    var p := y - 1;
    p * 365 + p / 4 - p / 100 + p / 400
  }

  /** Python's `date(MINYEAR..MAXYEAR, ...)` constructor accepts exactly these. */
  predicate Valid(d: Date)
  {
    1 <= d.year <= 9999 && 1 <= d.month <= 12 && 1 <= d.day <= DaysInMonth(d.year, d.month)
  }

  /** `date.toordinal()`. */
  function Ordinal(d: Date): (n: int)
    requires Valid(d)
    ensures n >= 1
  {
    DaysBeforeYear(d.year) + DaysBeforeMonth(d.year, d.month) + d.day
  }

  /** One more multiple of `k` is reached exactly when `p + 1` is a multiple of `k`. */
  lemma DivStep(p: int, k: int)
    requires p >= 0 && k > 0
    ensures (p + 1) / k == p / k + (if (p + 1) % k == 0 then 1 else 0)
  {
    var q, r := p / k, p % k;
    assert p == q * k + r;
    if r + 1 == k {
      assert p + 1 == (q + 1) * k;
      DivExact(p + 1, q + 1, k);
    } else {
      assert p + 1 == q * k + (r + 1);
      DivUnique(p + 1, q, r + 1, k);
    }
  }

  lemma DivExact(n: int, q: int, k: int)
    requires k > 0 && n == q * k
    ensures n / k == q && n % k == 0
  {
    DivUnique(n, q, 0, k);
  }

  lemma DivUnique(n: int, q: int, r: int, k: int)
    requires k > 0 && 0 <= r < k && n == q * k + r
    ensures n / k == q && n % k == r
  {
    var q', r' := n / k, n % k;
    assert n == q' * k + r';
    if q' < q {
      MulGap(q', q, k);
      assert false;
    } else if q' > q {
      MulGap(q, q', k);
      assert false;
    }
  }

  lemma {:induction false} MulGap(a: int, b: int, k: int)
    requires a < b && k > 0
    ensures a * k + k <= b * k
    decreases b - a
  {
    assert (a + 1) * k == a * k + k;
    if a + 1 < b {
      MulGap(a + 1, b, k);
    }
  }

  lemma DaysBeforeYearStep(y: int)
    requires y >= 1
    ensures DaysBeforeYear(y + 1) == DaysBeforeYear(y) + DaysInYear(y)
  {
    var p := y - 1;
    DivStep(p, 4);
    DivStep(p, 100);
    DivStep(p, 400);
    MultipleChain(y);
    assert y * 365 == p * 365 + 365;
  }

  /** A multiple of 400 is a multiple of 100, and a multiple of 100 is a multiple of 4. */
  lemma MultipleChain(y: int)
    ensures y % 400 == 0 ==> y % 100 == 0
    ensures y % 100 == 0 ==> y % 4 == 0
  {
    if y % 400 == 0 {
      DivExact(y, (y / 400) * 4, 100);
    }
    if y % 100 == 0 {
      DivExact(y, (y / 100) * 25, 4);
    }
  }

  lemma DaysBeforeMonthBound(y: int, m: int)
    requires 1 <= m <= 12
    ensures DaysBeforeMonth(y, m) + DaysInMonth(y, m) <= DaysInYear(y)
  {
  }

  lemma DaysBeforeMonthGrows(y: int, m: int, m': int)
    requires 1 <= m < m' <= 12
    ensures DaysBeforeMonth(y, m) + DaysInMonth(y, m) <= DaysBeforeMonth(y, m')
  {
  }

  lemma {:induction false} DaysBeforeYearGrows(y: int, y': int)
    requires 1 <= y < y'
    ensures DaysBeforeYear(y) + DaysInYear(y) <= DaysBeforeYear(y')
    decreases y' - y
  {
    DaysBeforeYearStep(y);
    if y + 1 < y' {
      DaysBeforeYearGrows(y + 1, y');
    }
  }

  predicate Before(a: Date, b: Date)
  {
    || a.year < b.year
    || (a.year == b.year && a.month < b.month)
    || (a.year == b.year && a.month == b.month && a.day < b.day)
  }

  /** Ordinals order dates as the calendar does, so comparing `date` objects (as the range planners
      do) and comparing their ordinals agree, and distinct dates have distinct ordinals. */
  lemma OrdinalMonotone(a: Date, b: Date)
    requires Valid(a) && Valid(b)
    ensures Before(a, b) <==> Ordinal(a) < Ordinal(b)
    ensures a == b <==> Ordinal(a) == Ordinal(b)
  {
    if Before(a, b) {
      OrdinalOrderedWhenBefore(a, b);
    } else if Before(b, a) {
      OrdinalOrderedWhenBefore(b, a);
    }
  }

  lemma OrdinalOrderedWhenBefore(a: Date, b: Date)
    requires Valid(a) && Valid(b) && Before(a, b)
    ensures Ordinal(a) < Ordinal(b)
  {
    if a.year < b.year {
      DaysBeforeMonthBound(a.year, a.month);
      DaysBeforeYearGrows(a.year, b.year);
    } else if a.month < b.month {
      DaysBeforeMonthGrows(a.year, a.month, b.month);
    }
  }

  /** The `%Y-%m-%d` directive of `datetime.strptime`: four digits, a dash, a `%m` field, a dash
      and a `%d` field, which also admits a space followed by one digit; then the date must exist. */
  function ParseIsoDate(s: string): (r: Option<Date>)
    ensures r.Some? ==> Valid(r.value)
  {
    if |s| < 5 || !AllDigits(s[..4]) || s[4] != '-' then None
    else
      var rest := s[5..];
      var k := IndexOf(rest, '-');
      if k == |rest| then None
      else
        var month := Field(rest[..k], 1, 12);
        var day := DayField(rest[k + 1..]);
        if month.None? || day.None? then None
        else
          var d := Date(DigitsValue(s[..4]), month.value, day.value);
          if Valid(d) then Some(d) else None
  }

  /** `%d`: one or two digits with value 1..31, or a space and one digit 1..9. */
  function DayField(s: string): (r: Option<nat>)
    ensures r.Some? ==> 1 <= r.value <= 31
  {
    if |s| == 2 && s[0] == ' ' && IsDigit(s[1]) && s[1] != '0' then Some(s[1] as int - '0' as int)
    else Field(s, 1, 31)
  }

  /** `date.isoformat()` / `strftime("%Y-%m-%d")`, as written into the `day` column. */
  function FormatIsoDate(d: Date): (s: string)
    requires Valid(d)
  {
    PadDigits(d.year, 4) + "-" + PadDigits(d.month, 2) + "-" + PadDigits(d.day, 2)
  }

  /** A stored `day` value reads back as the date it was written from. */
  lemma ParseFormatRoundTrip(d: Date)
    requires Valid(d)
    ensures ParseIsoDate(FormatIsoDate(d)) == Some(d)
  {
    var s := FormatIsoDate(d);
    IsoShape(d);
    PadDigitsValue(d.year, 4, 10000);
    PaddedFieldValue(d.month, 1, 12);
    PaddedFieldValue(d.day, 1, 31);
    assert DayField(PadDigits(d.day, 2)) == Some(d.day) by {
      assert IsDigit(PadDigits(d.day, 2)[0]);
    }
  }

  /** Where the pieces of a formatted date sit. */
  lemma IsoShape(d: Date)
    requires Valid(d)
    ensures var s := FormatIsoDate(d);
      && |s| == 10 && s[..4] == PadDigits(d.year, 4) && AllDigits(s[..4]) && s[4] == '-'
      && IndexOf(s[5..], '-') == 2
      && s[5..][..2] == PadDigits(d.month, 2) && s[5..][3..] == PadDigits(d.day, 2)
  {
    var s := FormatIsoDate(d);
    var y, m, dd := PadDigits(d.year, 4), PadDigits(d.month, 2), PadDigits(d.day, 2);
    assert s[..4] == y;
    var rest := s[5..];
    assert rest == m + "-" + dd;
    assert rest[2] == '-' && IsDigit(rest[0]) && IsDigit(rest[1]);
    assert rest[..2] == m && rest[3..] == dd;
  }

  /** The UTC (or local) calendar date of an instant, as an ordinal. */
  function DateOf(instant: int): int
  {
    instant / MillisPerDay + 1
  }

  /** Midnight at the start of the day with ordinal `n`. */
  function Midnight(n: int): int
  {
    (n - 1) * MillisPerDay
  }

  /** Milliseconds since midnight of an instant or local stamp. */
  function MillisOfDay(instant: int): (s: int)
    ensures 0 <= s < MillisPerDay
  {
    instant % MillisPerDay
  }

  /** An offset within a day, added to that day's midnight, is the time of day. */
  lemma MillisOfDayAt(n: int, offset: int)
    requires 0 <= offset < MillisPerDay
    ensures MillisOfDay(Midnight(n) + offset) == offset
    ensures DateOf(Midnight(n) + offset) == n
  {
    DivUnique(Midnight(n) + offset, n - 1, offset, MillisPerDay);
  }

  /** Every instant lies in the day its date names: the date of midnight is that day, and the
      date of an instant is the only day whose midnight is at most it and whose next midnight is after it. */
  lemma DateOfBounds(instant: int, n: int)
    ensures DateOf(Midnight(n)) == n
    ensures DateOf(instant) == n <==> Midnight(n) <= instant < Midnight(n + 1)
  {
  }
}

=== FILE: commands.dfy ===
/** The pure decision fragments of the two interactive menus: the loop-suffix handling of a command,
    the splitting of a selection into comma parts, and the order-preserving deduplication of the
    selected chart keys. `tv_downloader.py` reads a command as white-space separated tokens;
    `tv_data.py` reads it as one lower-cased line. */
module Commands {
  import opened Common
  import opened Text

  /** The suffixes `strip_loop_suffix` tries, in order. */
  const LoopSuffixes: seq<string> := ["-loop", "-l"]

  /** `strip_loop_suffix`: removes `-loop` or `-l`, matched case-insensitively, when something is
      left in front of it. */
  function StripLoopSuffix(token: string): (r: (string, bool))
    ensures r.1 <==> exists suf :: suf in LoopSuffixes && EndsWith(Lower(token), suf) && |token| > |suf|
    ensures r.1 ==> exists suf :: suf in LoopSuffixes && EndsWith(Lower(token), suf) && r.0 == token[..|token| - |suf|]
    ensures r.1 ==> |r.0| > 0
    ensures !r.1 ==> r.0 == token
  {
    var lower := Lower(token);
    if EndsWith(lower, "-loop") && |token| > 5 then (token[..|token| - 5], true)
    else if EndsWith(lower, "-l") && |token| > 2 then (token[..|token| - 2], true)
    else (token, false)
  }

  /** The stripped token and the removed suffix make up the token again, and the removed part is
      one of the suffixes in some mix of upper and lower case. */
  lemma StripLoopSuffixSplits(token: string)
    requires StripLoopSuffix(token).1
    ensures var stem := StripLoopSuffix(token).0;
      && token == stem + token[|stem|..]
      && Lower(token[|stem|..]) in LoopSuffixes
  {
    var stem := StripLoopSuffix(token).0;
    var tail := token[|stem|..];
    assert token == stem + tail;
    assert Lower(tail) == Lower(token)[|stem|..];
  }

  /** The suffixes the `tv_data.py` menu removes, in order; every one is tried once. */
  const DataLoopSuffixes: seq<string> := [" -loop", "-loop", " -l", "-l"]

  /** One pass over `suffixes`, removing each from the end of the text when the text, as shortened
      so far, ends with it. The flag says whether any was removed. */
  function StripEach(text: string, suffixes: seq<string>): (r: (string, bool))
    ensures |r.0| <= |text| && r.0 == text[..|r.0|]
    ensures r.1 ==> exists suf :: suf in suffixes && EndsWith(text, suf)
    ensures !r.1 ==> r.0 == text
    decreases |suffixes|
  {
    if |suffixes| == 0 then (text, false)
    else if EndsWith(text, suffixes[0]) then
      var rest := StripEach(text[..|text| - |suffixes[0]|], suffixes[1..]);
      (rest.0, true)
    else
      var rest := StripEach(text, suffixes[1..]);
      assert forall suf :: suf in suffixes[1..] ==> suf in suffixes;
      rest
  }

  /** A text ending in `p + q` ends in `q`. */
  lemma EndsWithTail(text: string, p: string, q: string)
    requires EndsWith(text, p + q)
    ensures EndsWith(text, q)
  {
    assert text[|text| - |q|..] == text[|text| - |p + q|..][|p|..];
  }

  /** The loop flag of the `tv_data.py` menu: set by the four suffix tests on the lower-cased
      command, and again whenever the suffix pass removes something. */
  function DataLoopFlag(lower: string): (flag: bool)
    ensures flag <==> EndsWith(lower, "-loop") || EndsWith(lower, "-l")
    ensures !flag ==> !StripEach(lower, DataLoopSuffixes).1
  {
    LoopFlagIff(lower);
    || EndsWith(lower, "-loop") || EndsWith(lower, " -loop") || EndsWith(lower, "-l") || EndsWith(lower, " -l")
    || StripEach(lower, DataLoopSuffixes).1
  }

  /** The choice left by the suffix pass, stripped: a stripped prefix of the lower-cased command. */
  function DataChoice(lower: string): (choice: string)
    ensures exists k :: 0 <= k <= |lower| && choice == Strip(lower[..k])
    ensures !StripEach(lower, DataLoopSuffixes).1 ==> choice == Strip(lower)
  {
    var rest := StripEach(lower, DataLoopSuffixes).0;
    assert rest == lower[..|rest|];
    Strip(rest)
  }

  /** The loop-suffix handling of the `tv_data.py` menu on the stripped command line: the choice
      that remains and the loop flag. */
  function DataLoopChoice(rawChoice: string): (r: (string, bool))
    ensures r.1 <==> EndsWith(Lower(rawChoice), "-loop") || EndsWith(Lower(rawChoice), "-l")
    ensures !r.1 ==> r.0 == Strip(Lower(rawChoice))
    ensures exists k :: 0 <= k <= |rawChoice| && r.0 == Strip(Lower(rawChoice)[..k])
  {
    var lower := Lower(rawChoice);
    (DataChoice(lower), DataLoopFlag(lower))
  }

  /** Every suffix of the list ends in `-loop` or `-l`, so the flag is set exactly by those two. */
  lemma LoopFlagIff(lower: string)
    ensures (|| EndsWith(lower, "-loop") || EndsWith(lower, " -loop") || EndsWith(lower, "-l")
             || EndsWith(lower, " -l") || StripEach(lower, DataLoopSuffixes).1)
      <==> EndsWith(lower, "-loop") || EndsWith(lower, "-l")
  {
    if EndsWith(lower, " -loop") {
      EndsWithTail(lower, " ", "-loop");
    }
    if EndsWith(lower, " -l") {
      EndsWithTail(lower, " ", "-l");
    }
    if StripEach(lower, DataLoopSuffixes).1 {
      var suf :| suf in DataLoopSuffixes && EndsWith(lower, suf);
      if suf == " -loop" {
        EndsWithTail(lower, " ", "-loop");
      } else if suf == " -l" {
        EndsWithTail(lower, " ", "-l");
      }
    }
  }

  lemma StripEachSkip(text: string, suffixes: seq<string>)
    requires |suffixes| > 0 && !EndsWith(text, suffixes[0])
    ensures StripEach(text, suffixes) == StripEach(text, suffixes[1..])
  {
  }

  lemma StripEachTake(text: string, suffixes: seq<string>)
    requires |suffixes| > 0 && EndsWith(text, suffixes[0])
    ensures StripEach(text, suffixes) == (StripEach(text[..|text| - |suffixes[0]|], suffixes[1..]).0, true)
  {
  }

  /** A text ending in `-l` without a space before it loses exactly that `-l` in the suffix pass. */
  lemma StripEachOnDashL(v: string)
    requires |v| >= 3 && v[|v| - 2] == '-' && v[|v| - 1] == 'l' && v[|v| - 3] != ' '
    ensures StripEach(v, DataLoopSuffixes) == (v[..|v| - 2], true)
  {
    DashLEndings(v);
    SkipFirstThree(v, DataLoopSuffixes);
    TakeLastDashL(v, DataLoopSuffixes[3..]);
  }

  lemma SkipFirstThree(v: string, s0: seq<string>)
    requires |s0| == 4
    requires !EndsWith(v, s0[0]) && !EndsWith(v, s0[1]) && !EndsWith(v, s0[2])
    ensures StripEach(v, s0) == StripEach(v, s0[3..])
  {
    var s1, s2, s3 := s0[1..], s0[2..], s0[3..];
    StripEachSkip(v, s0);
    assert s1[0] == s0[1] && s1[1..] == s2;
    StripEachSkip(v, s1);
    assert s2[0] == s0[2] && s2[1..] == s3;
    StripEachSkip(v, s2);
  }

  lemma TakeLastDashL(v: string, s3: seq<string>)
    requires |s3| == 1 && EndsWith(v, s3[0]) && |s3[0]| == 2
    ensures StripEach(v, s3) == (v[..|v| - 2], true)
  {
    StripEachTake(v, s3);
    assert StripEach(v[..|v| - 2], s3[1..]) == (v[..|v| - 2], false);
  }

  /** A pass over suffixes none of which the text ends with leaves it alone. */
  lemma {:induction false} StripEachNone(v: string, suffixes: seq<string>)
    requires forall j :: 0 <= j < |suffixes| ==> !EndsWith(v, suffixes[j])
    ensures StripEach(v, suffixes) == (v, false)
    decreases |suffixes|
  {
    if |suffixes| > 0 {
      StripEachSkip(v, suffixes);
      StripEachNone(v, suffixes[1..]);
    }
  }

  /** The pass skips the suffixes the text does not end with, removes the first one it does end
      with, and carries on with the shortened text and the suffixes after that one. */
  lemma {:induction false} StripEachFirstMatch(w: string, suffixes: seq<string>, k: nat)
    requires k < |suffixes| && EndsWith(w, suffixes[k])
    requires forall j :: 0 <= j < k ==> !EndsWith(w, suffixes[j])
    ensures StripEach(w, suffixes) == (StripEach(w[..|w| - |suffixes[k]|], suffixes[k + 1..]).0, true)
    decreases k
  {
    if k == 0 {
      StripEachTake(w, suffixes);
    } else {
      StripEachSkip(w, suffixes);
      assert suffixes[1..][k - 1] == suffixes[k] && suffixes[1..][k..] == suffixes[k + 1..];
      StripEachFirstMatch(w, suffixes[1..], k - 1);
    }
  }

  /** A command typed with one loop suffix leaves exactly the selection in front of it: `1,2-loop`,
      `1,2 -loop`, `1,2-l` and `1,2 -l` all leave `1,2` with the loop flag set, whenever the
      selection itself neither ends in a space nor in `-loop` or `-l`. */
  lemma {:induction false} DataLoopChoiceRemovesSuffix(s: string, suf: string)
    requires suf in DataLoopSuffixes
    requires !EndsWith(Lower(s), "-loop") && !EndsWith(Lower(s), "-l")
    requires |s| == 0 || Lower(s)[|s| - 1] != ' '
    ensures DataLoopChoice(s + suf) == (Strip(Lower(s)), true)
  {
    LowerSuffix(s, suf, DataLoopSuffixes);
    RemovesOneSuffix(Lower(s), suf, DataLoopSuffixes);
  }

  /** The menu asks for comma-separated chart numbers with `-loop` appended: `1,2-loop` selects
      `1,2` and loops. */
  lemma DataLoopMenuExample(s: string, suf: string)
    requires s == "1,2" && suf == "-loop"
    ensures DataLoopChoice(s + suf) == (s, true)
  {
    assert Lower(s) == s by {
      LowerUnchanged(s);
    }
    assert Strip(s) == s;
    assert !EndsWith(s, "-loop") && !EndsWith(s, "-l") && s[2] != ' ';
    assert suf == DataLoopSuffixes[1];
    DataLoopChoiceRemovesSuffix(s, suf);
  }

  /** Lower-casing text followed by a lower-case loop suffix lower-cases the text only. */
  lemma LowerSuffix(s: string, suf: string, s0: seq<string>)
    requires s0 == DataLoopSuffixes && suf in s0
    ensures Lower(s + suf) == Lower(s) + suf
  {
    assert forall i :: 0 <= i < |suf| ==> !('A' <= suf[i] <= 'Z');
    LowerUnchanged(suf);
    var t := s + suf;
    assert forall i :: 0 <= i < |t| ==> Lower(t)[i] == (Lower(s) + Lower(suf))[i];
  }

  /** Text whose last character differs from that of a non-empty suffix does not end with it. */
  lemma LastCharDiffers(w: string, p: string)
    requires 0 < |p| && 0 < |w| && w[|w| - 1] != p[|p| - 1]
    ensures !EndsWith(w, p)
  {
    if |p| <= |w| {
      assert w[|w| - |p|..][|p| - 1] == w[|w| - 1];
    }
  }

  /** Text that does not end in `-loop` or `-l` ends in none of the four suffixes. */
  lemma NoSpacedEnding(v: string, s0: seq<string>)
    requires s0 == DataLoopSuffixes
    requires !EndsWith(v, "-loop") && !EndsWith(v, "-l")
    ensures forall j :: 0 <= j < |s0| ==> !EndsWith(v, s0[j])
  {
    if EndsWith(v, " -loop") {
      EndsWithTail(v, " ", "-loop");
    }
    if EndsWith(v, " -l") {
      EndsWithTail(v, " ", "-l");
    }
  }

  /** The suffix pass, the stripping and the flag on such a text followed by one loop suffix. */
  lemma RemovesOneSuffix(v: string, suf: string, s0: seq<string>)
    requires s0 == DataLoopSuffixes && suf in s0
    requires !EndsWith(v, "-loop") && !EndsWith(v, "-l")
    requires |v| == 0 || v[|v| - 1] != ' '
    ensures DataChoice(v + suf) == Strip(v) && DataLoopFlag(v + suf)
  {
    StripsOneSuffix(v, suf, s0);
  }

  /** The suffix pass over such a text removes exactly the one suffix typed after it. */
  lemma StripsOneSuffix(v: string, suf: string, s0: seq<string>)
    requires s0 == DataLoopSuffixes && suf in s0
    requires !EndsWith(v, "-loop") && !EndsWith(v, "-l")
    requires |v| == 0 || v[|v| - 1] != ' '
    ensures StripEach(v + suf, s0) == (v, true)
  {
    var w := v + suf;
    assert w[..|w| - |suf|] == v;
    NoSpacedEnding(v, s0);
    var k := SuffixEndings(v, suf, s0);
    StripEachFirstMatch(w, s0, k);
    StripEachNone(v, s0[k + 1..]);
  }

  /** Where `suf` sits in the list, and that no suffix before it matches the extended text. */
  lemma SuffixEndings(v: string, suf: string, s0: seq<string>) returns (k: nat)
    requires s0 == DataLoopSuffixes && suf in s0
    requires |v| == 0 || v[|v| - 1] != ' '
    ensures k < |s0| && s0[k] == suf && EndsWith(v + suf, suf)
    ensures forall j :: 0 <= j < k ==> !EndsWith(v + suf, s0[j])
  {
    var w := v + suf;
    assert w[|w| - |suf|..] == suf;
    var n := |w|;
    if suf == s0[0] {
      k := 0;
    } else if suf == s0[1] {
      k := 1;
      if 6 <= n {
        assert w[n - 6] == v[|v| - 1];
        LastCharDiffers(w[..n - 5], " ");
        assert w[..n - 5][n - 6] == w[n - 6];
        if EndsWith(w, s0[0]) {
          assert w[n - 6..][0] == w[n - 6];
        }
      }
    } else if suf == s0[2] {
      k := 2;
      assert w[n - 1] == 'l';
      LastCharDiffers(w, s0[0]);
      LastCharDiffers(w, s0[1]);
    } else {
      k := 3;
      assert w[n - 1] == 'l';
      LastCharDiffers(w, s0[0]);
      LastCharDiffers(w, s0[1]);
      if 3 <= n {
        assert w[n - 3] == v[|v| - 1];
      }
    }
  }

  /** Which of the four suffixes a text ending in `-l`, without a space before it, ends with. */
  lemma DashLEndings(v: string)
    requires |v| >= 3 && v[|v| - 2] == '-' && v[|v| - 1] == 'l' && v[|v| - 3] != ' '
    ensures !EndsWith(v, DataLoopSuffixes[0]) && !EndsWith(v, DataLoopSuffixes[1])
    ensures !EndsWith(v, DataLoopSuffixes[2]) && EndsWith(v, DataLoopSuffixes[3])
  {
    var n := |v|;
    assert DataLoopSuffixes[0][5] == 'p' && DataLoopSuffixes[1][4] == 'p';
    assert DataLoopSuffixes[2][0] == ' ' && |DataLoopSuffixes[2]| == 3;
    assert v[n - 3..][0] == v[n - 3];
    assert v[n - 2..] == DataLoopSuffixes[3];
  }

  /** Each suffix is removed at most once, so a choice can still end in `-l` afterwards: `x-l-l`
      leaves `x-l`, and so does any lower-case stem in place of `x`. */
  lemma LoopSuffixMayRemain(stem: string)
    requires |stem| > 0 && !IsSpace(stem[0])
    requires forall i :: 0 <= i < |stem| ==> !('A' <= stem[i] <= 'Z')
    ensures DataLoopChoice(stem + "-l-l") == (stem + "-l", true)
    ensures EndsWith(DataLoopChoice(stem + "-l-l").0, "-l")
  {
    var v := stem + "-l-l";
    var w := stem + "-l";
    NoUpperAppend(stem, "-l-l");
    LowerUnchanged(v);
    assert v[..|v| - 2] == w;
    StripEachOnDashL(v);
    StripUnchanged(w);
    assert EndsWith(v, "-l") by { assert v[|v| - 2..] == "-l"; }
    assert EndsWith(w, "-l") by { assert w[|w| - 2..] == "-l"; }
  }

  /** A lower-case stem followed by a lower-case suffix is lower case. */
  lemma NoUpperAppend(stem: string, tail: string)
    requires forall i :: 0 <= i < |stem| ==> !('A' <= stem[i] <= 'Z')
    requires forall i :: 0 <= i < |tail| ==> !('A' <= tail[i] <= 'Z')
    ensures forall i :: 0 <= i < |stem + tail| ==> !('A' <= (stem + tail)[i] <= 'Z')
  {
    forall i | 0 <= i < |stem + tail|
      ensures !('A' <= (stem + tail)[i] <= 'Z')
    {
      if i >= |stem| {
        assert (stem + tail)[i] == tail[i - |stem|];
      }
    }
  }

  /** Every piece stripped of surrounding white space. */
  function StripAll(segments: seq<string>): (r: seq<string>)
    ensures |r| == |segments|
    ensures forall i :: 0 <= i < |r| ==> r[i] == Strip(segments[i])
  {
    seq(|segments|, i requires 0 <= i < |segments| => Strip(segments[i]))
  }

  /** The non-empty pieces, in order. */
  function NonEmpty(pieces: seq<string>): (r: seq<string>)
    ensures forall p :: p in r <==> p in pieces && p != []
  {
    if |pieces| == 0 then []
    else
      var rest := NonEmpty(pieces[1..]);
      assert forall p :: p in pieces <==> p == pieces[0] || p in pieces[1..];
      if pieces[0] != [] then [pieces[0]] + rest else rest
  }

  /** `[part.strip() for part in text.split(",") if part.strip()]`: the non-empty stripped comma
      pieces, in order. */
  function CommaParts(text: string): (parts: seq<string>)
    ensures forall p :: p in parts <==> p in StripAll(Split(text, ',')) && p != []
  {
    NonEmpty(StripAll(Split(text, ',')))
  }

  /** Keeping the non-empty pieces of a concatenation keeps those of each part, in place; a single
      piece is kept exactly when it is non-empty. */
  lemma {:induction false} NonEmptyConcat(a: seq<string>, b: seq<string>)
    ensures NonEmpty(a + b) == NonEmpty(a) + NonEmpty(b)
    decreases |a|
  {
    if |a| == 0 {
      assert a + b == b;
    } else {
      var ab := a + b;
      assert ab[0] == a[0] && ab[1..] == a[1..] + b;
      NonEmptyConcat(a[1..], b);
      var head := if a[0] != [] then [a[0]] else [];
      assert NonEmpty(ab) == head + NonEmpty(ab[1..]);
      assert NonEmpty(a) == head + NonEmpty(a[1..]);
    }
  }

  lemma NonEmptySingle(p: string)
    ensures NonEmpty([p]) == if p != [] then [p] else []
  {
    assert [p][1..] == [];
  }

  /** Text without the separator is one piece; otherwise the first piece ends at the first
      separator and the rest are the pieces of what follows it. */
  lemma SplitPieces(a: string, b: string, sep: char)
    requires sep !in a
    ensures Split(a, sep) == [a]
    ensures Split(a + [sep] + b, sep) == [a] + Split(b, sep)
  {
    IndexOfAbsent(a, sep);
    var t := a + [sep] + b;
    IndexOfAfter(a, b, sep);
    assert t[..|a|] == a && t[|a| + 1..] == b;
  }

  lemma IndexOfAbsent(a: string, c: char)
    requires c !in a
    ensures IndexOf(a, c) == |a|
  {
    assert forall i :: 0 <= i < |a| ==> a[i] != c;
  }

  lemma IndexOfAfter(a: string, b: string, c: char)
    requires c !in a
    ensures IndexOf(a + [c] + b, c) == |a|
  {
    var t := a + [c] + b;
    assert t[|a|] == c;
    assert forall i :: 0 <= i < |a| ==> t[i] == a[i] && a[i] != c;
  }

  /** Stripping every piece of a concatenation strips every piece of each part. */
  lemma StripAllConcat(a: seq<string>, b: seq<string>)
    ensures StripAll(a + b) == StripAll(a) + StripAll(b)
  {
  }

  /** The comma parts of `a,b`, where `a` has no comma, are `a` stripped, when anything is left,
      followed by the comma parts of `b`: the parts are read off left to right. */
  lemma CommaPartsConcat(a: string, b: string)
    requires ',' !in a
    ensures CommaParts(a) == if Strip(a) != [] then [Strip(a)] else []
    ensures CommaParts(a + [','] + b) == CommaParts(a) + CommaParts(b)
  {
    SplitPieces(a, b, ',');
    StripAllConcat([a], Split(b, ','));
    NonEmptyConcat(StripAll([a]), StripAll(Split(b, ',')));
    NonEmptySingle(Strip(a));
  }

  /** No duplicates. */
  predicate Distinct(s: seq<string>)
  {
    forall i, j :: 0 <= i < j < |s| ==> s[i] != s[j]
  }

  /** `a` appears in `s` before every occurrence of `b`. */
  predicate SeenBefore(s: seq<string>, a: string, b: string)
  {
    forall k :: 0 <= k < |s| && s[k] == b ==> a in s[..k]
  }

  /** The keys are listed in the order of their first occurrence in `s`. */
  predicate InFirstSeenOrder(keys: seq<string>, s: seq<string>)
  {
    forall i, j :: 0 <= i < j < |keys| ==> SeenBefore(s, keys[i], keys[j])
  }

  /** The reference deduplication: each element at its first occurrence. */
  function FirstOccurrences(s: seq<string>): seq<string>
  {
    if |s| == 0 then []
    else
      var r := FirstOccurrences(s[..|s| - 1]);
      if s[|s| - 1] in r then r else r + [s[|s| - 1]]
  }

  /** The reference deduplication drops no element and adds none. */
  lemma {:induction false} FirstOccurrencesElements(s: seq<string>)
    ensures forall x :: x in FirstOccurrences(s) <==> x in s
    decreases |s|
  {
    if |s| > 0 {
      var p := s[..|s| - 1];
      FirstOccurrencesElements(p);
      assert s == p + [s[|s| - 1]];
    }
  }

  /** The reference deduplication keeps every element once. */
  lemma {:induction false} FirstOccurrencesDistinct(s: seq<string>)
    ensures Distinct(FirstOccurrences(s))
    decreases |s|
  {
    if |s| > 0 {
      FirstOccurrencesDistinct(s[..|s| - 1]);
    }
  }

  /** The reference deduplication lists the elements in the order of their first occurrence. */
  lemma {:induction false} FirstOccurrencesOrder(s: seq<string>)
    ensures InFirstSeenOrder(FirstOccurrences(s), s)
    decreases |s|
  {
    if |s| > 0 {
      var p := s[..|s| - 1];
      var x := s[|s| - 1];
      var r := FirstOccurrences(p);
      FirstOccurrencesOrder(p);
      FirstOccurrencesElements(p);
      assert s == p + [x];
      forall i, j | 0 <= i < j < |r|
        ensures SeenBefore(s, r[i], r[j])
      {
        assert r[i] in r;
        assert r[i] in p;
        SeenBeforeExtends(p, x, r[i], r[j]);
      }
      if x !in r {
        var r' := r + [x];
        forall i, j | 0 <= i < j < |r'|
          ensures SeenBefore(s, r'[i], r'[j])
        {
          if j < |r| {
            assert r'[i] == r[i] && r'[j] == r[j];
          } else {
            assert r'[j] == x && r'[i] == r[i] && r[i] in r;
            forall k | 0 <= k < |s| && s[k] == x
              ensures r[i] in s[..k]
            {
              assert k == |p|;
              assert s[..k] == p;
            }
          }
        }
      }
    }
  }

  /** Appending an element keeps an earlier first-seen relation between elements already present. */
  lemma SeenBeforeExtends(p: seq<string>, x: string, a: string, b: string)
    requires SeenBefore(p, a, b) && a in p
    ensures SeenBefore(p + [x], a, b)
  {
    var s := p + [x];
    forall k | 0 <= k < |s| && s[k] == b
      ensures a in s[..k]
    {
      if k < |p| {
        assert s[..k] == p[..k];
      } else {
        assert s[..k] == p;
      }
    }
  }

  /** The reference deduplication keeps every element once, drops nothing and keeps the order of
      first occurrence. */
  lemma FirstOccurrencesSpec(s: seq<string>)
    ensures var r := FirstOccurrences(s);
      && Distinct(r)
      && (forall x :: x in r <==> x in s)
      && InFirstSeenOrder(r, s)
  {
    FirstOccurrencesElements(s);
    FirstOccurrencesDistinct(s);
    FirstOccurrencesOrder(s);
  }

  /** The outcome of the deduplication loop: the keys, or the first part that is not a key. */
  datatype Dedup = Deduped(keys: seq<string>) | Unknown(part: string)

  /** The deduplication loop shared by both menus: stops at the first unknown part, otherwise keeps
      each part at its first occurrence. */
  method DedupKnown(parts: seq<string>, options: set<string>) returns (r: Dedup)
    ensures r.Deduped? <==> forall i :: 0 <= i < |parts| ==> parts[i] in options
    ensures r.Deduped? ==> r.keys == FirstOccurrences(parts)
    ensures r.Unknown? ==>
      exists i :: 0 <= i < |parts| && parts[i] == r.part && r.part !in options &&
        forall j :: 0 <= j < i ==> parts[j] in options
  {
    var deduped: seq<string> := [];
    var i := 0;
    while i < |parts|
      invariant 0 <= i <= |parts|
      invariant deduped == FirstOccurrences(parts[..i])
      invariant forall j :: 0 <= j < i ==> parts[j] in options
    {
      if parts[i] !in options {
        return Unknown(parts[i]);
      }
      assert parts[..i + 1][..i] == parts[..i];
      if parts[i] !in deduped {
        deduped := deduped + [parts[i]];
      }
      i := i + 1;
    }
    assert parts[..|parts|] == parts;
    return Deduped(deduped);
  }

  /** What a selection asks for. */
  datatype Selection = RunAll | Keys(keys: seq<string>) | UnknownKey(part: string) | NothingSelected

  /** The comma parts of all selection tokens of a `tv_downloader.py` command, in order. */
  function TokenParts(tokens: seq<string>): (parts: seq<string>)
    ensures forall p :: p in parts ==> p != []
  {
    if |tokens| == 0 then []
    else CommaParts(Strip(tokens[0])) + TokenParts(tokens[1..])
  }

  /** The parts of several tokens are the parts of each token in turn, and those of one token are
      the comma parts of the token stripped. */
  lemma {:induction false} TokenPartsConcat(t1: seq<string>, t2: seq<string>)
    ensures TokenParts(t1 + t2) == TokenParts(t1) + TokenParts(t2)
    decreases |t1|
  {
    if |t1| == 0 {
      assert t1 + t2 == t2;
    } else {
      var t := t1 + t2;
      assert t[0] == t1[0] && t[1..] == t1[1..] + t2;
      TokenPartsConcat(t1[1..], t2);
      assert TokenParts(t) == CommaParts(Strip(t1[0])) + TokenParts(t[1..]);
    }
  }

  lemma TokenPartsSingle(x: string)
    ensures TokenParts([x]) == CommaParts(Strip(x))
  {
    assert [x][1..] == [];
  }

  /** The parts other than `a`, in order. */
  function WithoutRunAll(parts: seq<string>): (r: seq<string>)
    ensures forall p :: p in r <==> p in parts && Lower(p) != "a"
    ensures (forall p :: p in parts ==> Lower(p) != "a") ==> r == parts
  {
    if |parts| == 0 then []
    else
      var rest := WithoutRunAll(parts[1..]);
      assert forall p :: p in parts <==> p == parts[0] || p in parts[1..];
      if Lower(parts[0]) == "a" then rest else [parts[0]] + rest
  }

  /** The selection block of `tv_downloader.py`: any part `a`, in any case, runs every chart and
      outweighs unknown parts; otherwise the parts are deduplicated against the chart keys. */
  method SelectFromTokens(tokens: seq<string>, options: set<string>) returns (sel: Selection)
    ensures sel == RunAll <==> exists p :: p in TokenParts(tokens) && Lower(p) == "a"
    ensures sel == NothingSelected <==> TokenParts(tokens) == []
    ensures sel.Keys? ==>
      && sel.keys != []
      && sel.keys == FirstOccurrences(TokenParts(tokens))
      && forall k :: k in sel.keys ==> k in options
    ensures sel.UnknownKey? <==>
      && (forall p :: p in TokenParts(tokens) ==> Lower(p) != "a")
      && exists p :: p in TokenParts(tokens) && p !in options
    ensures sel.UnknownKey? ==> sel.part in TokenParts(tokens) && sel.part !in options
    ensures sel.UnknownKey? ==> var ps := TokenParts(tokens);
      exists i :: 0 <= i < |ps| && ps[i] == sel.part && forall j :: 0 <= j < i ==> ps[j] in options
  {
    var parts := TokenParts(tokens);
    if exists p :: p in parts && Lower(p) == "a" {
      ghost var p :| p in parts && Lower(p) == "a";
      assert p in TokenParts(tokens) && Lower(p) == "a";
      return RunAll;
    }
    var raw := WithoutRunAll(parts);
    if raw == [] {
      return NothingSelected;
    }
    var d := DedupKnown(raw, options);
    FirstOccurrencesSpec(raw);
    match d {
      case Unknown(part) =>
        return UnknownKey(part);
      case Deduped(keys) =>
        assert raw[0] in keys;
        return Keys(keys);
    }
  }

  /** The selection block of `tv_data.py` on the choice left after the loop suffixes: exactly `a`
      runs every chart; otherwise the comma parts are deduplicated against the chart keys. */
  method SelectFromChoice(choice: string, options: set<string>) returns (sel: Selection)
    ensures sel == RunAll <==> choice == "a"
    ensures sel == NothingSelected <==> choice != "a" && CommaParts(choice) == []
    ensures sel.Keys? ==>
      && sel.keys != []
      && sel.keys == FirstOccurrences(CommaParts(choice))
      && forall k :: k in sel.keys ==> k in options
    ensures sel.UnknownKey? ==> sel.part in CommaParts(choice) && sel.part !in options
    ensures sel.UnknownKey? ==> var ps := CommaParts(choice);
      exists i :: 0 <= i < |ps| && ps[i] == sel.part && forall j :: 0 <= j < i ==> ps[j] in options
    ensures sel.UnknownKey? <==> choice != "a" && exists p :: p in CommaParts(choice) && p !in options
  {
    if choice == "a" {
      return RunAll;
    }
    var parts := CommaParts(choice);
    if parts == [] {
      return NothingSelected;
    }
    var d := DedupKnown(parts, options);
    FirstOccurrencesSpec(parts);
    match d {
      case Unknown(part) =>
        return UnknownKey(part);
      case Deduped(keys) =>
        assert parts[0] in keys;
        return Keys(keys);
    }
  }
}

=== FILE: common.dfy ===
/** Failure-carrying wrappers shared by every module of the model. */
module Common {

  /** A value that may be absent: Python's `None` versus a present value. */
  datatype Option<+T> = None | Some(value: T)

  /** The outcome of an operation that the source lets raise: `Err` stands for the raised exception. */
  datatype Result<+T, +E> = Ok(value: T) | Err(error: E)

  /** Milliseconds in a civil day; instants (UTC) and naive local stamps are both counted in milliseconds. */
  const MillisPerDay: int := 86_400_000

  /** The set view of a sequence. */
  function Elements<T>(s: seq<T>): set<T>
  {
    set x | x in s
  }
}

=== FILE: databento_fetch.dfy ===
/** `download_and_process_range` and the per-file step of `main` in `databento_downloader.py`: the
    exclusive request end, the availability-boundary narrowing loop, the date filter, and the
    nine configured targets.

    The historical API is an oracle `server(n, end)`: the reply to the `n`-th `get_range` call of
    the range, whose exclusive end is the UTC instant `end`. */
module DatabentoFetch {
  import opened Common
  import opened Text
  import opened Calendar
  import opened Bars
  import opened Merge
  import opened LastDate
  import opened Planner
  import opened DatabentoNormalize

  /** What the error text of a `data_end_after_available_end` failure yields: no
      `available up to '...'` clause, a clause `fromisoformat` rejects both ways, or an instant
      (already converted to UTC). */
  datatype Availability = NoClause | UnparseableClause | AvailableUpTo(instant: int)

  /** A `get_range` outcome: the data, the availability error, or any other exception. */
  datatype RangeReply = Data(frame: Frame) | EndAfterAvailable(boundary: Availability) | OtherFailure

  type RangeServer = (nat, int) -> RangeReply

  /** The exceptions that escape the function: the second `fromisoformat` failure and the errors
      of the frame normaliser. */
  datatype RangeError = BoundaryUnparseable | BadFrame(error: FrameError)

  /** The request end for an inclusive last day: midnight UTC of the following day. */
  function ExclusiveEnd(endDate: int): (e: int)
    ensures DateOf(e) == endDate + 1 && DateOf(e - 1) == endDate
  {
    DateOfBounds(Midnight(endDate + 1), endDate + 1);
    DateOfBounds(Midnight(endDate + 1) - 1, endDate);
    Midnight(endDate + 1)
  }

  /** The rows whose local date lies in `[start, endDate]`, in order. */
  function KeepRange(rows: seq<Bar>, start: int, endDate: int): (kept: seq<Bar>)
    ensures |kept| <= |rows|
    ensures forall b :: b in kept <==> b in rows && start <= DateOf(b.caldt) <= endDate
  {
    if |rows| == 0 then []
    else
      var rest := KeepRange(rows[1..], start, endDate);
      assert forall b :: b in rows <==> b == rows[0] || b in rows[1..];
      if start <= DateOf(rows[0].caldt) <= endDate then [rows[0]] + rest else rest
  }

  /** Filtering a concatenation filters each part in place, so kept rows stay in frame order and
      each is kept as often as it occurs. */
  lemma {:induction false} KeepRangeConcat(a: seq<Bar>, b: seq<Bar>, start: int, endDate: int)
    ensures KeepRange(a + b, start, endDate) == KeepRange(a, start, endDate) + KeepRange(b, start, endDate)
    decreases |a|
  {
    if |a| == 0 {
      assert a + b == b;
    } else {
      assert (a + b)[1..] == a[1..] + b;
      KeepRangeConcat(a[1..], b, start, endDate);
    }
  }

  /** One row is kept exactly when its local date lies in the range. */
  lemma KeepRangeSingle(x: Bar, start: int, endDate: int)
    ensures KeepRange([x], start, endDate) == if start <= DateOf(x.caldt) <= endDate then [x] else []
  {
    assert [x][1..] == [];
  }

  /** The date test is the same as a test on the stamp itself: local midnight of `start` up to, but
      excluding, local midnight after `endDate`. */
  lemma KeepRangeByStamp(b: Bar, start: int, endDate: int)
    ensures start <= DateOf(b.caldt) <= endDate <==> Midnight(start) <= b.caldt < Midnight(endDate + 1)
  {
    var d := DateOf(b.caldt);
    DateOfBounds(b.caldt, d);
    if start <= d <= endDate {
      MidnightMonotone(start, d);
      MidnightMonotone(d + 1, endDate + 1);
    } else if d < start {
      MidnightMonotone(d + 1, start);
    } else {
      MidnightMonotone(endDate + 1, d);
    }
  }

  lemma MidnightMonotone(a: int, b: int)
    requires a <= b
    ensures Midnight(a) <= Midnight(b)
  {
  }

  /** Normalise a delivered frame and keep the requested days. */
  function Deliver(f: Frame, start: int, endDate: int, parse: string -> Option<int>, toLocal: int -> int): Result<seq<Bar>, RangeError>
  {
    match ProcessFrame(f, parse, toLocal)
    case Ok(rows) => Ok(KeepRange(rows, start, endDate))
    case Err(e) => Err(BadFrame(e))
  }

  /** The outcome of the final call, given the end it asked for and whether an adjustment preceded it. */
  predicate Final(reply: RangeReply, end: int, adjusted: bool, start: int, endDate: int,
                  parse: string -> Option<int>, toLocal: int -> int, r: Result<seq<Bar>, RangeError>)
  {
    match reply
    case Data(f) => r == Deliver(f, start, endDate, parse, toLocal)
    case OtherFailure => r == Ok([])
    case EndAfterAvailable(NoClause) => r == Ok([])
    case EndAfterAvailable(UnparseableClause) => r == Err(BoundaryUnparseable)
    case EndAfterAvailable(AvailableUpTo(b)) => r == Ok([]) && (DateOf(b) < start || (adjusted && b >= end))
  }

  /** The requests a narrowing run made and what it returned: the first request ends at midnight
      UTC after `endDate`; each later end is the boundary the previous reply reported, not before
      `start`, and strictly earlier than the one before after the first adjustment; the last reply
      decides the result, and every returned row lies in the range. */
  predicate RangeRun(server: RangeServer, start: int, endDate: int, parse: string -> Option<int>, toLocal: int -> int,
                     r: Result<seq<Bar>, RangeError>, ends: seq<int>)
  {
    && |ends| >= 1 && ends[0] == ExclusiveEnd(endDate)
    && (forall i :: 0 <= i < |ends| - 1 ==> server(i, ends[i]) == EndAfterAvailable(AvailableUpTo(ends[i + 1])))
    && (forall i :: 1 <= i < |ends| ==> DateOf(ends[i]) >= start && ends[i] >= Midnight(start))
    && (forall i :: 1 <= i < |ends| - 1 ==> ends[i + 1] < ends[i])
    && Final(server(|ends| - 1, ends[|ends| - 1]), ends[|ends| - 1], |ends| > 1, start, endDate, parse, toLocal, r)
    && (r.Ok? ==> forall b :: b in r.value ==> start <= DateOf(b.caldt) <= endDate)
  }

  /** `download_and_process_range` for the inclusive day range `[start, endDate]`. The first request
      ends at midnight UTC after `endDate`; each availability error whose boundary is not before
      `start` replaces the end by the boundary and asks again, except that once an adjustment has
      been made a boundary at or after the current end gives up. The returned `ends` are the ends of
      all requests made, in order. */
  method DownloadRange(server: RangeServer, start: int, endDate: int, parse: string -> Option<int>, toLocal: int -> int)
    returns (r: Result<seq<Bar>, RangeError>, ends: seq<int>)
    ensures RangeRun(server, start, endDate, parse, toLocal, r, ends)
  {
    var end := ExclusiveEnd(endDate);
    var adjusted := false;
    ends := [end];
    while true
      invariant |ends| >= 1 && ends[0] == ExclusiveEnd(endDate) && end == ends[|ends| - 1]
      invariant adjusted <==> |ends| > 1
      invariant forall i :: 0 <= i < |ends| - 1 ==> server(i, ends[i]) == EndAfterAvailable(AvailableUpTo(ends[i + 1]))
      invariant forall i :: 1 <= i < |ends| ==> DateOf(ends[i]) >= start && ends[i] >= Midnight(start)
      invariant forall i :: 1 <= i < |ends| - 1 ==> ends[i + 1] < ends[i]
      decreases if adjusted then 0 else 1, if adjusted then end - Midnight(start) else 0
    {
      var reply := server(|ends| - 1, end);
      match reply {
        case Data(f) =>
          r := Deliver(f, start, endDate, parse, toLocal);
          return;
        case OtherFailure =>
          return Ok([]), ends;
        case EndAfterAvailable(boundary) =>
          match boundary {
            case NoClause =>
              return Ok([]), ends;
            case UnparseableClause =>
              return Err(BoundaryUnparseable), ends;
            case AvailableUpTo(b) =>
              if DateOf(b) < start {
                return Ok([]), ends;
              }
              if adjusted && b >= end {
                return Ok([]), ends;
              }
              DateOfBounds(b, DateOf(b));
              MidnightMonotone(start, DateOf(b));
              end := b;
              adjusted := true;
              ends := ends + [b];
          }
      }
    }
  }

  /** The Databento targets of `DATABENTO_TARGETS`: file name and continuous symbol. None sets its
      own start date, dataset or schema. */
  const Targets: seq<(string, string)> := [
    ("es_1m.csv", "ES.v.0"), ("mes_1m.csv", "MES.v.0"), ("nq_1m.csv", "NQ.v.0"),
    ("mnq_1m.csv", "MNQ.v.0"), ("ym_1m.csv", "YM.v.0"), ("mym_1m.csv", "MYM.v.0"),
    ("gc_1m.csv", "GC.v.0"), ("mgc_1m.csv", "MGC.v.0"), ("hg_1m.csv", "HG.v.0")]

  /** The two downloaders never touch the same file: every Databento target is named in lower case,
      so the Polygon file filter rejects it. */
  lemma TargetsDisjointFromPolygon()
    ensures forall t :: t in Targets ==> EndsWith(t.0, OneMinuteSuffix)
    ensures forall t :: t in Targets ==> !IsCapitalizedOneMinuteFile(true, t.0)
  {
    forall t | t in Targets
      ensures EndsWith(t.0, OneMinuteSuffix) && !IsCapitalizedOneMinuteFile(true, t.0)
    {
      var name := t.0;
      assert name[|name| - 7..] == OneMinuteSuffix;
      assert 'a' <= name[0] <= 'z';
      assert name[..|name| - 7][0] == name[0];
    }
  }

  /** What one iteration of `main` does with a target file. */
  datatype FileOutcome = Skipped(reason: SkipReason) | NothingToAppend | Appended(file: seq<Bar>) | Crashed(error: RangeError)

  /** One iteration of `main`: plan from the file's last date, download the range, and merge the
      rows into the file when there are any. A malformed last date is returned as the read error
      `main` raises; the planner's base start is 2024-01-01 for every target. */
  method UpdateFile(exists_: bool, csvRows: seq<CsvRow>, existing: Existing, today: int,
                    server: RangeServer, parse: string -> Option<int>, toLocal: int -> int)
    returns (outcome: Result<FileOutcome, ReadError>, fetched: Result<seq<Bar>, RangeError>, ends: seq<int>)
    ensures !exists_ ==> outcome == Ok(Skipped(FileMissing))
    ensures exists_ && LastDataDate(csvRows).Err? ==> outcome == Err(LastDataDate(csvRows).error)
    ensures exists_ && LastDataDate(csvRows).Ok? ==>
      var plan := DatabentoPlan(true, LastDataDate(csvRows).value, today, Ordinal(DatabentoDefaultStart));
      && (plan.Skip? ==> outcome == Ok(Skipped(plan.reason)))
      && (plan.Fetch? ==>
            && RangeRun(server, plan.start, plan.end, parse, toLocal, fetched, ends)
            && (fetched.Err? ==> outcome == Ok(Crashed(fetched.error)))
            && (fetched == Ok([]) ==> outcome == Ok(NothingToAppend))
            && (fetched.Ok? && fetched.value != [] ==> outcome == Ok(Appended(AppendToCsv(existing, fetched.value)))))
    ensures outcome.Ok? && outcome.value.Appended? ==>
      && LastDataDate(csvRows).Ok?
      && var plan := DatabentoPlan(true, LastDataDate(csvRows).value, today, Ordinal(DatabentoDefaultStart));
         && plan.Fetch?
         && exists rows: seq<Bar> :: rows != [] && outcome.value.file == AppendToCsv(existing, rows) &&
              forall b :: b in rows ==> plan.start <= DateOf(b.caldt) <= today
    ensures (exists_ && LastDataDate(csvRows).Ok? && LastDataDate(csvRows).value.Some? &&
      LastDataDate(csvRows).value.value >= today - 1) ==> outcome == Ok(Skipped(UpToDate))
  {
    fetched, ends := Ok([]), [];
    if !exists_ {
      return Ok(Skipped(FileMissing)), fetched, ends;
    }
    var last := LastDataDate(csvRows);
    if last.Err? {
      return Err(last.error), fetched, ends;
    }
    var plan := DatabentoPlan(true, last.value, today, Ordinal(DatabentoDefaultStart));
    if plan.Skip? {
      return Ok(Skipped(plan.reason)), fetched, ends;
    }
    fetched, ends := DownloadRange(server, plan.start, plan.end, parse, toLocal);
    match fetched {
      case Err(e) =>
        outcome := Ok(Crashed(e));
      case Ok(rows) =>
        if rows == [] {
          outcome := Ok(NothingToAppend);
        } else {
          outcome := Ok(Appended(AppendToCsv(existing, rows)));
        }
    }
  }
}

=== FILE: databento_normalize.dfy ===
/** `process_databento_frame`: a Databento OHLCV frame becomes bars in the canonical schema. The
    timestamp column is chosen by priority, a single unparseable timestamp fails the whole frame,
    and optional columns stay empty instead of being defaulted. */
module DatabentoNormalize {
  import opened Common
  import opened Calendar
  import opened Bars
  import opened LastDate

  /** A frame as `to_df().reset_index()` gives it: its column names and its rows as text cells. */
  datatype Frame = Frame(columns: set<string>, rows: seq<CsvRow>)

  /** The `RuntimeError`s and the `KeyError` the function raises. */
  datatype FrameError = NoTimestampColumn | UnparseableTimestamp | MissingColumn(name: string)

  const TimestampColumns: seq<string> := ["ts_event", "ts", "ts_start", "ts_end"]
  const TransactionColumns: seq<string> := ["count", "n", "transactions"]
  const PriceColumns: seq<string> := ["open", "high", "low", "close", "volume"]

  /** `DataFrame.empty`: no rows or no columns. */
  predicate IsEmpty(f: Frame)
  {
    |f.rows| == 0 || f.columns == {}
  }

  /** The first of `candidates` that is a column, if any. */
  function FirstPresent(candidates: seq<string>, columns: set<string>): (r: Option<string>)
    ensures r.None? <==> forall c :: c in candidates ==> c !in columns
    ensures r.Some? ==> r.value in columns
    ensures r.Some? ==>
      exists i :: 0 <= i < |candidates| && candidates[i] == r.value && forall j :: 0 <= j < i ==> candidates[j] !in columns
  {
    if |candidates| == 0 then None
    else if candidates[0] in columns then Some(candidates[0])
    else
      var r := FirstPresent(candidates[1..], columns);
      if r.Some? then
        var i :| 0 <= i < |candidates[1..]| && candidates[1..][i] == r.value &&
          forall j :: 0 <= j < i ==> candidates[1..][j] !in columns;
        assert candidates[i + 1] == r.value;
        r
      else r
  }

  /** The bar of one row: `parse` stands for `pd.to_datetime(..., utc=True)` on the timestamp cell,
      `toLocal` for the conversion to New York wall-clock time. */
  function RowBar(row: CsvRow, ts: int, toLocal: int -> int, hasVwap: bool, txColumn: Option<string>): Bar
  {
    var caldt := toLocal(ts);
    Bar(caldt, Cell(row, "open"), Cell(row, "high"), Cell(row, "low"), Cell(row, "close"), Cell(row, "volume"),
        if hasVwap then Some(Cell(row, "vwap")) else None,
        if txColumn.Some? then Some(Cell(row, txColumn.value)) else None,
        DateOf(caldt))
  }

  /** Every row's timestamp cell parses. */
  predicate AllParse(rows: seq<CsvRow>, column: string, parse: string -> Option<int>)
  {
    forall i :: 0 <= i < |rows| ==> parse(Cell(rows[i], column)).Some?
  }

  /** The first of the price columns the frame lacks, in the order the result frame is built. */
  function FirstMissing(columns: set<string>): (r: Option<string>)
    ensures r.None? <==> forall c :: c in PriceColumns ==> c in columns
    ensures r.Some? ==> r.value in PriceColumns && r.value !in columns
    ensures r.Some? ==>
      exists i :: 0 <= i < |PriceColumns| && PriceColumns[i] == r.value && forall j :: 0 <= j < i ==> PriceColumns[j] in columns
  {
    if "open" !in columns then Some("open")
    else if "high" !in columns then Some("high")
    else if "low" !in columns then Some("low")
    else if "close" !in columns then Some("close")
    else if "volume" !in columns then Some("volume")
    else None
  }

  function ProcessFrame(f: Frame, parse: string -> Option<int>, toLocal: int -> int): (r: Result<seq<Bar>, FrameError>)
    ensures IsEmpty(f) ==> r == Ok([])
    ensures !IsEmpty(f) ==> (r == Err(NoTimestampColumn) <==> forall c :: c in TimestampColumns ==> c !in f.columns)
    ensures !IsEmpty(f) && FirstPresent(TimestampColumns, f.columns).Some? ==>
      (r == Err(UnparseableTimestamp) <==>
        exists i :: 0 <= i < |f.rows| && parse(Cell(f.rows[i], FirstPresent(TimestampColumns, f.columns).value)).None?)
    ensures r.Err? && r.error.MissingColumn? ==> r.error.name in PriceColumns && r.error.name !in f.columns
    ensures r.Err? && r.error.MissingColumn? ==>
      exists i :: 0 <= i < |PriceColumns| && PriceColumns[i] == r.error.name &&
        forall j :: 0 <= j < i ==> PriceColumns[j] in f.columns
    ensures r.Ok? && !IsEmpty(f) ==>
      && (forall c :: c in PriceColumns ==> c in f.columns)
      && |r.value| == |f.rows|
      && var ts := FirstPresent(TimestampColumns, f.columns).value;
         forall i :: 0 <= i < |f.rows| ==>
           && parse(Cell(f.rows[i], ts)).Some?
           && r.value[i].caldt == toLocal(parse(Cell(f.rows[i], ts)).value)
           && r.value[i].day == DateOf(r.value[i].caldt)
           && r.value[i].open == Cell(f.rows[i], "open") && r.value[i].close == Cell(f.rows[i], "close")
           && r.value[i].high == Cell(f.rows[i], "high") && r.value[i].low == Cell(f.rows[i], "low")
           && r.value[i].volume == Cell(f.rows[i], "volume")
           && (r.value[i].vwap.Some? <==> "vwap" in f.columns)
           && (r.value[i].transactions.Some? <==> exists c :: c in TransactionColumns && c in f.columns)
  {
    if IsEmpty(f) then Ok([])
    else
      match FirstPresent(TimestampColumns, f.columns)
      case None => Err(NoTimestampColumn)
      case Some(ts) =>
        if !AllParse(f.rows, ts, parse) then Err(UnparseableTimestamp)
        else
          match FirstMissing(f.columns)
          case Some(c) => Err(MissingColumn(c))
          case None =>
            var txColumn := FirstPresent(TransactionColumns, f.columns);
            Ok(seq(|f.rows|, i requires 0 <= i < |f.rows| =>
              RowBar(f.rows[i], parse(Cell(f.rows[i], ts)).value, toLocal, "vwap" in f.columns, txColumn)))
  }

  /** Where a transaction count is present it comes from `count`, else `n`, else `transactions`;
      it is never filled in when the frame has none of them. */
  lemma TransactionsByPriority(f: Frame, parse: string -> Option<int>, toLocal: int -> int, i: int)
    requires ProcessFrame(f, parse, toLocal).Ok? && !IsEmpty(f) && 0 <= i < |f.rows|
    ensures var b := ProcessFrame(f, parse, toLocal).value[i];
      && ("count" in f.columns ==> b.transactions == Some(Cell(f.rows[i], "count")))
      && ("count" !in f.columns && "n" in f.columns ==> b.transactions == Some(Cell(f.rows[i], "n")))
      && ("count" !in f.columns && "n" !in f.columns && "transactions" in f.columns ==>
            b.transactions == Some(Cell(f.rows[i], "transactions")))
      && ("vwap" in f.columns ==> b.vwap == Some(Cell(f.rows[i], "vwap")))
  {
    var tc := TransactionColumns;
    assert tc[1..] == ["n", "transactions"] && tc[1..][1..] == ["transactions"];
    if "count" !in f.columns && "n" in f.columns {
      assert FirstPresent(tc[1..], f.columns) == Some("n");
    } else if "count" !in f.columns && "n" !in f.columns && "transactions" in f.columns {
      assert FirstPresent(tc[1..][1..], f.columns) == Some("transactions");
    }
  }
}

=== FILE: lastdate.dfy ===
/** `get_last_data_date` of both downloaders: the date of the final CSV row, read from its `day`
    column, or from the date part of `caldt` when `day` is empty or absent. */
module LastDate {
  import opened Common
  import opened Text
  import opened Calendar

  /** One row as `csv.DictReader` yields it; a short row's missing cells are absent keys. */
  type CsvRow = map<string, string>

  /** The `RuntimeError`s the function raises. */
  datatype ReadError = BadDay(day: string) | NoDateColumns | BadCaldt(caldt: string)

  /** `row.get(column)` where both an absent key and an empty cell are falsy. */
  function Cell(row: CsvRow, column: string): string
  {
    if column in row then row[column] else ""
  }

  /** `caldt.split(" ", 1)[0]`: the text before the first space. */
  function DatePart(caldt: string): (p: string)
    ensures ' ' !in p && StartsWith(caldt, p)
    ensures |p| < |caldt| ==> caldt[|p|] == ' '
  {
    caldt[..IndexOf(caldt, ' ')]
  }

  /** The date held by one row, as an ordinal. */
  function RowDate(row: CsvRow): (r: Result<int, ReadError>)
    ensures Cell(row, "day") != "" ==>
      && (r.Ok? <==> ParseIsoDate(Cell(row, "day")).Some?)
      && (r.Ok? ==> r.value == Ordinal(ParseIsoDate(Cell(row, "day")).value))
      && (r.Err? ==> r.error == BadDay(Cell(row, "day")))
    ensures Cell(row, "day") == "" && Cell(row, "caldt") != "" ==>
      && (r.Ok? <==> ParseIsoDate(DatePart(Cell(row, "caldt"))).Some?)
      && (r.Ok? ==> r.value == Ordinal(ParseIsoDate(DatePart(Cell(row, "caldt"))).value))
      && (r.Err? ==> r.error == BadCaldt(Cell(row, "caldt")))
    ensures Cell(row, "day") == "" && Cell(row, "caldt") == "" ==> r == Err(NoDateColumns)
  {
    var day := Cell(row, "day");
    if day != "" then
      match ParseIsoDate(day)
      case Some(d) => Ok(Ordinal(d))
      case None => Err(BadDay(day))
    else
      var caldt := Cell(row, "caldt");
      if caldt == "" then Err(NoDateColumns)
      else
        match ParseIsoDate(DatePart(caldt))
        case Some(d) => Ok(Ordinal(d))
        case None => Err(BadCaldt(caldt))
  }

  /** `polygon_downloader.get_last_data_date`: `None` when there is no data row, otherwise the final
      row's date or the error it raises. */
  function LastDataDate(rows: seq<CsvRow>): (r: Result<Option<int>, ReadError>)
    ensures |rows| == 0 || rows[|rows| - 1] == map[] ==> r == Ok(None)
    ensures |rows| > 0 && rows[|rows| - 1] != map[] ==>
      match RowDate(rows[|rows| - 1])
      case Ok(n) => r == Ok(Some(n))
      case Err(e) => r == Err(e)
  {
    if |rows| == 0 || rows[|rows| - 1] == map[] then Ok(None)
    else
      match RowDate(rows[|rows| - 1])
      case Ok(n) => Ok(Some(n))
      case Err(e) => Err(e)
  }

  /** `databento_downloader.get_last_data_date`: a missing file (`None`) also gives `None`. */
  function DatabentoLastDataDate(file: Option<seq<CsvRow>>): (r: Result<Option<int>, ReadError>)
    ensures file.None? ==> r == Ok(None)
    ensures file.Some? ==> r == LastDataDate(file.value)
  {
    match file
    case None => Ok(None)
    case Some(rows) => LastDataDate(rows)
  }

  /** Only the final row is consulted: any earlier rows, well-formed or not, change nothing. */
  lemma OnlyFinalRowMatters(earlier: seq<CsvRow>, last: CsvRow)
    ensures LastDataDate(earlier + [last]) == LastDataDate([last])
  {
    assert (earlier + [last])[|earlier + [last]| - 1] == last;
  }

  /** A file whose final row carries a `day` written in `%Y-%m-%d` form resumes from that date. */
  lemma WrittenDayReadsBack(rows: seq<CsvRow>, d: Date)
    requires |rows| > 0 && Valid(d)
    requires Cell(rows[|rows| - 1], "day") == FormatIsoDate(d)
    ensures LastDataDate(rows) == Ok(Some(Ordinal(d)))
  {
    ParseFormatRoundTrip(d);
    assert "day" in rows[|rows| - 1];
  }

  /** With `day` empty or absent, the date part of `caldt` before the first space is used. */
  lemma CaldtFallback(row: CsvRow, d: Date, clock: string)
    requires Valid(d) && Cell(row, "day") == ""
    requires Cell(row, "caldt") == FormatIsoDate(d) + " " + clock
    ensures LastDataDate([row]) == Ok(Some(Ordinal(d)))
  {
    var caldt := Cell(row, "caldt");
    var iso := FormatIsoDate(d);
    assert ' ' !in iso by {
      assert forall i :: 0 <= i < |iso| ==> iso[i] == '-' || IsDigit(iso[i]);
    }
    assert caldt[|iso|] == ' ';
    assert IndexOf(caldt, ' ') == |iso|;
    assert DatePart(caldt) == iso;
    ParseFormatRoundTrip(d);
    assert "caldt" in row;
  }
}

=== FILE: loopcontrol.dfy ===
/** The every-minute loop of the two TradingView exporters: creating a loop from a selection,
    running it when it falls due, the `p`ause, `r`esume and `s`top commands, and the `--session`,
    `-start` and `-end` options that bound the loop to a window of the New York day.

    `tv_downloader.py` schedules with the windowed search `Schedule.NextLoopTimestamp`;
    `tv_data.py` has no window and takes the next tick `Schedule.NextTick`. The state is the triple
    `(loop_state, paused, (loop_start_time, loop_end_time))` of the menu loop; running a batch of
    charts and every clock reading are parameters. */
module LoopControl {
  import opened Common
  import opened Text
  import opened Schedule
  import opened TimeOfDay
  import Commands

  /** Which exporter schedules the loop. */
  datatype Exporter = Downloader | DataScript

  /** `loop_state`: what each run exports and when the next run is due. */
  datatype Loop = Loop(runAll: bool, keys: seq<string>, nextRun: int)

  datatype Control = Control(loop: Option<Loop>, paused: bool, window: Window)

  const Idle: Control := Control(None, false, NoWindow)

  predicate ValidWindow(w: Window)
  {
    (w.start.Some? ==> ValidClock(w.start.value)) && (w.end.Some? ==> ValidClock(w.end.value))
  }

  /** What the menu loop keeps true: only an existing loop is paused, bounds are real clock times,
      a loop selects something and is due on a `:50` tick. */
  predicate Consistent(c: Control)
  {
    && ValidWindow(c.window)
    && (c.paused ==> c.loop.Some?)
    && (c.loop.Some? ==>
          && (c.loop.value.runAll || c.loop.value.keys != [])
          && c.loop.value.nextRun % MicrosPerMinute == TickSecond)
  }

  /** The next run after `now`, as each exporter computes it. */
  function NextRun(ex: Exporter, now: int, w: Window): (r: int)
    requires ValidWindow(w)
    ensures r > now && r % MicrosPerMinute == TickSecond
    ensures r <= now + MinutesPerDay * MicrosPerMinute
    ensures ex.Downloader? ==> Within(MinuteOfDay(MinuteOf(r)), w)
    ensures ex.Downloader? ==> forall k :: now < Tick(k) < r ==> !Within(MinuteOfDay(k), w)
    ensures ex.DataScript? ==> r <= now + MicrosPerMinute && forall k :: Tick(k) > now ==> Tick(k) >= r
  {
    match ex
    case Downloader =>
      NextLoopTimestampAlwaysFound(now, w);
      NextLoopTimestamp(now, w).value
    case DataScript => NextTick(now)
  }

  /** Without a window the two exporters agree on every next run. */
  lemma NextRunUnbounded(now: int)
    ensures NextRun(Downloader, now, NoWindow) == NextRun(DataScript, now, NoWindow)
  {
    UnboundedSchedulesAgree(now);
  }

  /** The charts one run exports: every option for `a`, the selected keys otherwise. */
  function Batch(l: Loop, allKeys: seq<string>): (b: seq<string>)
    ensures l.runAll ==> b == allKeys
    ensures !l.runAll ==> b == l.keys
  {
    if l.runAll then allKeys else l.keys
  }

  /** The result of one pass of the menu loop: the new state and the batch it exported, if any. */
  datatype Step = Step(control: Control, batch: Option<seq<string>>)

  /** Creating a loop from `-loop`/`-l`: the selection runs at once, then the loop is scheduled from
      the clock reading `after` taken when that run ends, and it starts unpaused. */
  function StartLoop(ex: Exporter, c: Control, sel: Commands.Selection, after: int, allKeys: seq<string>): (r: Step)
    requires ValidWindow(c.window)
    requires sel.RunAll? || (sel.Keys? && sel.keys != [])
    ensures r.batch == Some(if sel.RunAll? then allKeys else sel.keys)
    ensures r.control.loop.Some? && !r.control.paused && r.control.window == c.window
    ensures r.control.loop.value.runAll <==> sel.RunAll?
    ensures sel.Keys? ==> r.control.loop.value.keys == sel.keys
    ensures r.control.loop.value.nextRun > after
    ensures Consistent(c) ==> Consistent(r.control)
  {
    var l := Loop(sel.RunAll?, if sel.Keys? then sel.keys else [], NextRun(ex, after, c.window));
    Step(Control(Some(l), false, c.window), Some(Batch(l, allKeys)))
  }

  /** A loop is due when it exists, is not paused and its next run is not after `now`. */
  predicate Due(c: Control, now: int)
  {
    c.loop.Some? && !c.paused && c.loop.value.nextRun <= now
  }

  /** The top of the menu loop: a due loop exports its batch and is rescheduled from the clock
      reading `after` taken once the batch is done; otherwise nothing happens. */
  function RunDue(ex: Exporter, c: Control, now: int, after: int, allKeys: seq<string>): (r: Step)
    requires ValidWindow(c.window)
    ensures r.batch.Some? <==> Due(c, now)
    ensures !Due(c, now) ==> r.control == c
    ensures Due(c, now) ==>
      && r.batch.value == Batch(c.loop.value, allKeys)
      && r.control.paused == c.paused && r.control.window == c.window
      && r.control.loop.Some?
      && r.control.loop.value.runAll == c.loop.value.runAll
      && r.control.loop.value.keys == c.loop.value.keys
      && r.control.loop.value.nextRun == NextRun(ex, after, c.window)
    ensures Consistent(c) ==> Consistent(r.control)
  {
    if Due(c, now) then
      var l := c.loop.value;
      Step(c.(loop := Some(l.(nextRun := NextRun(ex, after, c.window)))), Some(Batch(l, allKeys)))
    else
      Step(c, None)
  }

  /** A batch runs at most once per due time: once rescheduled, the loop is not due again at the
      moment the batch finished. */
  lemma RunDueNotDueAgain(ex: Exporter, c: Control, now: int, after: int, allKeys: seq<string>)
    requires ValidWindow(c.window) && Due(c, now) && after >= now
    ensures !Due(RunDue(ex, c, now, after, allKeys).control, after)
  {
  }

  /** `p`: pauses an existing, running loop; otherwise only a message is printed. */
  function Pause(c: Control): (r: Control)
    ensures r.loop == c.loop && r.window == c.window
    ensures r.paused <==> c.paused || c.loop.Some?
    ensures Consistent(c) ==> Consistent(r)
  {
    if c.loop.Some? && !c.paused then c.(paused := true) else c
  }

  /** `r`: resumes a paused loop and reschedules it from `now`; otherwise only a message is printed.
      The source reschedules even when the old next run still lies ahead. */
  function Resume(ex: Exporter, c: Control, now: int): (r: Control)
    requires ValidWindow(c.window)
    ensures r.window == c.window
    ensures r.paused <==> c.paused && c.loop.None?
    ensures r.loop.Some? <==> c.loop.Some?
    ensures !(c.loop.Some? && c.paused) ==> r == c
    ensures c.loop.Some? && c.paused ==>
      && r.loop.value.runAll == c.loop.value.runAll && r.loop.value.keys == c.loop.value.keys
      && r.loop.value.nextRun == NextRun(ex, now, c.window)
    ensures Consistent(c) ==> Consistent(r)
  {
    if c.loop.Some? && c.paused then
      c.(paused := false, loop := Some(c.loop.value.(nextRun := NextRun(ex, now, c.window))))
    else c
  }

  /** `s` (only in `tv_downloader.py`): forgets the loop, the window and the pause. */
  function Stop(c: Control): (r: Control)
    ensures r.loop.None? && !r.paused && r.window == NoWindow
    ensures Consistent(r)
  {
    Idle
  }

  /** Pausing twice is pausing once. */
  lemma PauseIdempotent(c: Control)
    ensures Pause(Pause(c)) == Pause(c)
  {
  }

  /** Pausing and resuming a running loop keeps its selection and reschedules it from `now`. */
  lemma PauseThenResume(ex: Exporter, c: Control, now: int)
    requires ValidWindow(c.window) && c.loop.Some? && !c.paused
    ensures Resume(ex, Pause(c), now) == c.(loop := Some(c.loop.value.(nextRun := NextRun(ex, now, c.window))))
  {
  }

  /** After a stop there is nothing to pause, resume or run. */
  lemma StoppedIsInert(ex: Exporter, c: Control, now: int, after: int, allKeys: seq<string>)
    ensures Pause(Stop(c)) == Stop(c)
    ensures Resume(ex, Stop(c), now) == Stop(c)
    ensures RunDue(ex, Stop(c), now, after, allKeys) == Step(Stop(c), None)
  {
  }

  /** A paused loop never runs, whatever the clock says. */
  lemma PausedNeverRuns(ex: Exporter, c: Control, now: int, after: int, allKeys: seq<string>)
    requires ValidWindow(c.window) && c.paused
    ensures RunDue(ex, c, now, after, allKeys) == Step(c, None)
  {
  }

  /** Without a window the downloader's `r` and the data script's `r` do the same thing. */
  lemma ResumeAgrees(c: Control, now: int)
    requires c.window == NoWindow
    ensures Resume(Downloader, c, now) == Resume(DataScript, c, now)
  {
    NextRunUnbounded(now);
  }

  // ----- `--session`, `-start` and `-end` (tv_downloader.py only) -----

  /** `SESSION_PRESETS`, keyed by lower-case name, bounds in New York time. */
  const SessionPresets: map<string, (string, string)> :=
    map["ny" := ("09:25", "10:00"), "lon" := ("03:00", "11:30"), "asia" := ("19:00", "03:00")]

  /** Arguments of `-start`/`-end` that clear the bound, compared after lower-casing. */
  const ClearedValues: set<string> := {"", "clear", "none", "off", "reset"}

  datatype ScheduleError =
    | SessionMissing           // `--session` with an empty argument
    | UnknownSession           // a name that is not a preset
    | BadBound(cause: TimeError)  // a bound `parse_time_of_day` refused
    | NoTick                   // the `RuntimeError` of `next_loop_timestamp`

  /** `--session NAME`: the window of the named preset. */
  function ApplySession(arg: string): (r: Result<Window, ScheduleError>)
    ensures r.Ok? ==> r.value.start.Some? && r.value.end.Some? && ValidWindow(r.value)
    ensures r == Err(SessionMissing) <==> Lower(Strip(arg)) == []
    ensures r == Err(UnknownSession) <==> Lower(Strip(arg)) != [] && Lower(Strip(arg)) !in SessionPresets
    ensures r.Ok? <==> Lower(Strip(arg)) in SessionPresets
  {
    var value := Lower(Strip(arg));
    if value == [] then Err(SessionMissing)
    else if value !in SessionPresets then Err(UnknownSession)
    else
      PresetBoundsParse(value);
      var (startText, endText) := SessionPresets[value];
      match (ParseTimeOfDay(startText), ParseTimeOfDay(endText))
      case (Ok(s), Ok(e)) => Ok(Window(Some(s), Some(e)))
      case (Err(err), _) => Err(BadBound(err))
      case (_, Err(err)) => Err(BadBound(err))
  }

  /** Every bound of every preset is `%H:%M` text that parses, and echoes back as itself, so
      applying a preset never fails. */
  lemma PresetBoundsParse(name: string)
    requires name in SessionPresets
    ensures var (s, e) := SessionPresets[name];
      && ParseTimeOfDay(s).Ok? && ParseTimeOfDay(e).Ok?
      && FormatHM(ParseTimeOfDay(s).value) == s && FormatHM(ParseTimeOfDay(e).value) == e
  {
    PresetTexts();
    assert name == "ny" || name == "lon" || name == "asia";
    if name == "ny" {
      PresetValues(name, ClockTime(9, 25), ClockTime(10, 0));
    } else if name == "lon" {
      PresetValues(name, ClockTime(3, 0), ClockTime(11, 30));
    } else {
      PresetValues(name, ClockTime(19, 0), ClockTime(3, 0));
    }
  }

  /** The preset bounds are written exactly as `%H:%M` prints them. */
  lemma PresetTexts()
    ensures SessionPresets["ny"] == (FormatHM(ClockTime(9, 25)), FormatHM(ClockTime(10, 0)))
    ensures SessionPresets["lon"] == (FormatHM(ClockTime(3, 0)), FormatHM(ClockTime(11, 30)))
    ensures SessionPresets["asia"] == (FormatHM(ClockTime(19, 0)), FormatHM(ClockTime(3, 0)))
  {
    FormatHMDigits(ClockTime(9, 25));
    FormatHMDigits(ClockTime(10, 0));
    FormatHMDigits(ClockTime(3, 0));
    FormatHMDigits(ClockTime(11, 30));
    FormatHMDigits(ClockTime(19, 0));
  }

  lemma FormatHMDigits(t: ClockTime)
    requires ValidClock(t)
    ensures FormatHM(t) == [DigitChar(t.hour / 10), DigitChar(t.hour % 10), ':', DigitChar(t.minute / 10), DigitChar(t.minute % 10)]
  {
    PadTwoDigits(t.hour);
    PadTwoDigits(t.minute);
  }

  lemma PresetValues(name: string, ts: ClockTime, te: ClockTime)
    requires ValidClock(ts) && ValidClock(te)
    requires name in SessionPresets && SessionPresets[name] == (FormatHM(ts), FormatHM(te))
    ensures ParseTimeOfDay(SessionPresets[name].0) == Ok(ts)
    ensures ParseTimeOfDay(SessionPresets[name].1) == Ok(te)
  {
    PresetParses(SessionPresets[name].0, ts);
    PresetParses(SessionPresets[name].1, te);
  }

  lemma PadTwoDigits(n: nat)
    requires n < 100
    ensures PadDigits(n, 2) == [DigitChar(n / 10), DigitChar(n % 10)]
  {
    assert PadDigits(n / 10, 1) == PadDigits(n / 10 / 10, 0) + [DigitChar(n / 10 % 10)];
    assert n / 10 % 10 == n / 10;
  }

  /** The `ny` preset applies as 09:25-10:00. */
  lemma SessionNy(arg: string)
    requires Lower(Strip(arg)) == "ny"
    ensures ApplySession(arg) == Ok(Window(Some(ClockTime(9, 25)), Some(ClockTime(10, 0))))
  {
    PresetTexts();
    PresetValues(Lower(Strip(arg)), ClockTime(9, 25), ClockTime(10, 0));
  }

  /** The `lon` preset applies as 03:00-11:30. */
  lemma SessionLon(arg: string)
    requires Lower(Strip(arg)) == "lon"
    ensures ApplySession(arg) == Ok(Window(Some(ClockTime(3, 0)), Some(ClockTime(11, 30))))
  {
    PresetTexts();
    PresetValues(Lower(Strip(arg)), ClockTime(3, 0), ClockTime(11, 30));
  }

  /** The `asia` preset applies as 19:00-03:00, a window that wraps midnight. */
  lemma SessionAsia(arg: string)
    requires Lower(Strip(arg)) == "asia"
    ensures ApplySession(arg) == Ok(Window(Some(ClockTime(19, 0)), Some(ClockTime(3, 0))))
    ensures forall m :: Within(m, ApplySession(arg).value) <==> !(180 < m < 1140)
  {
    PresetTexts();
    PresetValues(Lower(Strip(arg)), ClockTime(19, 0), ClockTime(3, 0));
    AsiaWraps(ApplySession(arg).value);
  }

  lemma AsiaWraps(w: Window)
    requires w == Window(Some(ClockTime(19, 0)), Some(ClockTime(3, 0)))
    ensures forall m :: Within(m, w) <==> !(180 < m < 1140)
  {
    assert MinutesSinceMidnight(w.start.value) == 1140 && MinutesSinceMidnight(w.end.value) == 180;
  }

  /** `-start VALUE` or `-end VALUE`: `None` clears the bound, otherwise the parsed time; a
      blank argument clears, so the only error is text no pattern reads. */
  function ApplyBound(arg: string): (r: Result<Option<ClockTime>, ScheduleError>)
    ensures r == Ok(None) <==> Lower(Strip(arg)) in ClearedValues
    ensures r.Ok? && r.value.Some? ==> ValidClock(r.value.value)
    ensures r.Err? ==> r.error == BadBound(Unparseable)
  {
    var value := Strip(arg);
    if Lower(value) in ClearedValues then Ok(None)
    else
      NotClearedNonEmpty(value);
      ParseBound(value)
  }

  /** Parsing a bound that is not blank: the only error is text no pattern reads. */
  function ParseBound(value: string): (r: Result<Option<ClockTime>, ScheduleError>)
    requires |value| > 0 && !IsSpace(value[0])
    ensures r.Ok? ==> r.value.Some? && ValidClock(r.value.value)
    ensures r.Err? ==> r.error == BadBound(Unparseable)
  {
    NonBlankNotEmptyTime(value);
    match ParseTimeOfDay(value)
    case Ok(t) => Ok(Some(t))
    case Err(e) => Err(BadBound(e))
  }

  lemma NotClearedNonEmpty(v: string)
    requires Lower(v) !in ClearedValues
    ensures v != []
  {
  }

  /** No cleared word holds a colon. */
  lemma ClearedHasNoColon(v: string)
    ensures v in ClearedValues ==> ':' !in v
  {
  }

  /** Typing back the bound the menu echoes (`Loop start set to HH:MM ET.`) sets the same bound. */
  lemma BoundEchoRoundTrip(t: ClockTime)
    requires ValidClock(t)
    ensures ApplyBound(FormatHM(t)) == Ok(Some(t))
  {
    var s := FormatHM(t);
    FormatHMStripped(t);
    ClearedHasNoColon(Lower(s));
    assert Lower(s)[2] == ':';
    FormatHMRoundTrip(t);
  }

  lemma FormatHMStripped(t: ClockTime)
    requires ValidClock(t)
    ensures Strip(FormatHM(t)) == FormatHM(t)
  {
    FormatHMShape(t);
    StripUnchanged(FormatHM(t));
  }

  /** The options of one command; an absent option is `None`, a present one carries its
      argument, `""` when it had none. */
  datatype ScheduleOptions = ScheduleOptions(session: Option<string>, start: Option<string>, end: Option<string>)

  predicate ChangesSchedule(o: ScheduleOptions)
  {
    o.session.Some? || o.start.Some? || o.end.Some?
  }

  /** The outcome of the options: the state left behind and the error that stopped the command. */
  datatype Applied = Applied(control: Control, error: Option<ScheduleError>)

  /** The start bound the last option naming one sets: `-start` over the session over the old one. */
  function LastStart(w: Window, o: ScheduleOptions): Option<ClockTime>
  {
    if o.start.Some? && ApplyBound(o.start.value).Ok? then ApplyBound(o.start.value).value
    else if o.session.Some? && ApplySession(o.session.value).Ok? then ApplySession(o.session.value).value.start
    else w.start
  }

  /** The end bound the last option naming one sets: `-end` over the session over the old one. */
  function LastEnd(w: Window, o: ScheduleOptions): Option<ClockTime>
  {
    if o.end.Some? && ApplyBound(o.end.value).Ok? then ApplyBound(o.end.value).value
    else if o.session.Some? && ApplySession(o.session.value).Ok? then ApplySession(o.session.value).value.end
    else w.end
  }

  /** The window after the options: the session first, then `-start`, then `-end`, each bound
      assigned as soon as it parses, so an error in a later option keeps the earlier ones. */
  function ScheduleWindow(w: Window, o: ScheduleOptions): (r: (Window, Option<ScheduleError>))
    requires ValidWindow(w)
    ensures ValidWindow(r.0)
    ensures r.1.None? <==>
      && (o.session.Some? ==> ApplySession(o.session.value).Ok?)
      && (o.start.Some? ==> ApplyBound(o.start.value).Ok?)
      && (o.end.Some? ==> ApplyBound(o.end.value).Ok?)
    ensures r.1.None? ==> r.0 == Window(LastStart(w, o), LastEnd(w, o))
    ensures r.1.Some? ==> r.0.end == LastEnd(w, o.(end := None))
    ensures r.1.Some? && (o.session.Some? ==> ApplySession(o.session.value).Ok?) ==> r.0.start == LastStart(w, o)
    ensures o.session.Some? && ApplySession(o.session.value).Err? ==> r.0 == w
    ensures r.1 != Some(NoTick)
    ensures o.session.None? ==> r.1.None? || r.1 == Some(BadBound(Unparseable))
  {
    var sessionStep := if o.session.None? then Ok(w) else ApplySession(o.session.value);
    if sessionStep.Err? then (w, Some(sessionStep.error))
    else
      var w1 := sessionStep.value;
      var startStep := if o.start.None? then Ok(w1.start) else ApplyBound(o.start.value);
      if startStep.Err? then (w1, Some(startStep.error))
      else
        var w2 := w1.(start := startStep.value);
        var endStep := if o.end.None? then Ok(w2.end) else ApplyBound(o.end.value);
        if endStep.Err? then (w2, Some(endStep.error))
        else (w2.(end := endStep.value), None)
  }

  /** The schedule options of one command in `tv_downloader.py`. When every option applies, an
      existing loop is rescheduled from `now` in the new window; an error leaves the loop as it was,
      even though the bounds assigned before it stay. */
  function ApplySchedule(c: Control, o: ScheduleOptions, now: int): (r: Applied)
    requires ValidWindow(c.window)
    ensures (r.control.window, r.error) == ScheduleWindow(c.window, o)
    ensures r.control.paused == c.paused
    ensures r.control.loop.Some? <==> c.loop.Some?
    ensures r.error.Some? || !ChangesSchedule(o) ==> r.control.loop == c.loop
    ensures r.error.None? && ChangesSchedule(o) && c.loop.Some? ==>
      && r.control.loop.value.runAll == c.loop.value.runAll
      && r.control.loop.value.keys == c.loop.value.keys
      && r.control.loop.value.nextRun == NextRun(Downloader, now, r.control.window)
    ensures Consistent(c) ==> Consistent(r.control)
  {
    var (w, error) := ScheduleWindow(c.window, o);
    if error.None? && ChangesSchedule(o) && c.loop.Some? then
      Applied(Control(Some(c.loop.value.(nextRun := NextRun(Downloader, now, w))), c.paused, w), None)
    else
      Applied(c.(window := w), error)
  }

  /** With `--session ny -start T` the start comes from `-start` and the end from the preset:
      `-start 10:00` gives a degenerate 10:00-10:00 window, which admits every minute. */
  lemma StartOverridesSession(c: Control, now: int, name: string, t: ClockTime)
    requires ValidWindow(c.window) && ValidClock(t) && Lower(Strip(name)) == "ny"
    ensures ScheduleWindow(c.window, ScheduleOptions(Some(name), Some(FormatHM(t)), None))
      == (Window(Some(t), Some(ClockTime(10, 0))), None)
    ensures t == ClockTime(10, 0) ==> forall m :: Within(m, Window(Some(t), Some(ClockTime(10, 0))))
  {
    SessionNy(name);
    BoundEchoRoundTrip(t);
  }
}

=== FILE: merge.dfy ===
/** The merge-dedup writer `append_to_csv`, identical in both downloaders: concatenate the existing
    rows (when the file is there and readable) with the incoming rows, sort by `caldt`, and drop
    duplicate `caldt` values keeping the last. The file is then overwritten in place. */
module Merge {
  import opened Common
  import opened Bars

  /** What `pd.read_csv` of the target file yields. */
  datatype Existing = Missing | Unreadable | Rows(rows: seq<Bar>)

  /** `pd.concat([existing_df, new_rows])`, or the new rows alone when the file is absent or its
      read raised. */
  function Combined(existing: Existing, incoming: seq<Bar>): (c: seq<Bar>)
    ensures existing.Rows? ==> c == existing.rows + incoming
    ensures !existing.Rows? ==> c == incoming
  {
    match existing
    case Rows(rows) => rows + incoming
    case _ => incoming
  }

  /** The last bar of `s` whose `caldt` is `k`. */
  function LastWith(s: seq<Bar>, k: int): (b: Bar)
    requires k in Keys(s)
    ensures b in s && b.caldt == k
  {
    var last := s[|s| - 1];
    if last.caldt == k then last
    else
      assert k in Keys(s[..|s| - 1]) by {
        var b :| b in s && b.caldt == k;
        var i :| 0 <= i < |s| && s[i] == b;
        assert i < |s| - 1 && s[..|s| - 1][i] == b;
      }
      LastWith(s[..|s| - 1], k)
  }

  /** Places `b` into a strictly sorted sequence, replacing the bar with the same `caldt`. */
  function Upsert(s: seq<Bar>, b: Bar): (r: seq<Bar>)
    requires StrictlySorted(s)
    ensures forall x :: x in r <==> x == b || (x in s && x.caldt != b.caldt)
  {
    if |s| == 0 then [b]
    else if b.caldt < s[0].caldt then
      TailAbove(s);
      [b] + s
    else if b.caldt == s[0].caldt then
      TailAbove(s);
      [b] + s[1..]
    else
      assert s == [s[0]] + s[1..];
      [s[0]] + Upsert(s[1..], b)
  }

  /** Every bar of a strictly sorted sequence is at or above its first. */
  lemma TailAbove(s: seq<Bar>)
    requires StrictlySorted(s) && |s| > 0
    ensures forall x :: x in s ==> s[0].caldt <= x.caldt
    ensures forall x :: x in s[1..] ==> s[0].caldt < x.caldt
  {
    forall x | x in s[1..]
      ensures s[0].caldt < x.caldt
    {
      var i :| 0 <= i < |s[1..]| && s[1..][i] == x;
      assert s[i + 1] == x;
    }
  }

  /** Upserting keeps a sequence strictly sorted. */
  lemma {:induction false} UpsertSorted(s: seq<Bar>, b: Bar)
    requires StrictlySorted(s)
    ensures StrictlySorted(Upsert(s, b))
    decreases |s|
  {
    if |s| > 0 {
      TailAbove(s);
      if b.caldt < s[0].caldt {
        ConsSorted(b, s);
      } else if b.caldt == s[0].caldt {
        ConsSorted(b, s[1..]);
      } else {
        UpsertSorted(s[1..], b);
        ConsSorted(s[0], Upsert(s[1..], b));
      }
    }
  }

  /** Upserting adds the new timestamp and keeps the others. */
  lemma UpsertKeys(s: seq<Bar>, b: Bar)
    requires StrictlySorted(s)
    ensures Keys(Upsert(s, b)) == Keys(s) + {b.caldt}
  {
    var r := Upsert(s, b);
    forall k | k in Keys(s) + {b.caldt}
      ensures k in Keys(r)
    {
      if k != b.caldt {
        var x :| x in s && x.caldt == k;
        assert x in r;
      } else {
        assert b in r;
      }
    }
  }

  /** A bar below every bar of a strictly sorted sequence can go in front of it. */
  lemma ConsSorted(x: Bar, s: seq<Bar>)
    requires StrictlySorted(s) && forall y :: y in s ==> x.caldt < y.caldt
    ensures StrictlySorted([x] + s)
  {
    var t := [x] + s;
    forall i, j | 0 <= i < j < |t|
      ensures t[i].caldt < t[j].caldt
    {
      if i > 0 {
        assert t[i] == s[i - 1] && t[j] == s[j - 1];
      } else {
        assert t[j] in s;
      }
    }
  }

  /** A stable sort by `caldt` followed by `drop_duplicates(keep="last")`: each bar in turn replaces
      any earlier bar with the same timestamp. */
  function SortDedup(s: seq<Bar>): (r: seq<Bar>)
    ensures StrictlySorted(r)
    ensures Keys(r) == Keys(s)
    ensures forall i :: 0 <= i < |r| ==> r[i].caldt in Keys(s) && r[i] == LastWith(s, r[i].caldt)
  {
    if |s| == 0 then []
    else
      var init := s[..|s| - 1];
      var b := s[|s| - 1];
      var prev := SortDedup(init);
      assert s == init + [b];
      SortDedupStep(init, b, prev);
      UpsertSorted(prev, b);
      Upsert(prev, b)
  }

  lemma SortDedupStep(init: seq<Bar>, b: Bar, prev: seq<Bar>)
    requires StrictlySorted(prev) && Keys(prev) == Keys(init)
    requires forall i :: 0 <= i < |prev| ==> prev[i].caldt in Keys(init) && prev[i] == LastWith(init, prev[i].caldt)
    ensures Keys(Upsert(prev, b)) == Keys(init + [b])
    ensures forall i :: 0 <= i < |Upsert(prev, b)| ==>
      Upsert(prev, b)[i].caldt in Keys(init + [b]) && Upsert(prev, b)[i] == LastWith(init + [b], Upsert(prev, b)[i].caldt)
  {
    var r := Upsert(prev, b);
    KeysConcat(init, [b]);
    UpsertKeys(prev, b);
    forall i | 0 <= i < |r|
      ensures r[i].caldt in Keys(init + [b]) && r[i] == LastWith(init + [b], r[i].caldt)
    {
      LastWithSnoc(init, b, r[i].caldt);
      if r[i] != b {
        var j :| 0 <= j < |prev| && prev[j] == r[i];
      }
    }
  }

  /** Appending one bar makes it the last bar with its timestamp and changes no other. */
  lemma LastWithSnoc(s: seq<Bar>, b: Bar, k: int)
    requires k in Keys(s + [b])
    ensures k == b.caldt ==> LastWith(s + [b], k) == b
    ensures k != b.caldt ==> k in Keys(s) && LastWith(s + [b], k) == LastWith(s, k)
  {
    var t := s + [b];
    assert t[|t| - 1] == b;
    assert t[..|t| - 1] == s;
    KeysConcat(s, [b]);
  }

  /** `append_to_csv`'s resulting table, assuming the sort keeps equal timestamps in input order. */
  function AppendToCsv(existing: Existing, incoming: seq<Bar>): (out: seq<Bar>)
    ensures StrictlySorted(out)
    ensures Keys(out) == Keys(Combined(existing, incoming))
    ensures forall x :: x in out ==> x in Combined(existing, incoming)
  {
    SortDedup(Combined(existing, incoming))
  }

  /** What any sort order may produce: `sort_values` defaults to an unstable quicksort, so among bars
      sharing a timestamp the one kept is some bar of the input with that timestamp. */
  predicate Admissible(combined: seq<Bar>, out: seq<Bar>)
  {
    && StrictlySorted(out)
    && Keys(out) == Keys(combined)
    && (forall x :: x in out ==> x in combined)
  }

  /** The stable model is one of the admissible outcomes. */
  lemma AppendToCsvAdmissible(existing: Existing, incoming: seq<Bar>)
    ensures Admissible(Combined(existing, incoming), AppendToCsv(existing, incoming))
  {
  }

  /** Whatever the sort order, merging the same incoming rows a second time adds no timestamp and
      loses none, and a read failure leaves only the incoming timestamps. */
  lemma AdmissibleKeys(existing: Existing, incoming: seq<Bar>, once: seq<Bar>, twice: seq<Bar>)
    requires Admissible(Combined(existing, incoming), once)
    requires Admissible(Combined(Rows(once), incoming), twice)
    ensures Keys(twice) == Keys(once)
    ensures existing.Rows? ==> Keys(once) == Keys(existing.rows) + Keys(incoming)
    ensures !existing.Rows? ==> Keys(once) == Keys(incoming)
  {
    KeysConcat(once, incoming);
    if existing.Rows? {
      KeysConcat(existing.rows, incoming);
    }
  }

  lemma KeysEmpty(s: seq<Bar>)
    ensures |s| == 0 <==> Keys(s) == {}
  {
    if |s| > 0 {
      assert s[0].caldt in Keys(s);
    }
  }

  lemma KeysConcat(a: seq<Bar>, b: seq<Bar>)
    ensures Keys(a + b) == Keys(a) + Keys(b)
  {
    assert forall x :: x in a + b <==> x in a || x in b;
  }

  /** The last bar with a timestamp in a concatenation comes from the second part when it has one. */
  lemma {:induction false} LastWithConcat(a: seq<Bar>, b: seq<Bar>, k: int)
    requires k in Keys(a + b)
    ensures k in Keys(b) ==> LastWith(a + b, k) == LastWith(b, k)
    ensures k !in Keys(b) ==> k in Keys(a) && LastWith(a + b, k) == LastWith(a, k)
    decreases |b|
  {
    KeysConcat(a, b);
    if |b| > 0 {
      var b', x := b[..|b| - 1], b[|b| - 1];
      assert b == b' + [x];
      assert a + b == (a + b') + [x];
      LastWithSnoc(a + b', x, k);
      if k in Keys(b) {
        LastWithSnoc(b', x, k);
      }
      if x.caldt != k {
        KeysConcat(a, b');
        LastWithConcat(a, b', k);
      }
    } else {
      assert a + b == a;
    }
  }

  /** New rows win: every stored bar whose timestamp was fetched again is the last fetched bar with
      that timestamp, and every other stored bar is the last existing one (stable-sort model). */
  lemma FreshRowsWin(existing: seq<Bar>, incoming: seq<Bar>)
    ensures forall x :: x in AppendToCsv(Rows(existing), incoming) ==>
      if x.caldt in Keys(incoming) then x == LastWith(incoming, x.caldt)
      else x.caldt in Keys(existing) && x == LastWith(existing, x.caldt)
  {
    var out := AppendToCsv(Rows(existing), incoming);
    forall x | x in out
      ensures if x.caldt in Keys(incoming) then x == LastWith(incoming, x.caldt)
              else x.caldt in Keys(existing) && x == LastWith(existing, x.caldt)
    {
      var i :| 0 <= i < |out| && out[i] == x;
      LastWithConcat(existing, incoming, x.caldt);
    }
  }

  /** Two strictly sorted sequences with the same timestamps that agree on each timestamp are equal. */
  lemma {:induction false} SortedUnique(a: seq<Bar>, b: seq<Bar>)
    requires StrictlySorted(a) && StrictlySorted(b)
    requires Keys(a) == Keys(b)
    requires forall i, j :: 0 <= i < |a| && 0 <= j < |b| && a[i].caldt == b[j].caldt ==> a[i] == b[j]
    ensures a == b
    decreases |a|
  {
    KeysEmpty(a);
    KeysEmpty(b);
    if |a| > 0 && |b| > 0 {
      HeadsAndTails(a, b);
      SortedUnique(a[1..], b[1..]);
      assert a == [a[0]] + a[1..] && b == [b[0]] + b[1..];
    }
  }

  /** One step of `SortedUnique`: equal heads, and the tails meet its preconditions again. */
  lemma HeadsAndTails(a: seq<Bar>, b: seq<Bar>)
    requires StrictlySorted(a) && StrictlySorted(b) && |a| > 0 && |b| > 0
    requires Keys(a) == Keys(b)
    requires forall i, j :: 0 <= i < |a| && 0 <= j < |b| && a[i].caldt == b[j].caldt ==> a[i] == b[j]
    ensures a[0] == b[0]
    ensures StrictlySorted(a[1..]) && StrictlySorted(b[1..]) && Keys(a[1..]) == Keys(b[1..])
    ensures forall i, j :: 0 <= i < |a[1..]| && 0 <= j < |b[1..]| && a[1..][i].caldt == b[1..][j].caldt ==> a[1..][i] == b[1..][j]
  {
    SameFirst(a, b);
    KeysTail(a);
    KeysTail(b);
    SortedTail(a);
    SortedTail(b);
    TailsAgree(a, b);
  }

  /** Two strictly sorted sequences over the same keys start with the same key, hence the same row. */
  lemma SameFirst(a: seq<Bar>, b: seq<Bar>)
    requires StrictlySorted(a) && StrictlySorted(b) && |a| > 0 && |b| > 0
    requires Keys(a) == Keys(b)
    requires forall i, j :: 0 <= i < |a| && 0 <= j < |b| && a[i].caldt == b[j].caldt ==> a[i] == b[j]
    ensures a[0] == b[0]
  {
    assert a[0] in a && b[0] in b;
    var i := KeyAt(a, b[0].caldt);
    var j := KeyAt(b, a[0].caldt);
    assert a[0].caldt <= a[i].caldt && b[0].caldt <= b[j].caldt;
  }

  lemma KeyAt(s: seq<Bar>, k: int) returns (i: nat)
    requires k in Keys(s)
    ensures i < |s| && s[i].caldt == k
  {
    var x :| x in s && x.caldt == k;
    i :| i < |s| && s[i] == x;
  }

  lemma TailsAgree(a: seq<Bar>, b: seq<Bar>)
    requires |a| > 0 && |b| > 0
    requires forall i, j :: 0 <= i < |a| && 0 <= j < |b| && a[i].caldt == b[j].caldt ==> a[i] == b[j]
    ensures forall i, j :: 0 <= i < |a[1..]| && 0 <= j < |b[1..]| && a[1..][i].caldt == b[1..][j].caldt ==> a[1..][i] == b[1..][j]
  {
    forall i, j | 0 <= i < |a[1..]| && 0 <= j < |b[1..]| && a[1..][i].caldt == b[1..][j].caldt
      ensures a[1..][i] == b[1..][j]
    {
      assert a[1..][i] == a[i + 1] && b[1..][j] == b[j + 1];
    }
  }

  lemma SortedTail(s: seq<Bar>)
    requires StrictlySorted(s) && |s| > 0
    ensures StrictlySorted(s[1..])
  {
    forall i, j | 0 <= i < j < |s[1..]|
      ensures s[1..][i].caldt < s[1..][j].caldt
    {
      assert s[1..][i] == s[i + 1] && s[1..][j] == s[j + 1];
    }
  }

  lemma KeysTail(s: seq<Bar>)
    requires StrictlySorted(s) && |s| > 0
    ensures Keys(s[1..]) == Keys(s) - {s[0].caldt}
  {
    assert s == [s[0]] + s[1..];
    KeysConcat([s[0]], s[1..]);
    assert s[0].caldt !in Keys(s[1..]);
  }

  /** Idempotence: writing the same incoming rows again into the file the first write produced leaves
      it unchanged, whatever the original file held (stable-sort model). */
  lemma MergeIdempotent(existing: Existing, incoming: seq<Bar>)
    ensures AppendToCsv(Rows(AppendToCsv(existing, incoming)), incoming) == AppendToCsv(existing, incoming)
  {
    var once := AppendToCsv(existing, incoming);
    var c1 := Combined(existing, incoming);
    var c2 := once + incoming;
    var twice := AppendToCsv(Rows(once), incoming);
    KeysConcat(once, incoming);
    forall i, j | 0 <= i < |twice| && 0 <= j < |once| && twice[i].caldt == once[j].caldt
      ensures twice[i] == once[j]
    {
      var k := once[j].caldt;
      LastWithConcat(once, incoming, k);
      if existing.Rows? {
        LastWithConcat(existing.rows, incoming, k);
      }
      if k !in Keys(incoming) {
        LastOfSorted(once, j);
      }
    }
    SortedUnique(twice, once);
  }

  /** In a sequence without repeated timestamps, the last bar with a bar's timestamp is that bar. */
  lemma {:induction false} LastOfSorted(s: seq<Bar>, j: int)
    requires StrictlySorted(s) && 0 <= j < |s|
    ensures s[j].caldt in Keys(s) && LastWith(s, s[j].caldt) == s[j]
    decreases |s|
  {
    if j < |s| - 1 {
      assert s[|s| - 1].caldt != s[j].caldt;
      LastOfSorted(s[..|s| - 1], j);
    }
  }

  /** Merging nothing into a well-formed store rewrites it unchanged. */
  lemma MergeNothing(existing: seq<Bar>)
    requires StrictlySorted(existing)
    ensures AppendToCsv(Rows(existing), []) == existing
  {
    var out := AppendToCsv(Rows(existing), []);
    assert existing + [] == existing;
    forall i, j | 0 <= i < |out| && 0 <= j < |existing| && out[i].caldt == existing[j].caldt
      ensures out[i] == existing[j]
    {
      LastOfSorted(existing, j);
    }
    SortedUnique(out, existing);
  }
}

=== FILE: planner.dfy ===
/** Range planning in the two downloaders' `main`: which files take part, the freshness skip, and
    the inclusive `[start, end]` day range (ordinals) requested for each file. */
module Planner {
  import opened Common
  import opened Text
  import opened Calendar
  import opened LastDate

  datatype SkipReason = UpToDate | StartAfterEnd | FileMissing

  datatype Plan = Skip(reason: SkipReason) | Fetch(start: int, end: int)

  /** Days of history the Polygon free tier serves, and the first-run look-back. */
  const PolygonLookbackDays: int := 730

  /** `DEFAULT_START_DATE` of the Databento downloader, 2024-01-01. */
  const DatabentoDefaultStart: Date := Date(2024, 1, 1)

  const OneMinuteSuffix: string := "_1m.csv"

  predicate IsAsciiLetter(c: char)
  {
    'A' <= c <= 'Z' || 'a' <= c <= 'z'
  }

  /** `str.isalpha()` over ASCII: non-empty and letters only. */
  predicate IsAlpha(s: string)
  {
    |s| > 0 && forall i :: 0 <= i < |s| ==> IsAsciiLetter(s[i])
  }

  /** `str.isupper()` over ASCII: some cased character and no lower-case one. */
  predicate IsUpper(s: string)
  {
    (exists i :: 0 <= i < |s| && IsAsciiLetter(s[i])) && forall i :: 0 <= i < |s| ==> !('a' <= s[i] <= 'z')
  }

  /** `is_capitalized_one_minute_file`: a regular file named `<SYMBOL>_1m.csv`. */
  predicate IsCapitalizedOneMinuteFile(isFile: bool, name: string)
  {
    && isFile
    && EndsWith(name, OneMinuteSuffix)
    && IsAlpha(name[..|name| - |OneMinuteSuffix|])
    && IsUpper(name[..|name| - |OneMinuteSuffix|])
  }

  /** A file qualifies exactly when it is a regular file named by a non-empty run of the capital
      letters A-Z followed by `_1m.csv`. */
  lemma QualifyingNames(isFile: bool, name: string)
    ensures IsCapitalizedOneMinuteFile(isFile, name) <==>
      isFile && exists symbol: string ::
        && name == symbol + OneMinuteSuffix
        && |symbol| > 0
        && (forall i :: 0 <= i < |symbol| ==> 'A' <= symbol[i] <= 'Z')
  {
    if IsCapitalizedOneMinuteFile(isFile, name) {
      QualifyingHasSymbol(name);
    }
    if isFile && (exists symbol: string :: name == symbol + OneMinuteSuffix && |symbol| > 0
                    && (forall i :: 0 <= i < |symbol| ==> 'A' <= symbol[i] <= 'Z'))
    {
      var symbol: string :| name == symbol + OneMinuteSuffix && |symbol| > 0
        && (forall i :: 0 <= i < |symbol| ==> 'A' <= symbol[i] <= 'Z');
      SymbolQualifies(name, symbol);
    }
  }

  lemma QualifyingHasSymbol(name: string)
    requires IsCapitalizedOneMinuteFile(true, name)
    ensures var symbol := name[..|name| - |OneMinuteSuffix|];
      && name == symbol + OneMinuteSuffix && |symbol| > 0
      && (forall i :: 0 <= i < |symbol| ==> 'A' <= symbol[i] <= 'Z')
  {
    var symbol := name[..|name| - |OneMinuteSuffix|];
    assert name == symbol + name[|name| - |OneMinuteSuffix|..];
  }

  lemma SymbolQualifies(name: string, symbol: string)
    requires name == symbol + OneMinuteSuffix && |symbol| > 0
    requires forall i :: 0 <= i < |symbol| ==> 'A' <= symbol[i] <= 'Z'
    ensures IsCapitalizedOneMinuteFile(true, name)
  {
    assert name[|name| - |OneMinuteSuffix|..] == OneMinuteSuffix;
    assert name[..|name| - |OneMinuteSuffix|] == symbol;
    assert IsAsciiLetter(symbol[0]);
  }

  /** `file_path.stem[:-len("_1m")]` for a qualifying file: the ticker. */
  function Symbol(name: string): (symbol: string)
    requires EndsWith(name, OneMinuteSuffix)
    ensures symbol + OneMinuteSuffix == name
  {
    name[..|name| - |OneMinuteSuffix|]
  }

  /** Polygon `main`: skip when the last stored day is yesterday or later; otherwise request from the
      day after it (or 730 days back for an empty file) through today. */
  function PolygonPlan(last: Option<int>, today: int): (p: Plan)
    ensures last.Some? && last.value >= today - 1 <==> p == Skip(UpToDate)
    ensures !(last.Some? && last.value >= today - 1) ==> p.Fetch?
    ensures p.Fetch? ==> p.end == today
    ensures p.Fetch? && last.Some? ==> p.start == last.value + 1 && p.start < today
    ensures p.Fetch? && last.None? ==> p.start == today - PolygonLookbackDays
  {
    if last.Some? && last.value >= today - 1 then Skip(UpToDate)
    else
      var start := if last.None? then today - PolygonLookbackDays else last.value + 1;
      if start > today then Skip(StartAfterEnd) else Fetch(start, today)
  }

  /** After the freshness skip, the `start_date > end_date` guard can never fire: every plan is
      either up to date or a non-empty range. */
  lemma PolygonStartAfterEndUnreachable(last: Option<int>, today: int)
    ensures PolygonPlan(last, today) != Skip(StartAfterEnd)
    ensures PolygonPlan(last, today).Fetch? ==> PolygonPlan(last, today).start <= PolygonPlan(last, today).end
  {
  }

  /** The free-tier guard of `download_and_merge_data`: a start more than 730 days back is refused
      before any request. */
  predicate FreeTierAllows(paid: bool, start: int, today: int)
  {
    paid || start >= today - PolygonLookbackDays
  }

  /** An empty file's first request always passes the free-tier guard, but a file whose last day is
      more than 731 days old is planned from the day after it and so is refused on every run: on the
      free tier such a file is never brought up to date. */
  lemma PolygonStaleFileRefused(last: Option<int>, today: int)
    ensures last.None? ==> FreeTierAllows(false, PolygonPlan(last, today).start, today)
    ensures last.Some? && last.value + 1 < today - PolygonLookbackDays ==>
      PolygonPlan(last, today).Fetch? && !FreeTierAllows(false, PolygonPlan(last, today).start, today)
  {
  }

  /** Databento `main`: a missing file is skipped; a fresh file is skipped; otherwise request from
      the later of the day after the last stored day and the configured start (for an empty file, the
      later of the configured start and 2024-01-01) through today, unless that start is after today. */
  function DatabentoPlan(exists_: bool, last: Option<int>, today: int, baseStart: int): (p: Plan)
    ensures p == Skip(FileMissing) <==> !exists_
    ensures p == Skip(UpToDate) <==> exists_ && last.Some? && last.value >= today - 1
    ensures p == Skip(StartAfterEnd) <==>
      && exists_ && !(last.Some? && last.value >= today - 1)
      && (baseStart > today || (last.None? && Ordinal(DatabentoDefaultStart) > today))
    ensures p.Fetch? ==> p.start <= p.end == today
    ensures p.Fetch? && last.Some? ==>
      && p.start >= last.value + 1 && p.start >= baseStart
      && (p.start == last.value + 1 || p.start == baseStart)
    ensures p.Fetch? && last.None? ==>
      && p.start >= Ordinal(DatabentoDefaultStart) && p.start >= baseStart
      && (p.start == Ordinal(DatabentoDefaultStart) || p.start == baseStart)
  {
    if !exists_ then Skip(FileMissing)
    else if last.Some? && last.value >= today - 1 then Skip(UpToDate)
    else
      var start :=
        if last.None? then Max(baseStart, Ordinal(DatabentoDefaultStart))
        else Max(last.value + 1, baseStart);
      if start > today then Skip(StartAfterEnd) else Fetch(start, today)
  }

  function Max(a: int, b: int): int
  {
    if a >= b then a else b
  }

  /** Unlike Polygon's, the Databento `start > end` guard is live, but only when the configured
      start (or 2024-01-01 for an empty file) lies after today. */
  lemma DatabentoStartAfterEnd(last: Option<int>, today: int, baseStart: int)
    ensures DatabentoPlan(true, last, today, baseStart) == Skip(StartAfterEnd) ==>
      baseStart > today || (last.None? && Ordinal(DatabentoDefaultStart) > today)
  {
  }

  /** One qualifying file as the Polygon `main` loop sees it. */
  datatype CsvFile = CsvFile(name: string, isFile: bool, rows: seq<CsvRow>)

  datatype FilePlan = FilePlan(symbol: string, plan: Plan)

  /** The Polygon `main` loop over the sorted directory listing. Reading a malformed last date
      raises out of `main`, so planning stops at the first such file and reports its error. */
  function PolygonRun(files: seq<CsvFile>, today: int): (r: (seq<FilePlan>, Option<ReadError>))
    ensures RunFollows(r, QualifyingFiles(files), today)
    ensures forall i :: 0 <= i < |r.0| ==> r.0[i].plan != Skip(StartAfterEnd)
  {
    if |files| == 0 then ([], None)
    else
      var f := files[0];
      if !IsCapitalizedOneMinuteFile(f.isFile, f.name) then
        assert QualifyingFiles(files) == QualifyingFiles(files[1..]);
        PolygonRun(files[1..], today)
      else
        var q := QualifyingFiles(files[1..]);
        assert QualifyingFiles(files) == [f] + q;
        match LastDataDate(f.rows)
        case Err(e) =>
          assert ([f] + q)[0] == f;
          ([], Some(e))
        case Ok(last) =>
          PolygonStartAfterEndUnreachable(last, today);
          var rest := PolygonRun(files[1..], today);
          var plan := FilePlan(Symbol(f.name), PolygonPlan(last, today));
          RunCons(plan, rest, f, q, today);
          ([plan] + rest.0, rest.1)
  }

  /** The outcome `r` of a run over the qualifying files `q`: the plans follow the files in order;
      the run completes exactly when every file is planned, and otherwise its error is the one the
      first unplanned file's last date raises. */
  predicate RunFollows(r: (seq<FilePlan>, Option<ReadError>), q: seq<CsvFile>, today: int)
  {
    && PlansFollow(r.0, q, today)
    && (r.1.None? <==> |r.0| == |q|)
    && (r.1.Some? ==> LastDataDate(q[|r.0|].rows) == Err(r.1.value))
  }

  lemma RunCons(plan: FilePlan, rest: (seq<FilePlan>, Option<ReadError>), f: CsvFile, q: seq<CsvFile>, today: int)
    requires RunFollows(rest, q, today)
    requires EndsWith(f.name, OneMinuteSuffix) && LastDataDate(f.rows).Ok?
    requires plan == FilePlan(Symbol(f.name), PolygonPlan(LastDataDate(f.rows).value, today))
    ensures RunFollows(([plan] + rest.0, rest.1), [f] + q, today)
  {
    PlansShift(plan, rest.0, f, q, today);
    if rest.1.Some? {
      assert ([f] + q)[|rest.0| + 1] == q[|rest.0|];
    }
  }

  /** Every file in `q` qualifies and the first `|plans|` of them read cleanly and are planned
      by `plans`, one plan per file in order. */
  predicate PlansFollow(plans: seq<FilePlan>, q: seq<CsvFile>, today: int)
  {
    && |plans| <= |q|
    && forall i :: 0 <= i < |plans| ==>
         && EndsWith(q[i].name, OneMinuteSuffix)
         && LastDataDate(q[i].rows).Ok?
         && plans[i] == FilePlan(Symbol(q[i].name), PolygonPlan(LastDataDate(q[i].rows).value, today))
  }

  lemma PlansShift(plan: FilePlan, plans: seq<FilePlan>, f: CsvFile, q: seq<CsvFile>, today: int)
    requires PlansFollow(plans, q, today)
    requires EndsWith(f.name, OneMinuteSuffix) && LastDataDate(f.rows).Ok?
    requires plan == FilePlan(Symbol(f.name), PolygonPlan(LastDataDate(f.rows).value, today))
    ensures PlansFollow([plan] + plans, [f] + q, today)
  {
    var p, fs := [plan] + plans, [f] + q;
    forall i | 0 <= i < |p|
      ensures EndsWith(fs[i].name, OneMinuteSuffix) && LastDataDate(fs[i].rows).Ok?
      ensures p[i] == FilePlan(Symbol(fs[i].name), PolygonPlan(LastDataDate(fs[i].rows).value, today))
    {
      if i > 0 {
        assert p[i] == plans[i - 1] && fs[i] == q[i - 1];
      }
    }
  }

  /** `find_existing_capitalized_files` over a listing already in sorted order: exactly the
      qualifying files, in listing order. */
  function QualifyingFiles(files: seq<CsvFile>): (q: seq<CsvFile>)
    ensures |q| <= |files|
    ensures forall f :: f in q ==> f in files && IsCapitalizedOneMinuteFile(f.isFile, f.name)
    ensures forall i :: 0 <= i < |files| && IsCapitalizedOneMinuteFile(files[i].isFile, files[i].name) ==>
      files[i] in q
  {
    if |files| == 0 then []
    else if IsCapitalizedOneMinuteFile(files[0].isFile, files[0].name) then [files[0]] + QualifyingFiles(files[1..])
    else QualifyingFiles(files[1..])
  }

  /** A malformed file stops the whole run: no later file is planned, even a well-formed one. */
  lemma {:induction false} MalformedFileStopsRun(before: seq<CsvFile>, bad: CsvFile, after: seq<CsvFile>, today: int)
    requires IsCapitalizedOneMinuteFile(bad.isFile, bad.name) && LastDataDate(bad.rows).Err?
    ensures PolygonRun(before + [bad] + after, today).1.Some?
    ensures |PolygonRun(before + [bad] + after, today).0| <= |before|
    decreases |before|
  {
    if |before| == 0 {
      assert before + [bad] + after == [bad] + after;
    } else {
      assert (before + [bad] + after)[1..] == before[1..] + [bad] + after;
      MalformedFileStopsRun(before[1..], bad, after, today);
    }
  }

  /** Filtering a listing filters each part in place, and a single file is kept exactly when it
      qualifies: together these pin the result down as the qualifying files in listing order. */
  lemma {:induction false} QualifyingFilesConcat(a: seq<CsvFile>, b: seq<CsvFile>)
    ensures QualifyingFiles(a + b) == QualifyingFiles(a) + QualifyingFiles(b)
    decreases |a|
  {
    if |a| == 0 {
      assert a + b == b;
    } else {
      assert (a + b)[1..] == a[1..] + b;
      QualifyingFilesConcat(a[1..], b);
    }
  }

  lemma QualifyingFilesSingle(f: CsvFile)
    ensures QualifyingFiles([f]) == if IsCapitalizedOneMinuteFile(f.isFile, f.name) then [f] else []
  {
  }
}

=== FILE: polygon_fetch.dfy ===
/** The Polygon REST client of `polygon_downloader.py`: the minimum-interval rate limiter, `apiKey=`
    suffixing, the bounded retry on HTTP 429 in `get_polygon_data`, the cursor pagination and the
    download-process-merge sequence of `download_and_merge_data`.

    The remote API is an oracle `server(n, request)`: the reply to the `n`-th request of the run.
    Requests take no time; the monotonic clock moves only by sleeps, and a sleep lasts exactly as
    long as asked. */
module PolygonFetch {
  import opened Common
  import opened Text
  import opened Bars
  import opened Merge
  import opened Planner
  import opened PolygonNormalize

  const FreeTierInterval: real := 12.0
  const MaxRetries: nat := 5
  const MaxBatches: nat := 500

  /** `RATE_LIMIT_INTERVAL`: no spacing on a paid plan, 12 s (five requests a minute) on the free tier. */
  function RateLimitInterval(paid: bool): (interval: real)
    ensures paid <==> interval <= 0.0
  {
    if paid then 0.0 else FreeTierInterval
  }

  function MaxReal(a: real, b: real): real
  {
    if a >= b then a else b
  }

  /** The monotonic clock, `_LAST_REQUEST_TS`, and how many requests the run has sent. */
  datatype Session = Session(clock: real, lastRequest: real, sent: nat)

  /** `respect_polygon_rate_limit`: sleep just long enough that `interval` seconds separate this
      request from the previous one, then record the time. */
  function RespectRateLimit(interval: real, s: Session): (s': Session)
    ensures s'.sent == s.sent
    ensures interval <= 0.0 ==> s' == s
    ensures interval > 0.0 ==> s'.lastRequest == s'.clock
    ensures interval > 0.0 ==> s'.lastRequest >= s.lastRequest + interval
    ensures interval > 0.0 ==> s'.clock == MaxReal(s.clock, s.lastRequest + interval)
  {
    if interval <= 0.0 then s
    else
      var wait := interval - (s.clock - s.lastRequest);
      if wait > 0.0 then Session(s.clock + wait, s.clock + wait, s.sent)
      else Session(s.clock, s.clock, s.sent)
  }

  /** Successive requests through the limiter are at least `interval` apart, whatever happened in
      between: the recorded times of two calls differ by `interval` or more. */
  lemma RateLimitSpacing(interval: real, s: Session, elapsed: real)
    requires interval > 0.0 && elapsed >= 0.0
    ensures var s1 := RespectRateLimit(interval, s);
      var s2 := RespectRateLimit(interval, s1.(clock := s1.clock + elapsed));
      s2.lastRequest >= s1.lastRequest + interval && s2.clock >= s1.clock
  {
  }

  /** Appends `apiKey=<key>` to a URL that lacks it, joined by `&` when the URL already has a query
      (`?`) and by `?` otherwise. */
  function ApiKeySuffixed(url: string, key: string): (r: string)
    ensures StartsWith(r, url) && Contains(r, "apiKey=")
    ensures Contains(url, "apiKey=") ==> r == url
    ensures !Contains(url, "apiKey=") ==>
      (r[|url|..] == ['&'] + "apiKey=" + key <==> '?' in url)
    ensures !Contains(url, "apiKey=") ==>
      (r[|url|..] == ['?'] + "apiKey=" + key <==> '?' !in url)
  {
    if Contains(url, "apiKey=") then url
    else
      var sep := if '?' in url then '&' else '?';
      var tail := [sep] + "apiKey=" + key;
      var r := url + tail;
      assert r[|url|..] == tail && tail[0] == sep;
      assert (['&'] + "apiKey=" + key)[0] == '&' && (['?'] + "apiKey=" + key)[0] == '?';
      assert r[|url| + 1..][..7] == "apiKey=";
      assert StartsWith(r[|url| + 1..], "apiKey=");
      r
  }

  /** Suffixing is idempotent: a URL that went through it once is left alone the second time. */
  lemma ApiKeySuffixIdempotent(url: string, key: string)
    ensures ApiKeySuffixed(ApiKeySuffixed(url, key), key) == ApiKeySuffixed(url, key)
  {
  }

  /** The first request of a download (the aggregates endpoint with `adjusted=false`, `sort=asc`,
      `limit=50000` and the key as query parameters), or a follow-up `next_url`. */
  datatype Request = Aggregates(ticker: string, from: int, to: int, key: string) | Follow(url: string)

  /** The `Retry-After` header of a 429: absent, a number, or text `float()` rejects. */
  datatype RetryAfter = NoHeader | Seconds(value: real) | Malformed

  /** The body of a reply: not JSON, or an object whose `results` (absent or null read as empty)
      and `next_url` (absent or null read as `None`) matter here. */
  datatype Body = NotJson | Json(results: seq<Aggregate>, nextUrl: Option<string>)

  /** A `requests.get` outcome: a `RequestException` before any reply, or a status line. */
  datatype Reply = TransportError | Http(status: int, retryAfter: RetryAfter, body: Body)

  type Server = (nat, Request) -> Reply

  predicate Throttled(r: Reply)
  {
    r.Http? && r.status == 429
  }

  /** `raise_for_status` raises on 4xx and 5xx. */
  predicate Failed(r: Reply)
  {
    r.TransportError? || (!Throttled(r) && (400 <= r.status < 600 || r.body.NotJson?))
  }

  predicate Delivered(r: Reply)
  {
    !Throttled(r) && !Failed(r)
  }

  /** What `get_polygon_data` returns: a page of results and the keyed cursor to the next page. */
  datatype Batch = Batch(results: seq<Aggregate>, nextUrl: Option<string>)

  const NoBatch: Batch := Batch([], None)

  /** The wait after a 429: the `Retry-After` value if it parses, else the interval (or 12 s when the
      interval is zero), and never less than the interval or one second. */
  function Backoff(hint: RetryAfter, interval: real): (w: real)
    ensures w >= 1.0 && w >= interval
    ensures hint.Seconds? ==> w >= hint.value
    ensures !hint.Seconds? ==> w >= (if interval != 0.0 then interval else FreeTierInterval)
    ensures w == 1.0 || w == interval || (hint.Seconds? && w == hint.value) ||
      (!hint.Seconds? && w == (if interval != 0.0 then interval else FreeTierInterval))
  {
    var base := if hint.Seconds? then hint.value else if interval != 0.0 then interval else FreeTierInterval;
    MaxReal(MaxReal(base, interval), 1.0)
  }

  /** The `next_url` handed back: keyed unless it is missing, empty, or already carries a key. */
  function KeyedCursor(next: Option<string>, key: string): (r: Option<string>)
    ensures r.None? <==> next.None?
    ensures next.Some? && next.value == "" ==> r == Some("")
    ensures next.Some? && next.value != "" ==> r == Some(ApiKeySuffixed(next.value, key))
  {
    match next
    case None => None
    case Some(u) => if u == "" then Some("") else Some(ApiKeySuffixed(u, key))
  }

  /** The reply to the `i`-th request counted from `first`. */
  function ReplyAt(server: Server, request: Request, first: nat, i: nat): Reply
  {
    server(first + i, request)
  }

  /** The outcome of one `get_polygon_data` call: the batch, the session after it, and the
      departure time of every HTTP request it sent. */
  datatype Fetched = Fetched(batch: Batch, session: Session, departures: seq<real>)

  /** The retry loop of `get_polygon_data` with `remaining` attempts left. Every attempt first passes
      the rate limiter; a 429 sleeps for the back-off and tries again; a transport error, an HTTP
      error or a non-JSON body ends the call with nothing; a good body ends it with its results. */
  function Attempts(server: Server, interval: real, request: Request, key: string, s: Session, remaining: nat): (f: Fetched)
    ensures |f.departures| <= remaining
    ensures remaining > 0 <==> |f.departures| > 0
    ensures f.session.sent == s.sent + |f.departures|
    ensures f.session.clock >= s.clock
    ensures |f.departures| > 0 ==> f.departures[0] >= s.clock
    ensures interval > 0.0 && |f.departures| > 0 ==> f.departures[0] >= s.lastRequest + interval
    ensures forall i {:trigger ReplyAt(server, request, s.sent, i)} :: 0 <= i < |f.departures| - 1 ==>
      Throttled(ReplyAt(server, request, s.sent, i)) &&
      f.departures[i + 1] >= f.departures[i] + Backoff(ReplyAt(server, request, s.sent, i).retryAfter, interval)
    ensures remaining == 0 ==> f.batch == NoBatch && f.session == s
    ensures |f.departures| > 0 ==>
      var last := server(s.sent + |f.departures| - 1, request);
      && (Throttled(last) ==> |f.departures| == remaining && f.batch == NoBatch)
      && (Failed(last) ==> f.batch == NoBatch)
      && (Delivered(last) ==> f.batch == Batch(last.body.results, KeyedCursor(last.body.nextUrl, key)))
    decreases remaining
  {
    if remaining == 0 then Fetched(NoBatch, s, [])
    else
      var s1 := RespectRateLimit(interval, s);
      var reply := server(s1.sent, request);
      var s2 := s1.(sent := s1.sent + 1);
      if Throttled(reply) then
        var s3 := s2.(clock := s2.clock + Backoff(reply.retryAfter, interval));
        var rest := Attempts(server, interval, request, key, s3, remaining - 1);
        var departures := [s1.clock] + rest.departures;
        assert s3.sent == s.sent + 1;
        assert forall i {:trigger ReplyAt(server, request, s.sent, i)} :: 1 <= i < |departures| - 1 ==>
          departures[i] == rest.departures[i - 1] && departures[i + 1] == rest.departures[i] &&
          ReplyAt(server, request, s.sent, i) == ReplyAt(server, request, s3.sent, i - 1);
        Fetched(rest.batch, rest.session, departures)
      else if Failed(reply) then Fetched(NoBatch, s2, [s1.clock])
      else Fetched(Batch(reply.body.results, KeyedCursor(reply.body.nextUrl, key)), s2, [s1.clock])
  }

  /** The request for a page: the aggregates query for the first page, the keyed cursor after. */
  function PageRequest(ticker: string, from: int, to: int, key: string, cursor: Option<string>): (r: Request)
    ensures cursor.None? <==> r.Aggregates?
    ensures r.Follow? ==> Contains(r.url, "apiKey=") && StartsWith(r.url, cursor.value)
  {
    match cursor
    case None => Aggregates(ticker, from, to, key)
    case Some(u) => Follow(ApiKeySuffixed(u, key))
  }

  /** `get_polygon_data`: at most five attempts. */
  function GetPolygonData(server: Server, interval: real, key: string, request: Request, s: Session): (f: Fetched)
    ensures 1 <= |f.departures| <= MaxRetries
    ensures f.session.sent == s.sent + |f.departures|
  {
    Attempts(server, interval, request, key, s, MaxRetries)
  }

  /** Whether the pagination loop asks for another page after this batch. */
  predicate Continues(b: Batch)
  {
    b.results != [] && b.nextUrl.Some? && b.nextUrl.value != ""
  }

  /** The cursor the `i`-th call of the pagination loop starts from. */
  function Cursor(batches: seq<Batch>, i: nat): Option<string>
    requires i <= |batches|
  {
    if i == 0 then None else batches[i - 1].nextUrl
  }

  /** One call of `get_polygon_data` from session `s` returns `b` and leaves the run in `s'`. */
  predicate Produces(server: Server, interval: real, key: string, request: Request, s: Session, b: Batch, s': Session)
  {
    var f := GetPolygonData(server, interval, key, request, s);
    f.batch == b && f.session == s'
  }

  /** All results of the batches, in order. */
  function Flatten(batches: seq<Batch>): (records: seq<Aggregate>)
    ensures forall a :: a in records ==> exists i :: 0 <= i < |batches| && a in batches[i].results
  {
    if |batches| == 0 then [] else Flatten(batches[..|batches| - 1]) + batches[|batches| - 1].results
  }

  /** `batches` and `sessions` are what successive calls of `get_polygon_data` returned, each call
      starting from the session the previous one left and the cursor it handed back. */
  predicate Chain(server: Server, interval: real, key: string, ticker: string, from: int, to: int,
                  batches: seq<Batch>, sessions: seq<Session>)
  {
    && |sessions| == |batches| + 1
    && forall i :: 0 <= i < |batches| ==>
         Produces(server, interval, key, PageRequest(ticker, from, to, key, Cursor(batches, i)), sessions[i], batches[i], sessions[i + 1])
  }

  lemma ChainSnoc(server: Server, interval: real, key: string, ticker: string, from: int, to: int,
                  batches: seq<Batch>, sessions: seq<Session>, b: Batch, s': Session)
    requires Chain(server, interval, key, ticker, from, to, batches, sessions)
    requires Produces(server, interval, key, PageRequest(ticker, from, to, key, Cursor(batches, |batches|)), sessions[|batches|], b, s')
    ensures Chain(server, interval, key, ticker, from, to, batches + [b], sessions + [s'])
  {
    var batches', sessions' := batches + [b], sessions + [s'];
    forall i | 0 <= i < |batches'|
      ensures Produces(server, interval, key, PageRequest(ticker, from, to, key, Cursor(batches', i)), sessions'[i], batches'[i], sessions'[i + 1])
    {
      ChainSnocAt(server, interval, key, ticker, from, to, batches, sessions, b, s', i);
    }
  }

  lemma ChainSnocAt(server: Server, interval: real, key: string, ticker: string, from: int, to: int,
                    batches: seq<Batch>, sessions: seq<Session>, b: Batch, s': Session, i: nat)
    requires Chain(server, interval, key, ticker, from, to, batches, sessions)
    requires Produces(server, interval, key, PageRequest(ticker, from, to, key, Cursor(batches, |batches|)), sessions[|batches|], b, s')
    requires i <= |batches|
    ensures Produces(server, interval, key, PageRequest(ticker, from, to, key, Cursor(batches + [b], i)), (sessions + [s'])[i], (batches + [b])[i], (sessions + [s'])[i + 1])
  {
    if i < |batches| {
      ChainSnocEarlier(server, interval, key, ticker, from, to, batches, sessions, b, s', i);
    } else {
      var bb, ss := batches + [b], sessions + [s'];
      assert Cursor(bb, i) == Cursor(batches, i);
      assert ss[i] == sessions[i] && bb[i] == b && ss[i + 1] == s';
    }
  }

  lemma ChainSnocEarlier(server: Server, interval: real, key: string, ticker: string, from: int, to: int,
                         batches: seq<Batch>, sessions: seq<Session>, b: Batch, s': Session, i: nat)
    requires Chain(server, interval, key, ticker, from, to, batches, sessions)
    requires i < |batches|
    ensures Produces(server, interval, key, PageRequest(ticker, from, to, key, Cursor(batches + [b], i)), (sessions + [s'])[i], (batches + [b])[i], (sessions + [s'])[i + 1])
  {
    var bb, ss := batches + [b], sessions + [s'];
    assert Cursor(bb, i) == Cursor(batches, i);
    assert ss[i] == sessions[i] && bb[i] == batches[i] && ss[i + 1] == sessions[i + 1];
  }

  /** The calls a pagination run made from `s0`: between one and 500 chained calls, every one but
      the last handing back a cursor to follow, and the last stopping the loop unless it was the
      500th. */
  predicate Paginated(server: Server, interval: real, key: string, ticker: string, from: int, to: int,
                      s0: Session, batches: seq<Batch>, sessions: seq<Session>)
  {
    && 1 <= |batches| <= MaxBatches
    && Chain(server, interval, key, ticker, from, to, batches, sessions) && sessions[0] == s0
    && (forall i :: 0 <= i < |batches| - 1 ==> Continues(batches[i]))
    && (|batches| < MaxBatches ==> !Continues(batches[|batches| - 1]))
  }

  /** The pagination loop of `download_and_merge_data`: page after page until a batch comes back
      empty (which is also how a failed call shows), a batch has no further cursor, or 500 calls have
      been made. The records gathered so far are kept when a later page fails. */
  method DownloadPages(server: Server, interval: real, key: string, ticker: string, from: int, to: int, s0: Session)
    returns (records: seq<Aggregate>, batches: seq<Batch>, sessions: seq<Session>)
    ensures Paginated(server, interval, key, ticker, from, to, s0, batches, sessions)
    ensures records == Flatten(batches)
  {
    records, batches, sessions := [], [], [s0];
    while true
      invariant |batches| <= MaxBatches
      invariant Chain(server, interval, key, ticker, from, to, batches, sessions) && sessions[0] == s0
      invariant forall i :: 0 <= i < |batches| ==> Continues(batches[i])
      invariant records == Flatten(batches)
      decreases MaxBatches - |batches|
    {
      if |batches| == MaxBatches {
        return;
      }
      var s := sessions[|batches|];
      var f := GetPolygonData(server, interval, key, PageRequest(ticker, from, to, key, Cursor(batches, |batches|)), s);
      ChainSnoc(server, interval, key, ticker, from, to, batches, sessions, f.batch, f.session);
      assert Flatten(batches + [f.batch]) == Flatten(batches) + f.batch.results;
      records := records + f.batch.results;
      batches := batches + [f.batch];
      sessions := sessions + [f.session];
      if !Continues(f.batch) {
        return;
      }
    }
  }

  /** What `download_and_merge_data` returns: `None` for the free-tier refusal, for no records and
      for no rows after processing; otherwise the processed frame, after merging it into the file. */
  datatype Download = RefusedFreeTier | NoData | EmptyAfterProcessing | Merged(processed: seq<Bar>, file: seq<Bar>)

  /** `download_and_merge_data` for the day range `[start, end]` (ordinals), `today` being the New
      York date it reads from the clock and `existing` the current contents of the output file. */
  method DownloadAndMerge(server: Server, paid: bool, key: string, ticker: string, start: int, end: int, today: int,
                          toLocal: int -> int, existing: Existing, s0: Session)
    returns (outcome: Download, records: seq<Aggregate>, batches: seq<Batch>, sessions: seq<Session>)
    ensures outcome == RefusedFreeTier <==> !FreeTierAllows(paid, start, today)
    ensures outcome == RefusedFreeTier ==> batches == [] && sessions == [s0]
    ensures outcome != RefusedFreeTier ==>
      Paginated(server, RateLimitInterval(paid), key, ticker, start, end, s0, batches, sessions)
    ensures records == Flatten(batches)
    ensures outcome == NoData <==> FreeTierAllows(paid, start, today) && records == []
    ensures outcome == EmptyAfterProcessing <==> records != [] && ProcessData(records, toLocal) == []
    ensures outcome.Merged? ==>
      && outcome.processed == ProcessData(records, toLocal) != []
      && outcome.file == AppendToCsv(existing, outcome.processed)
    ensures |sessions| == |batches| + 1 && sessions[|batches|].sent >= s0.sent
  {
    if !FreeTierAllows(paid, start, today) {
      return RefusedFreeTier, [], [], [s0];
    }
    records, batches, sessions := DownloadPages(server, RateLimitInterval(paid), key, ticker, start, end, s0);
    SentGrows(server, RateLimitInterval(paid), key, ticker, start, end, batches, sessions);
    if records == [] {
      return NoData, records, batches, sessions;
    }
    var processed := ProcessData(records, toLocal);
    if processed == [] {
      return EmptyAfterProcessing, records, batches, sessions;
    }
    outcome := Merged(processed, AppendToCsv(existing, processed));
  }

  /** The request counter never goes backwards along a chain of calls, and each call sends between
      one and five requests. */
  lemma {:induction false} SentGrows(server: Server, interval: real, key: string, ticker: string, from: int, to: int,
                                      batches: seq<Batch>, sessions: seq<Session>)
    requires Chain(server, interval, key, ticker, from, to, batches, sessions)
    ensures sessions[0].sent + |batches| <= sessions[|batches|].sent <= sessions[0].sent + MaxRetries * |batches|
    decreases |batches|
  {
    if |batches| > 0 {
      var k := |batches| - 1;
      assert Chain(server, interval, key, ticker, from, to, batches[..k], sessions[..k + 1]) by {
        forall i | 0 <= i < k
          ensures Produces(server, interval, key, PageRequest(ticker, from, to, key, Cursor(batches[..k], i)), sessions[..k + 1][i], batches[..k][i], sessions[..k + 1][i + 1])
        {
          assert Cursor(batches[..k], i) == Cursor(batches, i);
        }
      }
      SentGrows(server, interval, key, ticker, from, to, batches[..k], sessions[..k + 1]);
      assert Produces(server, interval, key, PageRequest(ticker, from, to, key, Cursor(batches, k)), sessions[k], batches[k], sessions[k + 1]);
    }
  }
}

=== FILE: polygon_normalize.dfy ===
/** `process_data` of the Polygon downloader: aggregates (UTC epoch milliseconds) become bars stamped
    with New York wall-clock time, restricted to the 04:00-19:59 extended session, with Polygon's
    short field names renamed to the CSV columns. */
module PolygonNormalize {
  import opened Common
  import opened Calendar
  import opened Bars

  /** One element of a response's `results`: `t` is Unix epoch milliseconds; `vw` and `n` may be
      missing from an aggregate. Prices and volume are kept as opaque text. */
  datatype Aggregate = Aggregate(
    t: int,
    o: string,
    h: string,
    l: string,
    c: string,
    v: string,
    vw: Option<string>,
    n: Option<string>)

  /** 1970-01-01T00:00 UTC on the model's time line. */
  const UnixEpoch: int := Midnight(719163)

  lemma UnixEpochIsJanuaryFirst1970()
    ensures Ordinal(Date(1970, 1, 1)) == 719163
    ensures UnixEpoch == Midnight(Ordinal(Date(1970, 1, 1)))
  {
  }

  /** `between_time("04:00", "19:59", inclusive="both")`: from 04:00:00.000 through 19:59:00.000. */
  const SessionOpen: int := 4 * 3_600_000
  const SessionClose: int := 19 * 3_600_000 + 59 * 60_000

  predicate InSession(local: int)
  {
    SessionOpen <= MillisOfDay(local) <= SessionClose
  }

  /** The New York wall-clock stamp of an aggregate; `toLocal` stands for the UTC to
      America/New_York conversion. */
  function LocalStamp(a: Aggregate, toLocal: int -> int): int
  {
    toLocal(UnixEpoch + a.t)
  }

  /** The rename table `o/h/l/c/v/vw/n -> open/high/low/close/volume/vwap/transactions`, with `day`
      the local date. */
  function ToBar(a: Aggregate, toLocal: int -> int): (b: Bar)
    ensures b.caldt == LocalStamp(a, toLocal) && b.day == DateOf(b.caldt)
    ensures b.open == a.o && b.high == a.h && b.low == a.l && b.close == a.c && b.volume == a.v
    ensures b.vwap == a.vw && b.transactions == a.n
  {
    var local := LocalStamp(a, toLocal);
    Bar(local, a.o, a.h, a.l, a.c, a.v, a.vw, a.n, DateOf(local))
  }

  /** Keeps, in input order, the renamed bars of the aggregates inside the session window. */
  function ProcessData(records: seq<Aggregate>, toLocal: int -> int): (rows: seq<Bar>)
    ensures |records| == 0 ==> rows == []
    ensures |rows| <= |records|
    ensures forall b :: b in rows ==> InSession(b.caldt) && b.day == DateOf(b.caldt)
    ensures forall b :: b in rows <==> exists a :: a in records && InSession(LocalStamp(a, toLocal)) && b == ToBar(a, toLocal)
  {
    if |records| == 0 then []
    else
      var rest := ProcessData(records[1..], toLocal);
      assert forall a :: a in records <==> a == records[0] || a in records[1..];
      if InSession(LocalStamp(records[0], toLocal)) then [ToBar(records[0], toLocal)] + rest else rest
  }

  /** Processing distributes over concatenation: processing the pages one at a time and
      concatenating gives the same rows as processing the accumulated records at once. */
  lemma {:induction false} ProcessDataConcat(x: seq<Aggregate>, y: seq<Aggregate>, toLocal: int -> int)
    ensures ProcessData(x + y, toLocal) == ProcessData(x, toLocal) + ProcessData(y, toLocal)
    decreases |x|
  {
    if |x| == 0 {
      assert x + y == y;
    } else {
      assert (x + y)[1..] == x[1..] + y;
      ProcessDataConcat(x[1..], y, toLocal);
    }
  }

  /** Bars stamped 04:00:00.000 and 19:59:00.000 are both kept, and one stamped a millisecond after
      19:59 is not. */
  lemma SessionBoundsInclusive(day: int)
    ensures InSession(Midnight(day) + SessionOpen)
    ensures InSession(Midnight(day) + SessionClose)
    ensures !InSession(Midnight(day) + SessionClose + 1)
    ensures !InSession(Midnight(day) + SessionOpen - 1)
  {
    MillisOfDayAt(day, SessionOpen);
    MillisOfDayAt(day, SessionClose);
    MillisOfDayAt(day, SessionClose + 1);
    MillisOfDayAt(day, SessionOpen - 1);
  }
}

=== FILE: schedule.dfy ===
/** Loop scheduling of the two TradingView exporters: the minute-of-day window test of
    `tv_downloader.py`, which wraps past midnight, and the two `next_loop_timestamp` functions,
    which pick the next `:50`-second tick.

    Times are New York wall-clock MICROseconds since 0001-01-01T00:00. Python adds a `timedelta` to
    an aware datetime on the wall clock and compares datetimes of one zone by wall time, so
    wall-clock arithmetic is exact here. A tick is the instant `:50.000000` of minute `k`. */
module Schedule {
  import opened Common
  import Calendar

  const MicrosPerMinute: int := 60_000_000
  const TickSecond: int := 50_000_000
  const MinutesPerDay: int := 1440

  /** A `datetime.time` with zero seconds and microseconds, as the window bounds always are. */
  datatype ClockTime = ClockTime(hour: int, minute: int)

  predicate ValidClock(t: ClockTime)
  {
    0 <= t.hour < 24 && 0 <= t.minute < 60
  }

  /** `_minutes_since_midnight`. */
  function MinutesSinceMidnight(t: ClockTime): (m: int)
    ensures ValidClock(t) ==> 0 <= m < MinutesPerDay
  {
    t.hour * 60 + t.minute
  }

  /** Distinct valid clock times have distinct minute numbers. */
  lemma MinutesSinceMidnightInjective(a: ClockTime, b: ClockTime)
    requires ValidClock(a) && ValidClock(b)
    ensures MinutesSinceMidnight(a) == MinutesSinceMidnight(b) <==> a == b
  {
  }

  /** The optional loop window `(loop_start_time, loop_end_time)`. */
  datatype Window = Window(start: Option<ClockTime>, end: Option<ClockTime>)

  const NoWindow: Window := Window(None, None)

  /** `_within_window` on the minute of day `m` of a candidate. */
  predicate Within(m: int, w: Window)
  {
    if w.start.None? && w.end.None? then true
    else if w.start.Some? && w.end.Some? then
      var s, e := MinutesSinceMidnight(w.start.value), MinutesSinceMidnight(w.end.value);
      if s == e then true
      else if s < e then s <= m <= e
      else m >= s || m <= e
    else if w.start.Some? then m >= MinutesSinceMidnight(w.start.value)
    else m <= MinutesSinceMidnight(w.end.value)
  }

  /** A window whose start is after its end wraps midnight: it is everything except the minutes
      strictly between the end and the start. */
  lemma WrappingWindowIsComplement(m: int, s: ClockTime, e: ClockTime)
    requires MinutesSinceMidnight(s) > MinutesSinceMidnight(e)
    ensures Within(m, Window(Some(s), Some(e))) <==>
      !(MinutesSinceMidnight(e) < m < MinutesSinceMidnight(s))
  {
  }

  /** Equal bounds, or no bounds at all, admit every minute. */
  lemma DegenerateWindowsAdmitAll(m: int, t: ClockTime)
    ensures Within(m, NoWindow)
    ensures Within(m, Window(Some(t), Some(t)))
  {
  }

  /** Every window of valid times admits some minute of the day. */
  function WitnessMinute(w: Window): (m: int)
    requires w.start.Some? ==> ValidClock(w.start.value)
    requires w.end.Some? ==> ValidClock(w.end.value)
    ensures 0 <= m < MinutesPerDay && Within(m, w)
  {
    if w.start.Some? then MinutesSinceMidnight(w.start.value)
    else if w.end.Some? then MinutesSinceMidnight(w.end.value)
    else 0
  }

  /** The instant of the `:50` tick of minute `k`. */
  function Tick(k: int): int
  {
    k * MicrosPerMinute + TickSecond
  }

  /** Minute `k` counted from 0001-01-01T00:00 and its minute of the day. */
  function MinuteOfDay(k: int): (m: int)
    ensures 0 <= m < MinutesPerDay
  {
    k % MinutesPerDay
  }

  /** The minute holding an instant. */
  function MinuteOf(instant: int): int
  {
    instant / MicrosPerMinute
  }

  lemma TickMinute(k: int)
    ensures MinuteOf(Tick(k)) == k && Tick(k) % MicrosPerMinute == TickSecond
  {
    Calendar.DivUnique(Tick(k), k, TickSecond, MicrosPerMinute);
  }

  /** Ticks are strictly increasing in the minute number. */
  lemma TickMonotone(j: int, k: int)
    ensures j < k <==> Tick(j) < Tick(k)
  {
  }

  /** The loop of `next_loop_timestamp`: the first of `remaining` consecutive minutes from `k`
      whose minute of day is in the window. */
  function FindTick(k: int, w: Window, remaining: nat): (r: Option<int>)
    ensures r.Some? ==> k <= r.value < k + remaining && Within(MinuteOfDay(r.value), w)
    ensures r.Some? ==> forall j :: k <= j < r.value ==> !Within(MinuteOfDay(j), w)
    ensures r.None? ==> forall j :: k <= j < k + remaining ==> !Within(MinuteOfDay(j), w)
    decreases remaining
  {
    if remaining == 0 then None
    else if Within(MinuteOfDay(k), w) then Some(k)
    else FindTick(k + 1, w, remaining - 1)
  }

  /** The minute of the first tick strictly after `now`. */
  function FirstTickAfter(now: int): (k: int)
    ensures Tick(k) > now && Tick(k - 1) <= now
  {
    var q := MinuteOf(now);
    if Tick(q) <= now then q + 1 else q
  }

  /** `tv_downloader.next_loop_timestamp`: the first `:50` tick after `now` whose minute lies in the
      window, searching 2 * 24 * 60 minutes; `None` is the `RuntimeError`. */
  function NextLoopTimestamp(now: int, w: Window): (r: Option<int>)
    ensures r.Some? ==> r.value > now && r.value % MicrosPerMinute == TickSecond
    ensures r.Some? ==> Within(MinuteOfDay(MinuteOf(r.value)), w)
    ensures r.Some? ==> forall k :: now < Tick(k) < r.value ==> !Within(MinuteOfDay(k), w)
  {
    var first := FirstTickAfter(now);
    match FindTick(first, w, 2 * MinutesPerDay)
    case None => None
    case Some(k) =>
      TickMinute(k);
      forall j | now < Tick(j) < Tick(k)
        ensures !Within(MinuteOfDay(j), w)
      {
        TickMonotone(first - 1, j);
        TickMonotone(j, k);
      }
      Some(Tick(k))
  }

  /** The `RuntimeError` is unreachable: every window of valid times admits a minute of the day,
      and 1440 consecutive minutes cover every minute of the day. */
  lemma NextLoopTimestampAlwaysFound(now: int, w: Window)
    requires w.start.Some? ==> ValidClock(w.start.value)
    requires w.end.Some? ==> ValidClock(w.end.value)
    ensures NextLoopTimestamp(now, w).Some?
    ensures NextLoopTimestamp(now, w).value <= now + MinutesPerDay * MicrosPerMinute
  {
    var first := FirstTickAfter(now);
    var m := WitnessMinute(w);
    var j := first + (m - MinuteOfDay(first)) % MinutesPerDay;
    assert MinuteOfDay(j) == m by {
      ModShift(first, m);
    }
    var r := FindTick(first, w, 2 * MinutesPerDay);
    assert r.Some?;
    assert r.value <= j;
    TickMonotone(r.value, j);
    TickMonotone(first - 1, j - MinutesPerDay + 1);
  }

  lemma ModShift(k: int, m: int)
    requires 0 <= m < MinutesPerDay
    ensures MinuteOfDay(k + (m - MinuteOfDay(k)) % MinutesPerDay) == m
  {
    var d := (m - k % MinutesPerDay) % MinutesPerDay;
    var q := k / MinutesPerDay;
    assert k == q * MinutesPerDay + k % MinutesPerDay;
    if m >= k % MinutesPerDay {
      assert d == m - k % MinutesPerDay;
      Calendar.DivUnique(k + d, q, m, MinutesPerDay);
    } else {
      Calendar.DivUnique(m - k % MinutesPerDay, -1, m - k % MinutesPerDay + MinutesPerDay, MinutesPerDay);
      assert d == m - k % MinutesPerDay + MinutesPerDay;
      Calendar.DivUnique(k + d, q + 1, m, MinutesPerDay);
    }
  }

  /** `tv_data.next_loop_timestamp`: the next `:50` tick strictly after `now`. */
  function NextTick(now: int): (r: int)
    ensures r > now && r <= now + MicrosPerMinute && r % MicrosPerMinute == TickSecond
    ensures forall k :: Tick(k) > now ==> Tick(k) >= r
  {
    var k := FirstTickAfter(now);
    TickMinute(k);
    forall j | Tick(j) > now
      ensures Tick(j) >= Tick(k)
    {
      TickMonotone(k - 1, j);
    }
    Tick(k)
  }

  /** Without a window both exporters schedule the same next run. */
  lemma UnboundedSchedulesAgree(now: int)
    ensures NextLoopTimestamp(now, NoWindow) == Some(NextTick(now))
  {
    assert Within(MinuteOfDay(FirstTickAfter(now)), NoWindow);
  }
}

=== FILE: text.dfy ===
/** String primitives of Python's `str` that the modelled code relies on:
    `strip`, `lower`, `endswith`, `in`, `split`, `rstrip(ch)` and digit fields. */
module Text {
  import Common


  /** Python's `str.isspace` for a single character: the Unicode whitespace set. */
  predicate IsSpace(c: char)
  {
    || ('\t' <= c <= '\r')
    || ('\U{1c}' <= c <= ' ')
    || c == '\U{85}' || c == '\U{a0}' || c == '\U{1680}'
    || ('\U{2000}' <= c <= '\U{200a}')
    || c == '\U{2028}' || c == '\U{2029}' || c == '\U{202f}' || c == '\U{205f}' || c == '\U{3000}'
  }

  predicate IsDigit(c: char)
  {
    '0' <= c <= '9'
  }

  predicate AllDigits(s: string)
  {
    forall i :: 0 <= i < |s| ==> IsDigit(s[i])
  }

  /** `str.lower` restricted to ASCII letters. */
  function LowerChar(c: char): char
  {
    if 'A' <= c <= 'Z' then (c as int + 32) as char else c
  }

  function Lower(s: string): (r: string)
    ensures |r| == |s|
    ensures forall i :: 0 <= i < |s| ==> r[i] == LowerChar(s[i])
  {
    if |s| == 0 then [] else [LowerChar(s[0])] + Lower(s[1..])
  }

  /** Text without upper-case ASCII letters is its own `lower`. */
  lemma LowerUnchanged(s: string)
    requires forall i :: 0 <= i < |s| ==> !('A' <= s[i] <= 'Z')
    ensures Lower(s) == s
  {
  }

  predicate StartsWith(s: string, prefix: string)
  {
    |prefix| <= |s| && s[..|prefix|] == prefix
  }

  predicate EndsWith(s: string, suffix: string)
  {
    |suffix| <= |s| && s[|s| - |suffix|..] == suffix
  }

  /** Python's substring test `t in s`. */
  predicate Contains(s: string, t: string)
  {
    exists i :: 0 <= i <= |s| - |t| && StartsWith(s[i..], t)
  }

  /** A string that ends with `t` contains it. */
  lemma EndingIsContained(s: string, t: string)
    requires EndsWith(s, t)
    ensures Contains(s, t)
  {
    var i := |s| - |t|;
    assert s[i..] == t;
    assert StartsWith(s[i..], t);
  }

  /** `str.lstrip()`: the longest suffix of `s` that does not start with whitespace. */
  function TrimStart(s: string): (r: string)
    ensures |r| <= |s| && r == s[|s| - |r|..]
    ensures forall i :: 0 <= i < |s| - |r| ==> IsSpace(s[i])
    ensures |r| > 0 ==> !IsSpace(r[0])
  {
    if |s| > 0 && IsSpace(s[0]) then TrimStart(s[1..]) else s
  }

  /** `str.rstrip()`: the longest prefix of `s` that does not end with whitespace. */
  function TrimEnd(s: string): (r: string)
    ensures |r| <= |s| && r == s[..|r|]
    ensures forall i :: |r| <= i < |s| ==> IsSpace(s[i])
    ensures |r| > 0 ==> !IsSpace(r[|r| - 1])
  {
    if |s| > 0 && IsSpace(s[|s| - 1]) then TrimEnd(s[..|s| - 1]) else s
  }

  /** `str.strip()`. */
  function Strip(s: string): (r: string)
    ensures |r| > 0 ==> !IsSpace(r[0]) && !IsSpace(r[|r| - 1])
    ensures |r| <= |s|
  {
    TrimEnd(TrimStart(s))
  }

  /** Stripping leaves nothing exactly when the string is all whitespace. */
  lemma StripEmptyIffBlank(s: string)
    ensures Strip(s) == [] <==> forall i :: 0 <= i < |s| ==> IsSpace(s[i])
  {
    var t := TrimStart(s);
    if Strip(s) == [] {
      assert |t| == 0;
    } else {
      var j := |s| - |t|;
      assert |t| > 0 && !IsSpace(t[0]) && t[0] == s[j];
    }
  }

  /** Text that neither starts nor ends with white space is its own `strip`. */
  lemma StripUnchanged(s: string)
    requires |s| > 0 ==> !IsSpace(s[0]) && !IsSpace(s[|s| - 1])
    ensures Strip(s) == s
  {
    assert TrimStart(s) == s;
  }

  /** `str.rstrip(c)`: drop every trailing `c`. */
  function TrimEndChar(s: string, c: char): (r: string)
    ensures |r| <= |s| && r == s[..|r|]
    ensures forall i :: |r| <= i < |s| ==> s[i] == c
    ensures |r| > 0 ==> r[|r| - 1] != c
  {
    if |s| > 0 && s[|s| - 1] == c then TrimEndChar(s[..|s| - 1], c) else s
  }

  /** `s.replace(c, "")`: every occurrence of `c` removed, the rest kept in order. */
  function RemoveChar(s: string, c: char): (r: string)
    ensures c !in r
    ensures forall x :: x in r ==> x in s
  {
    if |s| == 0 then []
    else if s[0] == c then RemoveChar(s[1..], c)
    else [s[0]] + RemoveChar(s[1..], c)
  }

  /** Removing a character that does not occur changes nothing. */
  lemma {:induction false} RemoveAbsentChar(s: string, c: char)
    requires c !in s
    ensures RemoveChar(s, c) == s
    decreases |s|
  {
    if |s| > 0 {
      assert c !in s[1..];
      RemoveAbsentChar(s[1..], c);
    }
  }

  /** Joins pieces with one separator between neighbours: the inverse of `Split`. */
  function Join(parts: seq<string>, sep: char): string
  {
    if |parts| == 0 then []
    else if |parts| == 1 then parts[0]
    else parts[0] + [sep] + Join(parts[1..], sep)
  }

  /** Index of the first `c` in `s`, or `|s|` when there is none. */
  function IndexOf(s: string, c: char): (k: nat)
    ensures k <= |s|
    ensures k < |s| ==> s[k] == c
    ensures forall i :: 0 <= i < k ==> s[i] != c
  {
    if |s| == 0 then 0
    else if s[0] == c then 0
    else 1 + IndexOf(s[1..], c)
  }

  /** Python's `s.split(sep)` for a one-character separator: always at least one piece,
      no piece holds the separator, and joining the pieces gives `s` back. */
  function Split(s: string, sep: char): (parts: seq<string>)
    ensures |parts| >= 1
    ensures forall i :: 0 <= i < |parts| ==> sep !in parts[i]
    ensures Join(parts, sep) == s
    decreases |s|
  {
    var k := IndexOf(s, sep);
    if k == |s| then
      assert s[..k] == s;
      [s]
    else
      var rest := Split(s[k + 1..], sep);
      assert sep !in s[..k];
      assert s == s[..k] + [sep] + s[k + 1..];
      [s[..k]] + rest
  }

  /** The numeric value of a string of ASCII digits. */
  function DigitsValue(s: string): (v: nat)
    requires AllDigits(s)
  {
    if |s| == 0 then 0 else DigitsValue(s[..|s| - 1]) * 10 + (s[|s| - 1] as int - '0' as int)
  }

  /** A `strptime` numeric field such as `%m`, `%H` or `%M`: the whole string must be one or two
      ASCII digits whose value lies in `[lo, hi]`. Each of those directives is a regular-expression
      alternation of one- and two-digit forms that, for the ranges used here, accepts exactly this. */
  function Field(s: string, lo: nat, hi: nat): (r: Common.Option<nat>)
    ensures r.Some? ==> 1 <= |s| <= 2 && AllDigits(s) && lo <= r.value <= hi
  {
    if 1 <= |s| <= 2 && AllDigits(s) && lo <= DigitsValue(s) <= hi then Common.Some(DigitsValue(s))
    else Common.None
  }

  function DigitChar(d: nat): (c: char)
    requires d < 10
    ensures IsDigit(c)
  {
    ('0' as int + d) as char
  }

  /** `n` written with exactly `width` digits, zero-padded on the left (`%02d`, `%04d`). */
  function PadDigits(n: nat, width: nat): (s: string)
    ensures |s| == width
    ensures AllDigits(s)
  {
    if width == 0 then [] else PadDigits(n / 10, width - 1) + [DigitChar(n % 10)]
  }

  /** Reading back a zero-padded number gives the number, when it fits in the width. */
  lemma {:induction false} PadDigitsValue(n: nat, width: nat, bound: nat)
    requires bound == Pow10(width) && n < bound
    ensures DigitsValue(PadDigits(n, width)) == n
    decreases width
  {
    if width > 0 {
      var s := PadDigits(n, width);
      assert s[..|s| - 1] == PadDigits(n / 10, width - 1);
      PadDigitsValue(n / 10, width - 1, Pow10(width - 1));
    }
  }

  /** Zero-padding the value of a digit string to the string's own length gives the string back. */
  lemma {:induction false} DigitsRoundTrip(s: string)
    requires AllDigits(s)
    ensures DigitsValue(s) < Pow10(|s|)
    ensures PadDigits(DigitsValue(s), |s|) == s
    decreases |s|
  {
    if |s| > 0 {
      var p := s[..|s| - 1];
      var c := s[|s| - 1];
      DigitsRoundTrip(p);
      var v := DigitsValue(s);
      var d := c as int - '0' as int;
      assert v == DigitsValue(p) * 10 + d && 0 <= d < 10;
      assert v / 10 == DigitsValue(p) && v % 10 == d;
      assert DigitChar(d) == c;
      assert s == p + [c];
    }
  }

  /** A number that can be written in `width` digits, one or two as a `strptime` field allows. */
  predicate Fits(n: nat, width: nat)
  {
    1 <= width <= 2 && n < Pow10(width)
  }

  /** A field reads exactly the numbers in range written with one or two digits, zero-padded to
      the width typed: `7` and `07` both read as 7. */
  lemma FieldIff(s: string, lo: nat, hi: nat, n: nat)
    ensures Field(s, lo, hi) == Common.Some(n) <==> lo <= n <= hi && Fits(n, |s|) && s == PadDigits(n, |s|)
  {
    if Field(s, lo, hi) == Common.Some(n) {
      DigitsRoundTrip(s);
    }
    if lo <= n <= hi && Fits(n, |s|) && s == PadDigits(n, |s|) {
      PadDigitsValue(n, |s|, Pow10(|s|));
    }
  }

  /** A two-digit field reads back the number it was padded from. */
  lemma PaddedFieldValue(n: nat, lo: nat, hi: nat)
    requires lo <= n <= hi < 100
    ensures Field(PadDigits(n, 2), lo, hi) == Common.Some(n)
  {
    FieldIff(PadDigits(n, 2), lo, hi, n);
  }

  function Pow10(k: nat): (p: nat)
    ensures p >= 1
  {
    if k == 0 then 1 else 10 * Pow10(k - 1)
  }
}

=== FILE: timeofday.dfy ===
/** `parse_time_of_day` of `tv_downloader.py`: a loop-window bound typed by the user, such as
    `09:55`, `9:55am`, `9pm`, `21` or `9:30 et`, becomes a clock time with zero seconds.

    `strptime` is modelled for the four patterns tried, in order: `%I:%M%p`, `%I%p`, `%H:%M`, `%H`.
    Each numeric field must be exactly one or two ASCII digits in range (`Text.Field`), and `%p`
    is `am` or `pm` (the input is lower-cased first). */
module TimeOfDay {
  import opened Common
  import opened Text
  import opened Schedule

  /** The two `ValueError`s: an empty value, and a value no pattern accepts. */
  datatype TimeError = EmptyTime | Unparseable

  /** The optional time-zone hints `ny`, `et`, `est` and `edt`; at most one is removed. */
  predicate ZoneHint(h: string)
  {
    h == "ny" || h == "et" || h == "est" || h == "edt"
  }

  /** The text ends with one of the hints. */
  predicate HasHint(text: string)
  {
    EndsWith(text, "ny") || EndsWith(text, "et") || EndsWith(text, "est") || EndsWith(text, "edt")
  }

  /** Removes the first hint the text ends with, in the order above, and the whitespace before it. */
  function DropZoneHint(text: string): (r: string)
    ensures !HasHint(text) ==> r == text
    ensures HasHint(text) ==> |r| < |text|
  {
    if EndsWith(text, "ny") then Strip(text[..|text| - 2])
    else if EndsWith(text, "et") then Strip(text[..|text| - 2])
    else if EndsWith(text, "est") then Strip(text[..|text| - 3])
    else if EndsWith(text, "edt") then Strip(text[..|text| - 3])
    else text
  }

  /** The text the patterns are tried on: stripped, lower-cased, hint removed, spaces removed. */
  function Normalize(value: string): string
  {
    RemoveChar(DropZoneHint(Lower(Strip(value))), ' ')
  }

  /** The meridiem as typed: `pm` or `am`. */
  function AmPm(pm: bool): string
  {
    if pm then "pm" else "am"
  }

  /** `%p`: `Some(true)` for `pm`, `Some(false)` for `am`. */
  function Meridiem(s: string): (r: Option<bool>)
    ensures r.Some? <==> s == AmPm(false) || s == AmPm(true)
    ensures r.Some? ==> s == AmPm(r.value)
  {
    if s == "am" then Some(false) else if s == "pm" then Some(true) else None
  }

  /** How `strptime` turns a 12-hour clock reading into an hour of the day: 12 am is hour 0 and
      every pm hour but 12 pm moves 12 hours on. */
  function To24(hour12: int, pm: bool): (h: int)
    requires 1 <= hour12 <= 12
    ensures 0 <= h < 24
    ensures pm <==> h >= 12
    ensures h % 12 == hour12 % 12
  {
    if pm && hour12 != 12 then hour12 + 12
    else if !pm && hour12 == 12 then 0
    else hour12
  }

  /** `%I:%M%p`. */
  function Parse12WithMinutes(t: string): (r: Option<ClockTime>)
    ensures r.Some? ==> ValidClock(r.value)
  {
    var k := IndexOf(t, ':');
    if k == |t| || |t[k + 1..]| < 2 then None
    else
      var rest := t[k + 1..];
      var hour := Field(t[..k], 1, 12);
      var minute := Field(rest[..|rest| - 2], 0, 59);
      var pm := Meridiem(rest[|rest| - 2..]);
      if hour.None? || minute.None? || pm.None? then None
      else Some(ClockTime(To24(hour.value, pm.value), minute.value))
  }

  /** `%I%p`. */
  function Parse12(t: string): (r: Option<ClockTime>)
    ensures r.Some? ==> ValidClock(r.value) && r.value.minute == 0
  {
    if |t| < 2 then None
    else
      var hour := Field(t[..|t| - 2], 1, 12);
      var pm := Meridiem(t[|t| - 2..]);
      if hour.None? || pm.None? then None
      else Some(ClockTime(To24(hour.value, pm.value), 0))
  }

  /** `%H:%M`. */
  function Parse24WithMinutes(t: string): (r: Option<ClockTime>)
    ensures r.Some? ==> ValidClock(r.value)
  {
    var k := IndexOf(t, ':');
    if k == |t| then None
    else
      var hour := Field(t[..k], 0, 23);
      var minute := Field(t[k + 1..], 0, 59);
      if hour.None? || minute.None? then None
      else Some(ClockTime(hour.value, minute.value))
  }

  /** `%H`. */
  function Parse24(t: string): (r: Option<ClockTime>)
    ensures r.Some? ==> ValidClock(r.value) && r.value.minute == 0
  {
    match Field(t, 0, 23)
    case Some(h) => Some(ClockTime(h, 0))
    case None => None
  }

  /** The four patterns tried in order on normalised text: the first that accepts it wins. */
  function ParsePatterns(t: string): (r: Result<ClockTime, TimeError>)
    ensures r.Ok? ==> ValidClock(r.value)
    ensures r.Err? ==> r.error == Unparseable
  {
    if Parse12WithMinutes(t).Some? then Ok(Parse12WithMinutes(t).value)
    else if Parse12(t).Some? then Ok(Parse12(t).value)
    else if Parse24WithMinutes(t).Some? then Ok(Parse24WithMinutes(t).value)
    else if Parse24(t).Some? then Ok(Parse24(t).value)
    else Err(Unparseable)
  }

  /** `parse_time_of_day`: blank text is the empty-value error; otherwise the patterns decide on
      the normalised text. */
  function ParseTimeOfDay(value: string): (r: Result<ClockTime, TimeError>)
    ensures r.Ok? ==> ValidClock(r.value)
    ensures r == Err(EmptyTime) <==> forall i :: 0 <= i < |value| ==> IsSpace(value[i])
  {
    StripEmptyIffBlank(value);
    if Lower(Strip(value)) == [] then Err(EmptyTime)
    else ParsePatterns(Normalize(value))
  }

  /** Text with a character that is not white space never reads as an empty time. */
  lemma NonBlankNotEmptyTime(value: string)
    requires |value| > 0 && !IsSpace(value[0])
    ensures ParseTimeOfDay(value) != Err(EmptyTime)
  {
  }

  // ----- The forms a user types -----

  /** The hour on a 12-hour clock face, and the meridiem, as `%I` and `%p` print them. */
  function Hour12(hour: int): int
  {
    if hour % 12 == 0 then 12 else hour % 12
  }

  function MeridiemText(hour: int): string
  {
    AmPm(hour >= 12)
  }

  /** `c` typed as `%I:%M%p`, the hour with `hw` digits and the minute with `mw`, as in `9:55am`. */
  function Typed12WithMinutes(c: ClockTime, hw: nat, mw: nat): string
    requires ValidClock(c)
  {
    PadDigits(Hour12(c.hour), hw) + ":" + PadDigits(c.minute, mw) + MeridiemText(c.hour)
  }

  /** `c` typed as `%I%p` with `hw` hour digits, as in `9pm`. */
  function Typed12(c: ClockTime, hw: nat): string
    requires ValidClock(c)
  {
    PadDigits(Hour12(c.hour), hw) + MeridiemText(c.hour)
  }

  /** `c` typed as `%H:%M`, as in `9:30` or `21:05`. */
  function Typed24WithMinutes(c: ClockTime, hw: nat, mw: nat): string
    requires ValidClock(c)
  {
    PadDigits(c.hour, hw) + ":" + PadDigits(c.minute, mw)
  }

  /** `c` typed as `%H`, as in `21`. */
  function Typed24(c: ClockTime, hw: nat): string
    requires ValidClock(c)
  {
    PadDigits(c.hour, hw)
  }

  /** `strftime("%H:%M")`, the form the menu echoes a bound back in. */
  function FormatHM(t: ClockTime): (s: string)
    requires ValidClock(t)
    ensures |s| == 5 && s[2] == ':'
  {
    Typed24WithMinutes(t, 2, 2)
  }

  /** `strftime("%I:%M%p")` with a lower-case meridiem, as in `09:55am`. */
  function Format12(t: ClockTime): (s: string)
    requires ValidClock(t)
    ensures |s| == 7 && s[2] == ':'
  {
    Typed12WithMinutes(t, 2, 2)
  }

  /** Printing an hour on the 12-hour face and reading it back with its meridiem gives the hour. */
  lemma To24OfHour12(hour: int)
    requires 0 <= hour < 24
    ensures 1 <= Hour12(hour) <= 12
    ensures Meridiem(MeridiemText(hour)) == Some(hour >= 12)
    ensures To24(Hour12(hour), hour >= 12) == hour
  {
  }

  /** Reading a 12-hour face and meridiem and printing the hour again gives the same face. */
  lemma Hour12OfTo24(hour12: int, pm: bool)
    requires 1 <= hour12 <= 12
    ensures Hour12(To24(hour12, pm)) == hour12 && MeridiemText(To24(hour12, pm)) == AmPm(pm)
  {
  }

  // ----- What each pattern accepts -----

  /** The first colon of digits followed by a colon is right after the digits. */
  lemma IndexOfColon(a: string, rest: string)
    requires AllDigits(a)
    ensures IndexOf(a + ":" + rest, ':') == |a|
  {
    var s := a + ":" + rest;
    assert s[|a|] == ':';
    assert forall i :: 0 <= i < |a| ==> s[i] == a[i];
  }

  /** Text without a colon has none to find. */
  lemma NoColon(s: string)
    requires ':' !in s
    ensures IndexOf(s, ':') == |s|
  {
  }

  /** `%H` accepts exactly an hour of the day written with one or two digits. */
  lemma Parse24Iff(t: string, c: ClockTime)
    ensures Parse24(t) == Some(c) <==> ValidClock(c) && c.minute == 0 && Fits(c.hour, |t|) && t == Typed24(c, |t|)
  {
    if c.hour >= 0 {
      FieldIff(t, 0, 23, c.hour);
    }
  }

  /** `%H:%M` accepts exactly an hour and a minute, each written with one or two digits, around a
      colon. */
  lemma Parse24WithMinutesIff(t: string, c: ClockTime)
    ensures Parse24WithMinutes(t) == Some(c) <==>
      ValidClock(c) && exists hw, mw :: Fits(c.hour, hw) && Fits(c.minute, mw) && t == Typed24WithMinutes(c, hw, mw)
  {
    if Parse24WithMinutes(t) == Some(c) {
      var hw, mw := Parse24WithMinutesShape(t, c);
    }
    if ValidClock(c) && exists hw, mw :: Fits(c.hour, hw) && Fits(c.minute, mw) && t == Typed24WithMinutes(c, hw, mw) {
      var hw, mw :| Fits(c.hour, hw) && Fits(c.minute, mw) && t == Typed24WithMinutes(c, hw, mw);
      ReadTyped24WithMinutes(c, hw, mw);
    }
  }

  /** The widths of the fields of a `%H:%M` reading. */
  lemma Parse24WithMinutesShape(t: string, c: ClockTime) returns (hw: nat, mw: nat)
    requires Parse24WithMinutes(t) == Some(c)
    ensures ValidClock(c) && Fits(c.hour, hw) && Fits(c.minute, mw) && t == Typed24WithMinutes(c, hw, mw)
  {
    var k := IndexOf(t, ':');
    var h, m := t[..k], t[k + 1..];
    assert Field(h, 0, 23) == Some(c.hour) && Field(m, 0, 59) == Some(c.minute);
    FieldIff(h, 0, 23, c.hour);
    FieldIff(m, 0, 59, c.minute);
    assert t == h + ":" + m;
    hw, mw := k, |m|;
  }

  lemma ReadTyped24WithMinutes(c: ClockTime, hw: nat, mw: nat)
    requires ValidClock(c) && Fits(c.hour, hw) && Fits(c.minute, mw)
    ensures Parse24WithMinutes(Typed24WithMinutes(c, hw, mw)) == Some(c)
  {
    var h, m := PadDigits(c.hour, hw), PadDigits(c.minute, mw);
    var t := h + ":" + m;
    IndexOfColon(h, m);
    assert t[..hw] == h && t[hw + 1..] == m;
    FieldIff(h, 0, 23, c.hour);
    FieldIff(m, 0, 59, c.minute);
  }

  /** `%I%p` accepts exactly a 12-hour face written with one or two digits followed by `am` or
      `pm`; 12am is midnight and 12pm is noon. */
  lemma Parse12Iff(t: string, c: ClockTime)
    ensures Parse12(t) == Some(c) <==>
      ValidClock(c) && c.minute == 0 && |t| >= 2 && Fits(Hour12(c.hour), |t| - 2) && t == Typed12(c, |t| - 2)
  {
    if Parse12(t) == Some(c) {
      var n := |t| - 2;
      var h12 := Field(t[..n], 1, 12).value;
      var pm := Meridiem(t[n..]).value;
      FieldIff(t[..n], 1, 12, h12);
      Hour12OfTo24(h12, pm);
      assert t == t[..n] + t[n..];
    }
    if ValidClock(c) && c.minute == 0 && |t| >= 2 && Fits(Hour12(c.hour), |t| - 2) && t == Typed12(c, |t| - 2) {
      ReadTyped12(c, |t| - 2);
    }
  }

  lemma ReadTyped12(c: ClockTime, hw: nat)
    requires ValidClock(c) && c.minute == 0 && Fits(Hour12(c.hour), hw)
    ensures Parse12(Typed12(c, hw)) == Some(c)
  {
    var h, mer := PadDigits(Hour12(c.hour), hw), MeridiemText(c.hour);
    var t := h + mer;
    assert t[..|t| - 2] == h && t[|t| - 2..] == mer;
    To24OfHour12(c.hour);
    FieldIff(h, 1, 12, Hour12(c.hour));
  }

  /** `%I:%M%p` accepts exactly a 12-hour face and a minute, each written with one or two digits,
      around a colon and followed by `am` or `pm`. */
  lemma Parse12WithMinutesIff(t: string, c: ClockTime)
    ensures Parse12WithMinutes(t) == Some(c) <==>
      ValidClock(c) && exists hw, mw :: Fits(Hour12(c.hour), hw) && Fits(c.minute, mw) && t == Typed12WithMinutes(c, hw, mw)
  {
    if Parse12WithMinutes(t) == Some(c) {
      var hw, mw := Parse12WithMinutesShape(t, c);
    }
    if ValidClock(c) && exists hw, mw :: Fits(Hour12(c.hour), hw) && Fits(c.minute, mw) && t == Typed12WithMinutes(c, hw, mw) {
      var hw, mw :| Fits(Hour12(c.hour), hw) && Fits(c.minute, mw) && t == Typed12WithMinutes(c, hw, mw);
      ReadTyped12WithMinutes(c, hw, mw);
    }
  }

  /** The widths of the fields of a `%I:%M%p` reading. */
  lemma Parse12WithMinutesShape(t: string, c: ClockTime) returns (hw: nat, mw: nat)
    requires Parse12WithMinutes(t) == Some(c)
    ensures ValidClock(c) && Fits(Hour12(c.hour), hw) && Fits(c.minute, mw) && t == Typed12WithMinutes(c, hw, mw)
  {
    var k := IndexOf(t, ':');
    var rest := t[k + 1..];
    var n := |rest| - 2;
    var hour, minute, pm := Field(t[..k], 1, 12), Field(rest[..n], 0, 59), Meridiem(rest[n..]);
    Assemble12WithMinutes(t[..k], rest[..n], rest[n..], hour.value, minute.value, pm.value);
    assert t == t[..k] + ":" + rest[..n] + rest[n..];
    hw, mw := k, n;
  }

  /** Fields that read as a 12-hour face, a minute and a meridiem spell the time they give. */
  lemma Assemble12WithMinutes(h: string, m: string, mer: string, hour12: nat, minute: nat, pm: bool)
    requires Field(h, 1, 12) == Some(hour12) && Field(m, 0, 59) == Some(minute) && Meridiem(mer) == Some(pm)
    ensures var c := ClockTime(To24(hour12, pm), minute);
      && ValidClock(c) && Fits(Hour12(c.hour), |h|) && Fits(c.minute, |m|)
      && h + ":" + m + mer == Typed12WithMinutes(c, |h|, |m|)
  {
    FieldIff(h, 1, 12, hour12);
    FieldIff(m, 0, 59, minute);
    Hour12OfTo24(hour12, pm);
  }

  lemma ReadTyped12WithMinutes(c: ClockTime, hw: nat, mw: nat)
    requires ValidClock(c) && Fits(Hour12(c.hour), hw) && Fits(c.minute, mw)
    ensures Parse12WithMinutes(Typed12WithMinutes(c, hw, mw)) == Some(c)
  {
    var h, m, mer := PadDigits(Hour12(c.hour), hw), PadDigits(c.minute, mw), MeridiemText(c.hour);
    var t := h + ":" + m + mer;
    AmPmShape(c.hour >= 12);
    assert t == h + ":" + (m + mer);
    IndexOfColon(h, m + mer);
    var rest := t[hw + 1..];
    assert rest == m + mer;
    assert rest[..|rest| - 2] == m && rest[|rest| - 2..] == mer;
    assert t[..hw] == h;
    To24OfHour12(c.hour);
    FieldIff(h, 1, 12, Hour12(c.hour));
    FieldIff(m, 0, 59, c.minute);
    assert Field(t[..hw], 1, 12) == Some(Hour12(c.hour));
    assert Field(rest[..|rest| - 2], 0, 59) == Some(c.minute);
    assert Meridiem(rest[|rest| - 2..]) == Some(c.hour >= 12);
  }

  /** Text ending in a digit has no meridiem, so neither 12-hour pattern accepts it. */
  lemma EndsInDigitNot12(t: string)
    requires |t| > 0 && IsDigit(t[|t| - 1])
    ensures Parse12WithMinutes(t).None? && Parse12(t).None?
  {
    if |t| >= 2 {
      assert t[|t| - 2..][1] == t[|t| - 1];
    }
    var k := IndexOf(t, ':');
    if k < |t| && |t[k + 1..]| >= 2 {
      var rest := t[k + 1..];
      assert rest[|rest| - 2..][1] == t[|t| - 1];
    }
  }

  // ----- Normalisation of typed text -----

  /** The characters of the typed forms: digits, the colon and the letters of `am` and `pm`. */
  predicate TypedChar(c: char)
  {
    IsDigit(c) || c == ':' || c == 'a' || c == 'p' || c == 'm'
  }

  predicate Typeable(s: string)
  {
    forall i :: 0 <= i < |s| ==> TypedChar(s[i])
  }

  lemma TypeableAppend(a: string, b: string)
    requires Typeable(a) && Typeable(b)
    ensures Typeable(a + b)
  {
    forall i | 0 <= i < |a + b|
      ensures TypedChar((a + b)[i])
    {
      if i >= |a| {
        assert (a + b)[i] == b[i - |a|];
      }
    }
  }

  lemma AmPmShape(pm: bool)
    ensures var s := AmPm(pm); |s| == 2 && s[1] == 'm' && Typeable(s) && ':' !in s
  {
  }

  /** Text without white space at either end or upper-case letters is unchanged by `strip` and
      `lower`. */
  lemma PlainTextUnchanged(s: string)
    requires |s| > 0 && !IsSpace(s[0]) && !IsSpace(s[|s| - 1])
    requires forall i :: 0 <= i < |s| ==> !('A' <= s[i] <= 'Z')
    ensures Lower(Strip(s)) == s
  {
    assert TrimStart(s) == s;
    assert TrimEnd(s) == s;
    assert Strip(s) == s;
    assert forall i :: 0 <= i < |s| ==> Lower(s)[i] == s[i];
  }

  /** Text that is already stripped, lower case, free of spaces and without a zone hint at its
      end is what the patterns see. */
  lemma NormalizeIdentity(s: string)
    requires |s| > 0 && !IsSpace(s[0]) && !IsSpace(s[|s| - 1])
    requires forall i :: 0 <= i < |s| ==> s[i] != ' ' && !('A' <= s[i] <= 'Z')
    requires !HasHint(s)
    ensures Normalize(s) == s
  {
    PlainTextUnchanged(s);
    RemoveAbsentChar(s, ' ');
  }

  /** Every hint ends in `y` or `t`, so text ending otherwise carries none. */
  lemma NoHintAtEnd(s: string)
    requires |s| > 0 && s[|s| - 1] != 'y' && s[|s| - 1] != 't'
    ensures !HasHint(s)
  {
    EndsWithLastTwo(s, "ny");
    EndsWithLastTwo(s, "et");
    EndsWithLastTwo(s, "est");
    EndsWithLastTwo(s, "edt");
  }

  /** Typed text ending in a digit or in `m` is its own normal form, and is not blank. */
  lemma NormalizeTyped(s: string)
    requires |s| > 0 && Typeable(s) && (IsDigit(s[|s| - 1]) || s[|s| - 1] == 'm')
    ensures Normalize(s) == s && Lower(Strip(s)) == s
  {
    assert forall i :: 0 <= i < |s| ==> s[i] != ' ' && !('A' <= s[i] <= 'Z') && !IsSpace(s[i]) by {
      forall i | 0 <= i < |s|
        ensures s[i] != ' ' && !('A' <= s[i] <= 'Z') && !IsSpace(s[i])
      {
        assert TypedChar(s[i]);
      }
    }
    NoHintAtEnd(s);
    NormalizeIdentity(s);
    PlainTextUnchanged(s);
  }

  lemma DigitsTypeable(s: string)
    requires AllDigits(s)
    ensures Typeable(s) && ':' !in s
  {
    assert forall i :: 0 <= i < |s| ==> IsDigit(s[i]);
  }

  // ----- What `parse_time_of_day` reads -----

  /** Any `%I:%M%p` text, such as `9:55am`, `09:55am` or `12:05pm`, reads as its time. */
  lemma ReadsTyped12WithMinutes(c: ClockTime, hw: nat, mw: nat)
    requires ValidClock(c) && Fits(Hour12(c.hour), hw) && Fits(c.minute, mw)
    ensures ParseTimeOfDay(Typed12WithMinutes(c, hw, mw)) == Ok(c)
  {
    var h, m, mer := PadDigits(Hour12(c.hour), hw), PadDigits(c.minute, mw), MeridiemText(c.hour);
    var t := h + ":" + m + mer;
    DigitsTypeable(h);
    DigitsTypeable(m);
    AmPmShape(c.hour >= 12);
    assert Typeable(":");
    TypeableAppend(h, ":");
    TypeableAppend(h + ":", m);
    TypeableAppend(h + ":" + m, mer);
    assert t[|t| - 1] == mer[1];
    NormalizeTyped(t);
    ReadTyped12WithMinutes(c, hw, mw);
  }

  /** Any `%I%p` text, such as `9pm` or `12am`, reads as that hour. */
  lemma ReadsTyped12(c: ClockTime, hw: nat)
    requires ValidClock(c) && c.minute == 0 && Fits(Hour12(c.hour), hw)
    ensures ParseTimeOfDay(Typed12(c, hw)) == Ok(c)
  {
    var h, mer := PadDigits(Hour12(c.hour), hw), MeridiemText(c.hour);
    var t := h + mer;
    DigitsTypeable(h);
    AmPmShape(c.hour >= 12);
    TypeableAppend(h, mer);
    assert t[|t| - 1] == mer[1];
    assert ':' !in t by {
      assert forall i :: 0 <= i < |t| ==> t[i] == (if i < |h| then h[i] else mer[i - |h|]);
    }
    NoColon(t);
    NormalizeTyped(t);
    ReadTyped12(c, hw);
  }

  /** Any `%H:%M` text, such as `9:30` or `21:05`, reads as its time. */
  lemma ReadsTyped24WithMinutes(c: ClockTime, hw: nat, mw: nat)
    requires ValidClock(c) && Fits(c.hour, hw) && Fits(c.minute, mw)
    ensures ParseTimeOfDay(Typed24WithMinutes(c, hw, mw)) == Ok(c)
  {
    var t := Typed24WithMinutes(c, hw, mw);
    Typed24WithMinutesTypeable(c, hw, mw);
    NormalizeTyped(t);
    EndsInDigitNot12(t);
    ReadTyped24WithMinutes(c, hw, mw);
  }

  lemma Typed24WithMinutesTypeable(c: ClockTime, hw: nat, mw: nat)
    requires ValidClock(c) && Fits(c.hour, hw) && Fits(c.minute, mw)
    ensures var t := Typed24WithMinutes(c, hw, mw); |t| > 0 && Typeable(t) && IsDigit(t[|t| - 1])
  {
    var h, m := PadDigits(c.hour, hw), PadDigits(c.minute, mw);
    var t := h + ":" + m;
    DigitsTypeable(h);
    DigitsTypeable(m);
    assert Typeable(":");
    TypeableAppend(h, ":");
    TypeableAppend(h + ":", m);
    assert t[|t| - 1] == m[|m| - 1];
  }

  /** `%H:%M` text followed by a zone hint, such as `9:30 et` or `21:05ny`, reads as its time. */
  lemma ReadsHintedTyped24WithMinutes(c: ClockTime, hw: nat, mw: nat, gap: string, hint: string)
    requires ValidClock(c) && Fits(c.hour, hw) && Fits(c.minute, mw)
    requires ZoneHint(hint) && (gap == "" || gap == " ")
    ensures ParseTimeOfDay(Typed24WithMinutes(c, hw, mw) + gap + hint) == Ok(c)
  {
    Typed24WithMinutesTypeable(c, hw, mw);
    ZoneHintIgnored(Typed24WithMinutes(c, hw, mw), gap, hint);
    ReadsTyped24WithMinutes(c, hw, mw);
  }

  /** Any `%H` text, such as `21` or `9`, reads as that hour. */
  lemma ReadsTyped24(c: ClockTime, hw: nat)
    requires ValidClock(c) && c.minute == 0 && Fits(c.hour, hw)
    ensures ParseTimeOfDay(Typed24(c, hw)) == Ok(c)
  {
    var t := PadDigits(c.hour, hw);
    DigitsTypeable(t);
    NormalizeTyped(t);
    EndsInDigitNot12(t);
    NoColon(t);
    Parse24Iff(t, c);
  }

  /** A time printed as `%H:%M` parses back to itself: the echo of a bound can be typed in again. */
  lemma FormatHMRoundTrip(t: ClockTime)
    requires ValidClock(t)
    ensures ParseTimeOfDay(FormatHM(t)) == Ok(t)
  {
    ReadsTyped24WithMinutes(t, 2, 2);
  }

  /** A time printed as `%I:%M%p` parses back to itself, so 12am is midnight and 12pm is noon. */
  lemma Format12RoundTrip(t: ClockTime)
    requires ValidClock(t)
    ensures ParseTimeOfDay(Format12(t)) == Ok(t)
  {
    To24OfHour12(t.hour);
    ReadsTyped12WithMinutes(t, 2, 2);
  }

  /** Where the digits of `%H:%M` text sit. */
  lemma FormatHMShape(t: ClockTime)
    requires ValidClock(t)
    ensures var s := FormatHM(t);
      && IsDigit(s[0]) && IsDigit(s[1]) && IsDigit(s[3]) && IsDigit(s[4])
      && s[..2] == PadDigits(t.hour, 2) && s[3..] == PadDigits(t.minute, 2)
  {
    var s := FormatHM(t);
    var h, m := PadDigits(t.hour, 2), PadDigits(t.minute, 2);
    assert s[..2] == h && s[3..] == m;
    assert IsDigit(h[0]) && IsDigit(h[1]) && IsDigit(m[0]) && IsDigit(m[1]);
    assert s[0] == h[0] && s[1] == h[1] && s[3] == m[0] && s[4] == m[1];
  }

  // ----- Zone hints -----

  /** At most one space follows the time once the hint is gone, and `strip` removes it. */
  lemma StripAfterGap(s: string, gap: string)
    requires |s| > 0 && !IsSpace(s[0]) && !IsSpace(s[|s| - 1]) && (gap == "" || gap == " ")
    ensures Strip(s + gap) == s
  {
    var v := s + gap;
    assert v[0] == s[0];
    assert TrimStart(v) == v;
    if gap == " " {
      assert v[..|v| - 1] == s;
      assert TrimEnd(v) == TrimEnd(s);
    } else {
      assert v == s;
    }
    assert TrimEnd(s) == s;
  }

  /** The hint a text ends with is removed together with the whitespace before it. The hints are
      tried in order, and the last two letters of each tell it apart from the ones tried before. */
  lemma DropHint(v: string, p: string, hint: string)
    requires ZoneHint(hint) && v == p + hint
    ensures DropZoneHint(v) == Strip(p)
  {
    var n := |hint|;
    assert v[..|v| - n] == p;
    HintEnding(v, p, hint);
    EndsWithLastTwo(v, "ny");
    EndsWithLastTwo(v, "et");
    EndsWithLastTwo(v, "est");
    assert hint == "edt" ==> EndsWith(v, "edt");
  }

  /** The last two letters of text ending in a hint are those of the hint. */
  lemma HintEnding(v: string, p: string, hint: string)
    requires ZoneHint(hint) && v == p + hint
    ensures |v| >= |hint| >= 2 && v[|v| - 1] == hint[|hint| - 1] && v[|v| - 2] == hint[|hint| - 2]
    ensures EndsWith(v, hint)
  {
    assert v[|v| - |hint|..] == hint;
  }

  /** Text ending in `x` ends in the last two letters of `x`. */
  lemma EndsWithLastTwo(v: string, x: string)
    requires |x| >= 2
    ensures EndsWith(v, x) ==> v[|v| - 1] == x[|x| - 1] && v[|v| - 2] == x[|x| - 2]
  {
    if EndsWith(v, x) {
      assert v[|v| - |x|..][|x| - 1] == v[|v| - 1];
      assert v[|v| - |x|..][|x| - 2] == v[|v| - 2];
    }
  }

  /** Removing a hint that follows typed text, with or without one space between. */
  lemma DropZoneHintAfter(s: string, gap: string, hint: string)
    requires |s| > 0 && !IsSpace(s[0]) && !IsSpace(s[|s| - 1])
    requires ZoneHint(hint) && (gap == "" || gap == " ")
    ensures DropZoneHint(s + gap + hint) == s
  {
    DropHint(s + gap + hint, s + gap, hint);
    StripAfterGap(s, gap);
  }

  /** Typed text followed by a hint is already stripped and lower case. */
  lemma HintedPlain(s: string, gap: string, hint: string)
    requires |s| > 0 && Typeable(s) && ZoneHint(hint) && (gap == "" || gap == " ")
    ensures var v := s + gap + hint; Lower(Strip(v)) == v && v != []
  {
    var v := s + gap + hint;
    assert TypedChar(s[0]);
    assert v[0] == s[0] && v[|v| - 1] == hint[|hint| - 1];
    forall i | 0 <= i < |v|
      ensures !('A' <= v[i] <= 'Z')
    {
      if i < |s| {
        assert v[i] == s[i] && TypedChar(s[i]);
      } else if i < |s| + |gap| {
        assert v[i] == gap[i - |s|];
      } else {
        assert v[i] == hint[i - |s| - |gap|];
      }
    }
    PlainTextUnchanged(v);
  }

  /** A trailing zone hint, with or without a space before it, changes nothing: `9:30 et` reads as
      `9:30`. */
  lemma ZoneHintIgnored(s: string, gap: string, hint: string)
    requires |s| > 0 && Typeable(s) && (IsDigit(s[|s| - 1]) || s[|s| - 1] == 'm')
    requires ZoneHint(hint) && (gap == "" || gap == " ")
    ensures ParseTimeOfDay(s + gap + hint) == ParseTimeOfDay(s)
  {
    NormalizeTyped(s);
    NormalizeHinted(s, gap, hint);
    SameNormalForm(s + gap + hint, s);
  }

  /** Typed text followed by a hint normalises to the typed text. */
  lemma NormalizeHinted(s: string, gap: string, hint: string)
    requires |s| > 0 && Typeable(s) && ZoneHint(hint) && (gap == "" || gap == " ")
    ensures Normalize(s + gap + hint) == s && Lower(Strip(s + gap + hint)) != []
  {
    var v := s + gap + hint;
    HintedPlain(s, gap, hint);
    TypeableUnspaced(s);
    DropZoneHintAfter(s, gap, hint);
    RemoveAbsentChar(s, ' ');
    assert Normalize(v) == RemoveChar(DropZoneHint(v), ' ');
  }

  /** Typed text holds no white space. */
  lemma TypeableUnspaced(s: string)
    requires |s| > 0 && Typeable(s)
    ensures !IsSpace(s[0]) && !IsSpace(s[|s| - 1]) && ' ' !in s
  {
    assert TypedChar(s[0]) && TypedChar(s[|s| - 1]);
    assert forall i :: 0 <= i < |s| ==> TypedChar(s[i]);
  }

  /** Two non-blank texts with the same normal form parse alike. */
  lemma SameNormalForm(v: string, s: string)
    requires Lower(Strip(v)) != [] && Lower(Strip(s)) != [] && Normalize(v) == Normalize(s)
    ensures ParseTimeOfDay(v) == ParseTimeOfDay(s)
  {
  }

  /** Typical inputs read as intended: `9:55am` (named by the error message) is 09:55, `9pm` and
      `21` are 21:00, and `9:30` and `9:30 et` are 09:30. */
  lemma DocumentedForms(text: string, t: ClockTime)
    requires || (text == "9:55am" && t == ClockTime(9, 55))
             || (text == "9pm" && t == ClockTime(21, 0))
             || (text == "21" && t == ClockTime(21, 0))
             || (text == "9:30" && t == ClockTime(9, 30))
             || (text == "9:30 et" && t == ClockTime(9, 30))
    ensures ParseTimeOfDay(text) == Ok(t)
  {
    if text == "9:55am" {
      Reads955am(text, t);
    } else if text == "9pm" {
      Reads9pm(text, t);
    } else if text == "21" {
      Reads21(text, t);
    } else if text == "9:30" {
      Reads930(text, t);
    } else {
      Reads930Et(text, t);
    }
  }

  lemma Reads955am(text: string, t: ClockTime)
    requires text == "9:55am" && t == ClockTime(9, 55)
    ensures ParseTimeOfDay(text) == Ok(t)
  {
    assert Typed12WithMinutes(t, 1, 2) == text;
    ReadsTyped12WithMinutes(t, 1, 2);
  }

  lemma Reads9pm(text: string, t: ClockTime)
    requires text == "9pm" && t == ClockTime(21, 0)
    ensures ParseTimeOfDay(text) == Ok(t)
  {
    assert Typed12(t, 1) == text;
    ReadsTyped12(t, 1);
  }

  lemma Reads21(text: string, t: ClockTime)
    requires text == "21" && t == ClockTime(21, 0)
    ensures ParseTimeOfDay(text) == Ok(t)
  {
    assert Typed24(t, 2) == text;
    ReadsTyped24(t, 2);
  }

  lemma Reads930(text: string, t: ClockTime)
    requires text == "9:30" && t == ClockTime(9, 30)
    ensures ParseTimeOfDay(text) == Ok(t)
  {
    assert Typed24WithMinutes(t, 1, 2) == text;
    ReadsTyped24WithMinutes(t, 1, 2);
  }

  lemma Reads930Et(text: string, t: ClockTime)
    requires text == "9:30 et" && t == ClockTime(9, 30)
    ensures ParseTimeOfDay(text) == Ok(t)
  {
    assert Typed24WithMinutes(t, 1, 2) + " " + "et" == text;
    ReadsHintedTyped24WithMinutes(t, 1, 2, " ", "et");
  }

  /** A bound given in the form the presets use parses to the time it names. */
  lemma PresetParses(text: string, t: ClockTime)
    requires ValidClock(t) && text == FormatHM(t)
    ensures ParseTimeOfDay(text) == Ok(t)
  {
    FormatHMRoundTrip(t);
  }
}

=== FILE: urls.dfy ===
/** `canonicalize_url`, identical in both TradingView exporters: the key under which an open tab is
    recognised as showing a chart. A URL is taken already split into its five `urlsplit`
    components; splitting and re-joining the text is not part of the model. */
module Urls {
  import opened Text

  datatype SplitUrl = SplitUrl(scheme: string, netloc: string, path: string, query: string, fragment: string)

  /** True when the path is empty or made only of slashes. */
  predicate OnlySlashes(path: string)
  {
    forall i :: 0 <= i < |path| ==> path[i] == '/'
  }

  /** The path without trailing slashes, or `/` when nothing else is left; the fragment dropped. */
  function Canonicalize(u: SplitUrl): (r: SplitUrl)
    ensures r.scheme == u.scheme && r.netloc == u.netloc && r.query == u.query && r.fragment == ""
    ensures r.path != [] && (r.path == "/" <==> OnlySlashes(u.path))
    ensures r.path != "/" ==>
      && StartsWith(u.path, r.path) && r.path[|r.path| - 1] != '/'
      && forall i :: |r.path| <= i < |u.path| ==> u.path[i] == '/'
  {
    var trimmed := TrimEndChar(u.path, '/');
    if trimmed == [] then
      SplitUrl(u.scheme, u.netloc, "/", u.query, "")
    else
      assert u.path[..|trimmed|] == trimmed;
      assert !OnlySlashes(u.path) by {
        assert u.path[|trimmed| - 1] != '/';
      }
      SplitUrl(u.scheme, u.netloc, trimmed, u.query, "")
  }

  /** Canonicalizing twice is canonicalizing once. */
  lemma CanonicalizeIdempotent(u: SplitUrl)
    ensures Canonicalize(Canonicalize(u)) == Canonicalize(u)
  {
    var c := Canonicalize(u);
    if c.path != "/" {
      assert TrimEndChar(c.path, '/') == c.path;
    } else {
      assert TrimEndChar("/", '/') == [];
    }
  }

  /** Two URLs reach the same tab exactly when they agree on scheme, host and query and their paths
      differ only in trailing slashes, the bare `/` counting as empty. */
  lemma SameTabIff(u: SplitUrl, v: SplitUrl)
    ensures Canonicalize(u) == Canonicalize(v) <==>
      && u.scheme == v.scheme && u.netloc == v.netloc && u.query == v.query
      && TrimEndChar(u.path, '/') == TrimEndChar(v.path, '/')
  {
    var tu, tv := TrimEndChar(u.path, '/'), TrimEndChar(v.path, '/');
    if tu == [] && tv != [] {
      assert tv[|tv| - 1] != '/';
      assert Canonicalize(v).path != "/";
    } else if tu != [] && tv == [] {
      assert tu[|tu| - 1] != '/';
      assert Canonicalize(u).path != "/";
    }
  }
}
